=== FILE: README.md ===
# lagom core, modelled in Dafny

lagom is a dependency-injection container for Python. A `Container` maps
type keys to definitions. A definition is one of the following:

- a construction function, with or without the container as its argument;
- an alias to another type;
- a singleton wrapping another definition;
- a context resolver that enters a context manager.

`resolve` looks a key up and builds the instance it needs:

- through its definition;
- otherwise by reflecting over the class constructor and resolving each
  annotated parameter in turn.

`partial` binds a function to a container, so that missing arguments are
filled in at call time. Several other pieces sit around this core:

- the composition of several definition sources into one container;
- the context-bound containers (the current one, the legacy one and the
  asynchronous experimental one), which acquire context managers per scope
  and release them on exit;
- the explicit container, which never reflects;
- `update_container_singletons` and the temporary injection context;
- the decorators that turn functions into definitions;
- the argument-updating wrapper used by bound functions.

The model is functional and threads its state explicitly:

- `Types` holds type keys, values, errors and `Result`.
- `Defs` holds definitions, containers and the `State`. The state holds:
  - a fresh-id counter;
  - the singleton cells;
  - the exit stacks;
  - the releases performed so far;
  - the `AwaitableSingleton` cells.
- `Registry` holds `define`, `clone` and `defined_types`.
- `Engine` holds the mutually recursive resolution group.

Resolution is bounded by fuel. When the fuel runs out the result is
`RecursionLimit`, which stands for Python's `RecursionError`.

The Python runtime is passed to `Resolve` as a `World` parameter, and is
not modelled. The `World` gives:

- the constructors reflection would find;
- the classes known to be context managers.

A function is an abstract descriptor: its parameters, annotations, kind
(plain, coroutine, generator, async generator) and a small body language.
`inspect`/`get_type_hints` are not used.

Where lagom's code evidently does not do what it means to, the main model
follows the intended behaviour. The code as written is modelled beside it
where that is possible (see Findings):

- `ExplicitContainer.define` is meant to refuse aliases. As written it
  keeps them, because the base `define` returns `None`. Both versions are
  modelled.
- The dependencies shared by `partial` each load their own key, as the
  documentation promises, and `partial`'s call uses that version. The
  model of the code as written loads the last listed key.
- `compose` is modelled as the merged container over the source list. As
  written, it hands a `_SourceList` to `Container(container=...)`, which
  reads a `_registered_types` attribute the list does not have. That
  failure is not modelled (see Left out).

## Model

| member | source | states |
|---|---|---|
| Reflection.MakeSpec | lagom/util/reflection.py:36-41 | a function spec's arity is the number of its arguments, and the other fields are kept as given |
| Reflection.Without | lagom/util/reflection.py:59 | filtering a name out of an argument list keeps every other name in its original order and with its multiplicity (the multiset minus all copies of the name), and is the identity when the name is absent |
| Reflection.WithoutCommutes | lagom/util/reflection.py:53-60 | removing two argument names gives the same list in either order |
| Reflection.WithoutArgument | lagom/util/reflection.py:53-60 | `without_argument(n)` removes every occurrence of n from args, keeps the other arguments in order and with their multiplicity, keeps annotations, defaults and return type, and recomputes the arity |
| Reflection.WithoutArgumentIdempotent | lagom/util/reflection.py:53-60 | removing the same argument twice is the same as removing it once |
| Reflection.PositionalNames | lagom/util/reflection.py:96 | the spec's args are exactly the names of the positional parameters, in declaration order: the parameter with k positional parameters before it is argument k |
| Reflection.DefaultArgs | lagom/util/reflection.py:105-111 | the defaults map holds exactly the parameters that declare a default, each with its own default value |
| Reflection.ReturnHint | lagom/util/reflection.py:99 | a return hint exists iff some annotation is named "return", and it is that annotation's type |
| Reflection.DropReturn | lagom/util/reflection.py:99 | the stored annotations are exactly the given ones other than "return", in their original order |
| Reflection.Reflect | lagom/util/reflection.py:90-102 | the reflected spec is well formed, and keeps the positional parameters and the non-return annotations in declaration order; its defaults are exactly `_get_defaults` of the parameters (`Reflection.DefaultArgs`); its return type is the hint, or `Awaitable[hint]` for a coroutine function |
| Reflection.BindParams | lagom/wrapping.py:43-45 | binding parameter by parameter succeeds exactly when the binding rules hold; then every parameter is bound, each to its positional argument, else its keyword argument, else its default, and a keyword argument is passed unchanged |
| Reflection.Bind | lagom/wrapping.py:43-45 | a call binds exactly when every keyword names a parameter and the binding rules hold (TypeError otherwise); on success each parameter holds its positional argument, keyword argument or default, and each keyword argument is passed unchanged |
| Reflection.PositionalOrderKept | lagom/util/reflection.py:96-102 | of two positional parameters, the one declared first comes first among the spec's args |
| Reflection.CacheOverview | lagom/util/reflection.py:71-78 | the cache overview is always the single entry "hidden" with an empty value |
| Reflection.RemoveOptionalType | lagom/util/reflection.py:114-126 | a key yields an inner type iff it is a two-argument generic whose second argument is NoneType, and that inner type is the first argument |
| Reflection.OptionalRoundTrip | lagom/util/reflection.py:114-126 | stripping `Optional[T]` gives back T; a non-generic key gives nothing |
| Reflection.RemoveAwaitableType | lagom/util/reflection.py:129-139 | a key yields an inner type iff it is `Awaitable[...]`, and that inner type is its first argument |
| Reflection.AwaitableRoundTrip | lagom/util/reflection.py:129-139 | stripping `Awaitable[T]` gives back T; `int` gives nothing |
| Types.Dedupe | lagom/context_based.py:115-118 | the de-duplicated list holds the same members as the input, each once |
| Defs.ConstantCallable | lagom/definitions.py:109 | the constant loader `lambda: value` is a plain function of arity 0 |
| Defs.Construction | lagom/definitions.py:37-51 | arity 0 gives a construction without the container, arity 1 one with it, and any other arity gives InvalidDependencyDefinition; each holds both ways |
| Defs.Normalise | lagom/definitions.py:97-111 | a special definition is kept; a function goes through `construction`; a class becomes an alias; any other value becomes a singleton of that constant in a fresh cell; errors leave the state unchanged |
| Defs.MakeSingleton | lagom/definitions.py:73-76 | a singleton normalises its argument and wraps it with a fresh empty cell; a normalising error propagates |
| Defs.SingletonOfClassWrapsAlias | lagom/definitions.py:97-111 | `Singleton(SomeClass)` wraps `Alias(SomeClass)` in a fresh empty cell |
| Defs.NormaliseIdempotent | lagom/definitions.py:102-103 | normalising an already normalised definition returns it unchanged, without touching the state |
| Defs.FirstDefined | lagom/context_based.py:126-131 | the lookup finds a definition iff some candidate key is defined, and returns the definition of the first such key in list order |
| Registry.NewContainer | lagom/container.py:54-65 | a new container starts with no keys of its own and inherits the given container's definitions, or none |
| Registry.Clone | lagom/container.py:195-199 | a clone carries the same definitions, with an empty layer of its own |
| Registry.DefinedTypes | lagom/container.py:85-91 | the defined types are exactly the keys that have a definition |
| Registry.Define | lagom/container.py:67-83 | a primitive key is refused, a key already in this layer is a DuplicateDefinition, and otherwise the normalised definition is stored while every other key keeps its definition; errors change nothing |
| Registry.DuplicateKeepsFirst | lagom/container.py:80-83 | defining a key twice in one layer fails and keeps the first definition |
| Registry.CloneMayRedefine | lagom/container.py:58-83 | a clone may redefine any non-primitive key it inherited, leaving the other keys alone |
| Registry.CloneSharesSingletons | lagom/container.py:58-62 | a singleton that has been built resolves to the same instance in the container and in its clone |
| Registry.DefineThenResolve | lagom/container.py:134-140 | after defining a key, resolving it runs that definition, with a failure renamed after the key |
| Engine.Recover | lagom/container.py:142-145 | an unresolvable failure becomes None when errors are suppressed and UnresolvableType of the requested key otherwise; other outcomes pass through |
| Engine.EnterManager | lagom/context_based.py:152-154 | entering a manager succeeds only for a known context manager on an open stack, yields a fresh object of the managed type, and pushes exactly one exit on that stack |
| Engine.Construct | lagom/container.py:210-213 | `dep_type(**sub_deps)` yields a fresh object of the requested class whose fields are the constructor's binding of the keyword arguments, and does so whenever that binding succeeds and the constructor raises nothing; a binding error or a TypeError raised by the constructor is UnresolvableType, and any other raised error passes through unchanged |
| Engine.Skipped | lagom/container.py:222-223 | the skipped names are the given keyword names plus the first positional names already supplied |
| Engine.Resolve | lagom/container.py:97-145 | resolution only extends the state; in a plain container, suppression never lets an unresolvable error out, and an unresolvable error always names the requested key |
| Engine.ResolveBase | lagom/container.py:128-145 | the base resolution names the requested key in every unresolvable error and never returns one when suppressed |
| Engine.ResolveExplicit | lagom/experimental/container.py:11-23 | an undefined key is None when suppressed and DependencyNotDefined with the "has not been defined" message otherwise |
| Engine.ResolveContextType | context_based.py:21-26 | outside `with` the lookup fails (AttributeError before the first entry, AssertionError after exit), and without an Iterator or Generator definition it fails |
| Engine.Invoke | lagom/definitions.py:21-34 | a construction is called with the container exactly when its arity is 1, and a wrong arity is a TypeError |
| Engine.GetInstance | lagom/definitions.py:15-94 | getting an instance of any definition only extends the state |
| Engine.ReflectionBuild | lagom/container.py:207-213 | a class without a known constructor is unresolvable, and a successful build is a new object of that class whose fields are exactly the constructor's parameters |
| Engine.BuiltFromInferredDependencies | lagom/container.py:207-213 | the reflective build binds the constructor to its inferred dependencies: an inference error is the build's error, the object's fields are the binding of the inferred map, and it is built whenever that binding succeeds and the constructor raises nothing |
| Engine.BuildWith | lagom/container.py:209-213 | building from an inference outcome passes its error through, and otherwise constructs a fresh object whose fields are the binding of the inferred map |
| Engine.InferDependencies | lagom/container.py:215-230 | the inferred keyword arguments are the resolutions of the wanted annotations with exactly the None results dropped, values kept; never a skipped name or a positional argument already supplied; a resolution error is the inference's error, and suppressed errors are not unresolvable |
| Engine.InferredHeadDependency | lagom/container.py:224-229 | the first wanted annotation is resolved once: its error fails the inference, None leaves the parameter to its default, any other value is passed under the parameter's name |
| Engine.ResolveAll | lagom/container.py:224-228 | the resolved map holds exactly the wanted annotations; the first wanted one is resolved first, its error is the result, and its value is kept unless a later annotation reuses the name |
| ExitStacks.CloseStack | lagom/context_based.py:122-123 | closing a stack of exits releases them in reverse order of acquisition |
| ExitStacks.LastEnteredFirstReleased | lagom/context_based.py:122-123 | the first release on closing is the exit pushed last |
| ExitStacks.NestedScopeLeftLast | lagom/experimental/context_based.py:150-158 | closing a root stack releases its managers in reverse and then the nested in-context stack, which is cleared |
| ResolutionLaws.OptionalIsSuppressed | lagom/container.py:129-131 | `Optional[T]` resolves T with errors suppressed, so it is never unresolvable |
| ResolutionLaws.PrimitiveKeysAreUnresolvable | lagom/container.py:128-145 | a primitive key is None when suppressed and UnresolvableType otherwise, without touching the state |
| ResolutionLaws.DefinitionPrecedence | lagom/container.py:134-141 | a defined key uses its definition and an undefined one reflection; `skip_definitions` always reflects |
| ResolutionLaws.SelfAliasBuildsByReflection | lagom/definitions.py:62-63 | an alias to its own key builds by reflection instead of looping |
| ResolutionLaws.WithoutContainerIgnoresContainer | lagom/definitions.py:21-23 | a construction without the container gives the same outcome in any container |
| ResolutionLaws.WithContainerPassesContainer | lagom/definitions.py:32-34 | a construction with the container receives exactly the resolving container |
| ResolutionLaws.ConstructionIsNotCached | lagom/definitions.py:15-23 | two consecutive gets of a construction produce two distinct objects |
| ResolutionLaws.SingletonReturnsCachedInstance | lagom/definitions.py:78-86 | a singleton holding an instance returns it and changes nothing |
| ResolutionLaws.SingletonBuildsOnce | lagom/definitions.py:78-94 | an empty singleton builds through its inner definition, and after a non-None build every later get returns the same value without building |
| ResolutionLaws.ResolvedSingletonIsStable | lagom/container.py:134-140 | resolving a singleton key a second time returns the first result and changes nothing |
| ResolutionLaws.SingletonRebuildsAfterNone | lagom/definitions.py:89-90 | a singleton whose definition produced None stays empty and builds again on the next get |
| ResolutionLaws.BuildsWithoutDependencies | lagom/container.py:207-213 | an undefined class whose constructor takes nothing resolves to a fresh object with no fields |
| ResolutionLaws.InferOneDependency | lagom/container.py:215-230 | for a constructor with one annotated parameter, the inferred map is that parameter's resolution, or empty when it resolved to None |
| ResolutionLaws.BuildsFromOneDependency | lagom/container.py:207-230 | an undefined class with one annotated parameter resolves to a fresh object whose field holds the parameter type's resolution, built before the object |
| ResolutionLaws.ReflectionBuildOneDependency | lagom/container.py:207-213 | the reflective build of such a class passes the resolved dependency under the parameter's name |
| ResolutionLaws.ReflectionBuildKeepsDefault | lagom/container.py:224-229 | when the dependency resolves to None it is dropped, and the constructor's default is used instead |
| ResolutionLaws.BuildsWithOneParameter | lagom/container.py:211 | a one-parameter constructor gets the inferred value, or its default when the inference dropped the name |
| ResolutionLaws.CarsShareSingletonEngine | lagom/container.py:207-230 | two Cars built by reflection with their Engine defined as a singleton are different objects holding the same, first-built Engine |
| ResolutionLaws.ReflectionBuildsDistinctObjects | lagom/container.py:207-213 | two reflective resolutions of an undefined key give objects with distinct, increasing identities |
| ResolutionLaws.ExplicitUndefinedKey | lagom/experimental/container.py:14-22 | an explicit container gives None for an undefined key when suppressed, and otherwise DependencyNotDefined with the exact message |
| ResolutionLaws.ExplicitIgnoresSkipAndOptional | lagom/experimental/container.py:11-23 | an explicit container ignores `skip_definitions`, and does not strip Optional from an undefined `Optional[T]` |
| ResolutionLaws.ExplicitSelfAliasNeverResolves | lagom/experimental/container.py:11-23 | in an explicit container an alias to its own key recurses until the recursion limit |
| ResolutionLaws.LegacyDelegatesOtherKeys | context_based.py:28 | the legacy context container hands every key that is not a context type to the base resolution |
| ResolutionLaws.LegacyContextTypeNeedsWith | context_based.py:21-22 | a context type fails with AttributeError before any `with` and with AssertionError after exit |
| ResolutionLaws.LegacyContextTypeEntersManager | context_based.py:21-26 | a resolved context type needs an Iterator or Generator definition, pushes a synchronous manager exit on the open stack, and is a fresh object |
| ResolutionLaws.ContextResolverPushesExit | lagom/context_based.py:146-154 | a context resolver that succeeds pushes an exit of the same kind on its stack, and it fails on a cleared stack |
| Binding.InstallOne | lagom/container.py:240 | installing a shared key adds a singleton over its loader in a fresh empty cell, and fails only for a primitive key |
| Binding.InstallShared | lagom/container.py:235-241 | installing the shared keys fails iff one is primitive, and otherwise draws one fresh cell per key |
| Binding.InstallSharedKeepsRest | lagom/container.py:235-241 | existing cells and the definitions of keys that are not shared are untouched |
| Binding.InstallSharedSlots | lagom/container.py:239-240 | the key at position i holds a singleton over the loader of target i in its own fresh, empty cell |
| Binding.BuildShared | lagom/container.py:232-243 | the per-call container keeps every non-shared definition and gives each shared key a fresh singleton over the loader of its target |
| Binding.SharedContainer | lagom/container.py:171-177 | with no shared keys the container itself is used; otherwise every shared key is a fresh singleton loading that key from the original container |
| Binding.SharedContainerAsWritten | lagom/container.py:232-243 | as written, every shared key's singleton loads the last key of the shared list as given, repeats included |
| Binding.SharedAsWrittenRepeatedLast | lagom/container.py:233 | as written, for shared keys [A, B, A] both A and B load A, while as intended B loads B |
| Binding.SharedLoaderLateBinding | lagom/container.py:233 | for shared keys [A, B], A loads B as written and A as intended |
| Binding.SharedKeyResolvesFromOrigin | lagom/container.py:233 | a shared key's loader gives what the original container resolves for that key |
| Binding.EmptyLoaderResolvesTarget | lagom/container.py:233-240 | an empty singleton over a shared key's loader resolves what the original container resolves for that key |
| Binding.SharedIdenticalWithinCall | lagom/container.py:232-243 | within one call, a shared key resolves to the same instance every time |
| Binding.SharedFreshAcrossCalls | lagom/container.py:232-243 | two calls give a shared key two different cells, the second one still empty |
| Binding.CallPartial | lagom/container.py:147-193 | a bound call fails with the shared-container error, and otherwise binds every parameter while keeping the caller's keyword arguments; what omitted parameters receive is stated by `Binding.PartialPassesDependencies` |
| Binding.PartialPassesDependencies | lagom/container.py:182-191 | a bound call infers its dependencies in the per-call container, skipping the caller's keywords and positions: an inference error is the call's error, and every inferred parameter is called with the container's resolved value; the call succeeds with that binding when binding succeeds and the function raises nothing |
| PartialLaws.SharedCacheDependencies | lagom/container.py:215-230 | inside one call, the first dependency builds the shared cache into its singleton and the second is given that same cache |
| PartialLaws.PartialCallSharesCache | lagom/container.py:171-193 | `partial(f, shared=[Cache])` called with nothing passes both dependencies the same, freshly built Cache |
| PartialLaws.PartialCallsBuildTheirOwnCache | lagom/container.py:232-243 | two calls of that partial each share one Cache between its dependencies, and the two calls use different Caches |
| Wrapping.Call | lagom/wrapping.py:45 | calling a function binds its parameters (TypeError on failure), raises what the body raises, and otherwise returns the binding; it succeeds exactly when binding succeeds and the body raises nothing |
| Wrapping.UnresolvableDeps | lagom/wrapping.py:48-52 | the reported types are exactly the annotated parameters missing from the final keyword arguments |
| Wrapping.UnresolvableDepsConcat | lagom/wrapping.py:48-52 | the report over a concatenation is the concatenation of the reports, so annotation order is kept |
| Wrapping.CallWithErrorHandling | lagom/wrapping.py:33-55 | a TypeError raised by the call itself (a binding failure, or a plain function's body) becomes UnableToInvokeBoundFunction listing the missing annotated types; a coroutine's or generator's body raises after the call and its TypeError passes through, as do success and other errors |
| Wrapping.ApplyArgumentUpdater | lagom/wrapping.py:12-30 | the wrapper is asynchronous iff the function is a coroutine, and calls it with the updated arguments, translating TypeError only when asked to |
| Wrapping.IdentityUpdaterIsTransparent | lagom/wrapping.py:12-30 | with the identity updater and no error handling, the wrapped call is the plain call |
| Composition.GetDefinition | lagom/composition.py:27-37 | a key's definition comes from the first source, in argument order, that defines it, and is None iff no source does |
| Composition.DefinedTypesOf | lagom/composition.py:39-45 | the defined types are the union of every source's |
| Composition.DefinedIffFound | lagom/composition.py:27-45 | a key is in the defined types iff a definition is found for it |
| Composition.FindClash | lagom/composition.py:51-55 | the inner loop finds a clashing key iff the two sources overlap outside ContainerDebugInfo |
| Composition.AssertUniqueDependencies | lagom/composition.py:48-56 | the check passes iff no two positions share a key, and otherwise reports the first overlapping pair in visiting order |
| Composition.SameSourceTwiceOverlaps | lagom/composition.py:48-56 | passing the same non-empty source twice fails the check |
| Composition.DisjointSourcesAreUnique | lagom/composition.py:48-56 | sources with disjoint keys pass the check |
| Composition.Merge | lagom/composition.py:10-14 | the merged map holds the defined types, each with its first source's definition |
| Composition.Compose | lagom/composition.py:10-14 | composing succeeds iff the sources are unique, and gives a container whose keys are the sources' keys with their definitions |
| Composition.UniqueSourceOwnsKey | lagom/composition.py:27-56 | after a passing check each key's definition is the one of the single source that defines it |
| Scopes.NewScope | lagom/context_based.py:65-75 | a new scope is unused, keeps the container and both type lists, and owns a fresh empty stack |
| Scopes.ScopeClone | lagom/context_based.py:77-82 | cloning a used scope is a ContextReuseError; otherwise the clone is unused, with the same container and lists and a new stack |
| Scopes.ContextTypeDef | lagom/context_based.py:125-138 | the manager is the first of ContextManager[T], Iterator[T], Generator[T] that is defined, bound to this scope's stack; none gives InvalidDependencyDefinition naming T |
| Scopes.SingletonTypeDef | lagom/context_based.py:140-144 | a context singleton is a fresh empty singleton over the context type's resolver, and fails exactly when that resolver does |
| Scopes.InstallContextTypes | lagom/context_based.py:115-116 | installing the context types fails iff one cannot be defined, and otherwise each holds its resolver |
| Scopes.InstallSingleton | lagom/context_based.py:118 | one context singleton is defined iff it can be, over a fresh empty cell |
| Scopes.InstallSingletons | lagom/context_based.py:117-118 | installing the context singletons fails iff one cannot be defined, and keeps existing cells |
| Scopes.InstallSingletonsFresh | lagom/context_based.py:117-118 | each installed context singleton is fresh and empty |
| Scopes.Populate | lagom/context_based.py:114-118 | populating the clone only extends the state and leaves the stacks alone |
| Scopes.PopulateSucceeds | lagom/context_based.py:114-118 | populating succeeds iff every context type and context singleton can be defined |
| Scopes.PopulateContents | lagom/context_based.py:114-118 | a populated clone holds a resolver per context type, a fresh singleton per context singleton, and the wrapped container's definitions elsewhere |
| Scopes.PopulateSpec | lagom/context_based.py:114-118 | success iff every entry can be defined, and on success the clone has the contents above |
| Scopes.ScopeEnter | lagom/context_based.py:110-120 | entering marks the scope used, is a ContextReuseError when it was used, and otherwise yields the populated clone exactly when populating can succeed |
| Scopes.ScopeExit | lagom/context_based.py:122-123 | exiting releases the scope's exits in reverse order and leaves an empty stack |
| Scopes.EnterTwiceFails | lagom/context_based.py:110-113 | a second entry of the same scope is a ContextReuseError |
| Scopes.BothListsCollide | lagom/context_based.py:115-118 | a type listed as both a context type and a context singleton fails entry with DuplicateDefinition |
| Scopes.ContextTypeResolvesThroughScope | lagom/context_based.py:125-154 | inside the scope a context type resolves through a resolver over the first defined manager, on this scope's stack |
| Scopes.ContextSingletonOncePerScope | lagom/context_based.py:140-144 | within one scope a context singleton resolves to the same instance every time |
| Scopes.ScopedCall | lagom/context_based.py:84-95 | a bound call on a used scope is a ContextReuseError; otherwise a fresh clone of the scope is entered (its error is the call's), the result is the function's call bound to the in-context container, and the clone is exited afterwards, its stack closed and left empty |
| Scopes.ScopedCallEntersOnCloneStack | lagom/context_based.py:84-95 | inside a scoped call a context type resolves by entering its first defined manager onto the clone's own fresh stack |
| LegacyScope.NewLegacy | context_based.py:14-16 | the legacy container keeps the base definitions, records the context types and has no stack yet |
| LegacyScope.LegacyEnter | context_based.py:30-32 | entering installs a fresh empty stack and returns the same container |
| LegacyScope.LegacyExit | context_based.py:34-37 | exiting succeeds iff a stack is open, releases its exits in reverse, and clears it; it fails with AttributeError before entry and with AssertionError after exit |
| LegacyScope.ExitBeforeEnterFails | context_based.py:34-35 | exiting a container never entered fails with AttributeError |
| LegacyScope.AfterExitNothingResolves | context_based.py:21-37 | after exit, exiting again and resolving a context type both fail with AssertionError |
| LegacyScope.EnterResolveExit | context_based.py:21-37 | enter, resolve a context type, exit: exactly one manager exit is released |
| AsyncScopes.NewAsync | lagom/experimental/context_based.py:109-118 | a new async container is a root over a new layer of the base, with the two lists and no live stack |
| AsyncScopes.AsyncContextTypeDef | lagom/experimental/context_based.py:194-209 | the manager is the first defined in the order ContextManager, Iterator, Generator, AsyncGenerator, AsyncContextManager, stated key by key; it is entered asynchronously iff an async manager is defined; none gives InvalidDependencyDefinition naming T |
| AsyncScopes.InstallAsyncTypes | lagom/experimental/context_based.py:141-144 | each context type is installed under `Awaitable[T]` when async and under T otherwise, and a type without a manager fails |
| AsyncScopes.InstallAsyncSingleton | lagom/experimental/context_based.py:233-240 | a context singleton is installed under `AwaitableSingleton[T]` when async, in a fresh empty cell, keeping every other definition |
| AsyncScopes.InstallAsyncSingletons | lagom/experimental/context_based.py:145-148 | all context singletons are installed as above, and a singleton without a manager fails |
| AsyncScopes.RootStack | lagom/experimental/context_based.py:132-133 | the root's stack is kept when live and created empty otherwise |
| AsyncScopes.PopulateAsync | lagom/experimental/context_based.py:137-148 | populating the in-context clone only grows the state and fails only with a definition error |
| AsyncScopes.PopulateAsyncSpec | lagom/experimental/context_based.py:137-148 | a listed type without a manager fails the entry, and success gives the resolvers, the singletons and the root's other definitions |
| AsyncScopes.PopulateAsyncFails | lagom/experimental/context_based.py:194-201 | a listed type without any manager fails the entry |
| AsyncScopes.AEnter | lagom/experimental/context_based.py:131-153 | a non-root container returns itself; a root returns a new non-root clone with its own empty stack and the populated definitions, and pushes that clone's exit on its own stack |
| AsyncScopes.FirstEntryPushesClone | lagom/experimental/context_based.py:131-152 | the first entry leaves the root stack holding exactly the clone's exit and the clone's stack empty |
| AsyncScopes.AExit | lagom/experimental/context_based.py:155-158 | exiting a live root releases its stack in reverse order and clears it |
| AsyncScopes.CloneLeftAfterManagers | lagom/experimental/context_based.py:150-158 | on exit the root's managers are released in reverse and the in-context clone's stack is left last and cleared |
| AsyncScopes.AwaitableSingletonGet | lagom/experimental/context_based.py:52-57 | a falsy stored instance is rebuilt through the constructor against the root and stored; a truthy one is returned unchanged |
| AsyncScopes.AwaitableSingletonBuildsOnce | lagom/experimental/context_based.py:52-57 | after a truthy build, getting again returns the same value and changes nothing |
| AsyncScopes.AwaitableSingletonRebuildsFalsy | lagom/experimental/context_based.py:52-57 | a build that gives the empty string is stored but not kept: the next get builds again |
| AsyncScopes.AwaitableSingletonEntersOnRoot | lagom/experimental/context_based.py:233-240 | the awaitable singleton's constructor is the asynchronous context resolver on the root's stack |
| AsyncScopes.AwaitableSingletonKeyGivesHandle | lagom/experimental/context_based.py:145-148 | resolving `AwaitableSingleton[T]` gives a handle to an object whose constructor is T's resolver over the root |
| AsyncScopes.EachEntryHasItsOwnSingletons | lagom/experimental/context_based.py:136-148 | two entries of the same root give a context singleton two different definitions |
| AsyncScopes.ContextTypeNeedsLiveRoot | lagom/experimental/context_based.py:211-231 | after the root exits, a context type of the clone fails with AssertionError |
| AsyncScopes.AsyncPartial | lagom/experimental/context_based.py:160-174 | only coroutine functions may be bound, otherwise MissingFeature |
| AsyncScopes.ACall | lagom/experimental/context_based.py:82-87 | a bound async call enters the root (an entry error is the call's error), calls inside the clone, and leaves the root stack cleared |
| Explicit.NewExplicit | lagom/container.py:54-65 | an explicit container starts with no own keys and inherits the given definitions |
| Explicit.ExplicitDefineAsWritten | lagom/experimental/container.py:25-37 | as written, explicit `define` accepts exactly what the base accepts, aliases included |
| Explicit.AliasAcceptedAsWritten | lagom/experimental/container.py:25-37 | as written, `container[A] = A` is accepted and then never resolves |
| Explicit.ExplicitDefine | lagom/experimental/container.py:25-37 | as intended, base errors pass through, an alias or a singleton over an alias is refused after being stored, and all else is kept |
| Explicit.ExplicitRefusesClasses | lagom/experimental/container.py:27-36 | a class and a singleton over a class are refused, with their two distinct reasons |
| Explicit.IntendedAgreesOffAliases | lagom/experimental/container.py:25-37 | the intended and the as-written `define` agree on every definition that does not need reflection |
| Updaters.UpdateLoop | lagom/updaters.py:9-12 | the loop fails iff some listed key is primitive, already in the layer, or listed earlier, and only with those errors |
| Updaters.LoopIsInstallShared | lagom/updaters.py:7-13 | without faults the loop installs singletons exactly as `partial`'s shared keys do |
| Updaters.UpdateContainerSingletonsAsWritten | lagom/updaters.py:7-13 | as written, the update fails under the same conditions as intended |
| Updaters.UpdateContainerSingletons | lagom/updaters.py:7-13 | the update fails iff a key is primitive or listed twice, with PrimitiveKey or DuplicateDefinition |
| Updaters.UpdateInstallsSingletons | lagom/updaters.py:7-13 | with distinct keys the update gives a clone in which each key is a fresh singleton loading that key from the original, and others keep their definitions |
| Updaters.DuplicateListedKeyFails | lagom/updaters.py:7-13 | a key listed twice is a DuplicateDefinition |
| Updaters.UpdateLateBinding | lagom/updaters.py:11 | for [A, B], A's singleton loads B as written and A as intended |
| Injection.Enter | lagom/injection_context.py:24-32 | with an update function, entry gives its result on the base; without one, a clone of the base |
| Injection.ReboundTo | lagom/injection_context.py:37-38 | a rebound context is over the new container and keeps the same update function |
| Injection.ReboundEntersOnNewContainer | lagom/injection_context.py:24-38 | a rebound context enters on the new container exactly as the original would |
| Injection.PlainEntryAllowsOverride | lagom/injection_context.py:28-32 | the plain temporary container accepts any non-primitive key and keeps the base's other definitions |
| Injection.OverrideOnlyInTemporary | lagom/injection_context.py:28-32 | a key the base refuses as a duplicate is accepted by the temporary container |
| Decorators.BindToContainer | lagom/decorators.py:40-48 | only function kinds may be decorated, otherwise ClassesCannotBeDecorated; the result binds that function to the container |
| Decorators.DecoratedCallKeepsCallerArguments | lagom/decorators.py:40-48 | a decorated call binds all parameters and keeps every keyword argument the caller gave |
| Decorators.GeneratorType | lagom/decorators.py:167-168 | the generated type is the first type argument of the return hint; a missing or non-generic hint is an AttributeError |
| Decorators.GeneratorTypeRoundTrip | lagom/decorators.py:167-168 | Iterator[T], Generator[T] and AsyncGenerator[T] all give T |
| Decorators.ExtractDefinition | lagom/decorators.py:142-164 | no return hint is MissingReturnType; a coroutine registers under `Awaitable[T]`; a plain function goes through the arity rule; a generator registers under its generated type |
| Decorators.DependencyDefinition | lagom/decorators.py:74-98 | the definition is stored under its key iff it can be, wrapped in a fresh empty singleton exactly when asked |
| Decorators.DefinitionFunctionIsCalledOnResolve | lagom/decorators.py:74-98 | after the decorator, resolving the return type calls the function |
| Decorators.CoroutineDefinitionResolvesUnderAwaitable | lagom/decorators.py:156-157 | a decorated coroutine function with no parameters is registered under `Awaitable[T]`, is called without the container when that key resolves, and a constructing body gives a fresh object |
| Decorators.SingletonDefinitionResolvesOnce | lagom/decorators.py:92-93 | a singleton definition resolves to the same instance each time |
| Decorators.ManagerFactory | lagom/decorators.py:132-136 | the factory takes the generator's parameters and returns a (possibly asynchronous) generator context manager of T |
| Decorators.ContextDependencyDefinition | lagom/decorators.py:125-139 | a non-generator is refused; a generator defines ContextManager[T] and an async generator AsyncContextManager[T], through the factory |
| Decorators.ContextDefinitionGivesManager | lagom/decorators.py:132-134 | after the decorator, resolving ContextManager[T] gives a manager of T |
| Decorators.ContextDefinitionNeedsGenerator | lagom/decorators.py:126-131 | plain and coroutine functions are refused by the context decorator |

## Left out

- Locks: the `threading.Lock` in Singleton and the `asyncio.Lock` in AwaitableSingleton are left out. The model is sequential and awaits are ordinary steps.
- The reflection cache (`CachingReflector.get_function_spec`) is transparent: it returns what `reflect` returns, so the model calls `Reflection.Reflect` directly. Its LRU eviction is not modelled; the constant overview is.
- Python introspection (`inspect`, `get_type_hints`, `arity`) is not modelled. Functions and classes are abstract descriptors with given parameters and hints.
- Reflection.Bind: Python argument binding is simplified. Positional arguments fill positional parameters, keywords fill by name, and a missing parameter without a default, a surplus or a doubled argument is a TypeError. Varargs and keyword-only subtleties are not modelled.
- Engine.Resolve: recursion depth is bounded by fuel. Running out gives RecursionLimit, which stands for Python's RecursionError. Cycle detection does not exist in the code and is not invented.
- AsyncScopes.AwaitableSingletonGet: truthiness (`if not self.instance`) is modelled for None and the empty string (`Types.Truthy`). Objects of classes that define `__bool__` or `__len__` are taken as true.
- Engine.GetInstance: falsy instances other than None are not distinguished from real ones. Only None counts as "no instance", as in `_has_instance`.
- `SingletonWrapper`, `async_construction`, `yielding_construction`, `bound_function` and `get_definition` are referenced by the code but defined elsewhere. They are modelled as Singleton, as constructions that yield the function's value, and as a registered-map lookup respectively.
- `AsyncConstructionWithContainer` is also defined elsewhere. The asynchronous container uses it for context types with an asynchronous manager. It is modelled as `ContextResolver(stack, manager, true)`, installed under `Awaitable[T]` (`AsyncScopes.TypeKeyFor`).
- Containers are values in the model. In Python they are shared by reference, so a definition added after `partial`, after a context container is built or after an injection context is made is seen by later calls. Here each of those captures the container as it was at that moment. A caller wanting the Python behaviour passes the container as it is at call or enter time.
- Wrapping.Call: a generator function's body is taken to run, and raise, when the function is called. In Python it runs when the generator is iterated. Coroutines are awaited by the wrapper, so for them the two agree.
- `magic_partial` and `magic_bind_to_container` are left out, because they bind by type only and depend on the same foreign helpers. Only their MissingFeature guard in the async container is noted.
- `_AsyncContextBoundFunction.__getattribute__` and the function-metadata copying are left out. They have no effect on results.
- Generator bodies and their `finally` blocks are not modelled. Releasing a manager is recorded as an `ExitManager` event, not run.
- Set iteration order: the context types and singletons are sets in the code. The model iterates them in list order, with duplicates removed (`Types.Dedupe`).
- ExitStacks.NestedScopeLeftLast: only one level of nested stacks is released. The in-context clone's own exits are not re-run recursively.
- Injection.Enter: the update function is a pure function of the container. It cannot allocate state.
- `TemporaryInjectionContext.__exit__` does nothing, so it has no member.
- Decorators.GeneratorType: a generic hint with no type arguments raises IndexError in Python. The model gives `Raised("IndexError")`.
- `remove_optional_type` is modelled as written: any generic key with exactly two arguments, the second being NoneType, counts as optional, whatever its origin.
- Framework integrations, environment loading, logging, debug helpers and `log_undefined_deps` are not part of this model.
- LegacyScope.NewLegacy and AsyncScopes.NewAsync succeed in the model. As written, both context containers (context_based.py:15, lagom/experimental/context_based.py:116) pass `log_undefined_deps` to `Container.__init__`, which takes only `container` (lagom/container.py:54), so the Python constructors would raise TypeError. The model follows the evident intent.
- Composition.Compose: `Container(container=_SourceList(...))` is modelled as a container over the merged definitions. The code as written reads `_registered_types`, which the list lacks.

## Findings

| source | as written | input that shows it | evidently intended | confidence | as-written member | corrected member |
|---|---|---|---|---|---|---|
| lagom/updaters.py:9-12 | each loader is `lambda: container.resolve(dep)` closing over the loop variable, so once the loop is done every loader resolves the last key | `update_container_singletons(c, [A, B])`: resolving A yields c's B | each listed key's singleton resolves that key from the original container | not executed | Updaters.UpdateContainerSingletonsAsWritten, Updaters.UpdateLateBinding | Updaters.UpdateContainerSingletons, Updaters.UpdateInstallsSingletons |
| lagom/container.py:233 | the comprehension builds `lambda: self.resolve(dep)` for each shared key, all closing over the same variable, so every loader resolves the last listed key | `partial(f, shared=[A, B])`: A's singleton resolves B; `shared=[A, B, A]`: B's singleton resolves A | each shared key is a singleton of its own type, resolved from the original container | not executed | Binding.SharedContainerAsWritten, Binding.SharedLoaderLateBinding, Binding.SharedAsWrittenRepeatedLast | Binding.SharedContainer, Binding.SharedKeyResolvesFromOrigin |
| lagom/experimental/container.py:26-36 | `definition = super().define(dep, resolver)` is always None, because the base `define` returns nothing, so both alias checks never fire | `ExplicitContainer()[A] = A` is accepted, and resolving A then recurses forever | aliases and singletons over aliases are refused with InvalidDependencyDefinition | not executed | Explicit.ExplicitDefineAsWritten, Explicit.AliasAcceptedAsWritten | Explicit.ExplicitDefine, Explicit.ExplicitRefusesClasses |

=== FILE: async_scope.dfy ===
/** The asynchronous context container of lagom/experimental/context_based.py
    (`AsyncContextContainer`, `AwaitableSingleton`, the async bound function).
    The root container owns an exit stack; each `async with` on it builds an
    in-context clone whose context types and singletons resolve by entering
    managers onto the ROOT's stack, the clone's own exit being the first thing
    pushed there. Awaiting is not modelled as a separate step: an awaited
    resolution is the resolution. */
module AsyncScopes {
  import opened Types
  import opened Reflection
  import opened Defs
  import opened Engine
  import opened Registry
  import opened Binding
  import opened ExitStacks
  import opened ResolutionLaws

  /** An `AsyncContextContainer`: its own container (a copy of the wrapped
      one's definitions), the context types and singletons as given, whether
      it is a root, and the id of its `async_exit_stack` attribute. */
  datatype AScope = AScope(container: Container, contextTypes: seq<TypeKey>, singletons: seq<TypeKey>, root: bool, slot: nat)

  datatype AOpened = AOpened(s: AScope, st: State)

  /** `AsyncContextContainer(container, context_types, context_singletons)`:
      a root whose stack attribute reads as the class default `None`. */
  function NewAsync(base: Container, types: seq<TypeKey>, singles: seq<TypeKey>, st: State): (o: AOpened)
    ensures o.s.container == NewContainer(Some(base)) && o.s.root
    ensures o.s.contextTypes == types && o.s.singletons == singles
    ensures o.s.slot == st.next && o.st.next == st.next + 1 && o.st.stacks == st.stacks[st.next := Cleared]
    ensures o.st.cells == st.cells && o.st.asyncCells == st.asyncCells && o.st.released == st.released
  {
    var (id, st1) := AllocStack(st, Cleared);
    AOpened(AScope(NewContainer(Some(base)), types, singles, true, id), st1)
  }

  /** The keys `_context_type_def` tries for a context type, in order. */
  function AsyncManagerKeys(t: TypeKey): seq<TypeKey> {
    [ContextManagerOf(t), IteratorOf(t), GeneratorOf(t), AsyncGeneratorOf(t), AsyncContextManagerOf(t)]
  }

  /** The context type is managed asynchronously when an asynchronous
      manager is defined for it, whichever definition comes first. */
  predicate IsAsyncType(s: AScope, t: TypeKey) {
    AsyncGeneratorOf(t) in s.container.registered || AsyncContextManagerOf(t) in s.container.registered
  }

  /** `_context_type_def`: the first defined manager of the five, behind a
      resolver that enters it onto this container's stack, synchronously or
      asynchronously. */
  function AsyncContextTypeDef(s: AScope, t: TypeKey): (r: Result<Definition>)
    ensures var reg := s.container.registered;
            && (r.Err? <==> forall i :: 0 <= i < 5 ==> AsyncManagerKeys(t)[i] !in reg)
            && (r.Err? ==> r.error == InvalidDependencyDefinition(NoContextManager(t)))
            && (r.Ok? ==> r.value.ContextResolver? && r.value.stack == s.slot && (r.value.isAsync <==> IsAsyncType(s, t)))
            && (ContextManagerOf(t) in reg ==> r.Ok? && r.value.manager == reg[ContextManagerOf(t)])
            && (ContextManagerOf(t) !in reg && IteratorOf(t) in reg ==>
                  r.Ok? && r.value.manager == reg[IteratorOf(t)])
            && (ContextManagerOf(t) !in reg && IteratorOf(t) !in reg && GeneratorOf(t) in reg ==>
                  r.Ok? && r.value.manager == reg[GeneratorOf(t)])
            && (ContextManagerOf(t) !in reg && IteratorOf(t) !in reg && GeneratorOf(t) !in reg && AsyncGeneratorOf(t) in reg ==>
                  r == Ok(ContextResolver(s.slot, reg[AsyncGeneratorOf(t)], true)))
            && (ContextManagerOf(t) !in reg && IteratorOf(t) !in reg && GeneratorOf(t) !in reg && AsyncGeneratorOf(t) !in reg
                && AsyncContextManagerOf(t) in reg ==>
                  r == Ok(ContextResolver(s.slot, reg[AsyncContextManagerOf(t)], true)))
  {
    var keys := AsyncManagerKeys(t);
    assert keys[0] == ContextManagerOf(t) && keys[1] == IteratorOf(t) && keys[2] == GeneratorOf(t);
    assert keys[3] == AsyncGeneratorOf(t) && keys[4] == AsyncContextManagerOf(t) && |keys| == 5;
    var d := FirstDefined(s.container.registered, keys);
    if d.None? then Err(InvalidDependencyDefinition(NoContextManager(t)))
    else Ok(ContextResolver(s.slot, d.value, IsAsyncType(s, t)))
  }

  /** The key a context type is installed under: `Awaitable[T]` when async. */
  function TypeKeyFor(s: AScope, t: TypeKey): TypeKey {
    if IsAsyncType(s, t) then AwaitableOf(t) else t
  }

  /** The key a context singleton is installed under: `AwaitableSingleton[T]` when async. */
  function SingletonKeyFor(s: AScope, t: TypeKey): TypeKey {
    if IsAsyncType(s, t) then AwaitableSingletonOf(t) else t
  }

  datatype Built = Built(r: Result<Container>, st: State)

  /** `r` is `c` with some keys defined in its layer: the keys already
      defined in `c`'s layer and the keys left out of `r`'s layer keep
      their definitions. */
  predicate Keeps(c: Container, r: Container) {
    && r.kind == c.kind
    && c.explicit <= r.explicit
    && c.registered.Keys <= r.registered.Keys
    && forall k :: k in c.registered && (k in c.explicit || k !in r.explicit) ==> r.registered[k] == c.registered[k]
  }

  lemma KeepsTransitive(a: Container, b: Container, c: Container)
    requires Keeps(a, b) && Keeps(b, c)
    ensures Keeps(a, c)
  {
  }

  /** `define` succeeded: `r` is `c` with `k` defined in its layer. */
  lemma DefineKeeps(c: Container, k: TypeKey, res: Resolver, st: State)
    requires Define(c, k, res, st).r.Ok?
    ensures Keeps(c, Define(c, k, res, st).c)
  {
  }

  /** The keys a list of context types is installed under. */
  function TypeKeys(s: AScope, ts: seq<TypeKey>): set<TypeKey> {
    set t | t in ts :: TypeKeyFor(s, t)
  }

  /** `c` holds the resolver of context type `t` under its key. */
  predicate HoldsType(s: AScope, c: Container, t: TypeKey) {
    && AsyncContextTypeDef(s, t).Ok?
    && TypeKeyFor(s, t) in c.registered
    && c.registered[TypeKeyFor(s, t)] == AsyncContextTypeDef(s, t).value
  }

  /** `r` is `c` with exactly the context types `ts` installed. */
  predicate TypesInstalled(s: AScope, c: Container, ts: seq<TypeKey>, r: Container) {
    && Keeps(c, r)
    && r.explicit == c.explicit + TypeKeys(s, ts)
    && forall t :: t in ts ==> HoldsType(s, r, t)
  }

  /** Installing the head, then the tail, installs the list. */
  lemma TypesStep(s: AScope, c: Container, ts: seq<TypeKey>, st: State, r: Container)
    requires |ts| > 0 && AsyncContextTypeDef(s, ts[0]).Ok?
    requires Define(c, TypeKeyFor(s, ts[0]), Special(AsyncContextTypeDef(s, ts[0]).value), st).r.Ok?
    requires TypesInstalled(s, Define(c, TypeKeyFor(s, ts[0]), Special(AsyncContextTypeDef(s, ts[0]).value), st).c, ts[1..], r)
    ensures TypesInstalled(s, c, ts, r)
  {
    var t := ts[0];
    var c1 := Define(c, TypeKeyFor(s, t), Special(AsyncContextTypeDef(s, t).value), st).c;
    DefineKeeps(c, TypeKeyFor(s, t), Special(AsyncContextTypeDef(s, t).value), st);
    KeepsTransitive(c, c1, r);
    assert forall x :: x in ts <==> x == t || x in ts[1..];
    assert TypeKeys(s, ts) == {TypeKeyFor(s, t)} + TypeKeys(s, ts[1..]);
    assert HoldsType(s, r, t);
  }

  /** The first loop of `__aenter__`: each context type's resolver under
      its key. */
  function InstallAsyncTypes(s: AScope, c: Container, ts: seq<TypeKey>, st: State): (o: Built)
    ensures o.st == st
    ensures o.r.Err? ==> o.r.error.InvalidDependencyDefinition? || o.r.error == DuplicateDefinition
    ensures (exists i :: 0 <= i < |ts| && AsyncContextTypeDef(s, ts[i]).Err?) ==> o.r.Err?
    ensures o.r.Ok? ==> TypesInstalled(s, c, ts, o.r.value)
    decreases |ts|
  {
    if |ts| == 0 then
      assert TypeKeys(s, ts) == {};
      Built(Ok(c), st)
    else
      var t := ts[0];
      FailsInHeadOrTail(s, ts);
      var d := AsyncContextTypeDef(s, t);
      if d.Err? then Built(Err(d.error), st)
      else
        var df := Define(c, TypeKeyFor(s, t), Special(d.value), st);
        if df.r.Err? then Built(Err(df.r.error), st)
        else
          var rest := InstallAsyncTypes(s, df.c, ts[1..], df.st);
          if rest.r.Ok? then TypesStep(s, c, ts, st, rest.r.value); rest else rest
  }

  /** What the second loop of `__aenter__` may do to the heap: draw ids and
      add slots and `AwaitableSingleton` objects, leaving everything drawn
      before untouched. */
  predicate Grows(a: State, b: State) {
    && a.next <= b.next
    && b.stacks == a.stacks
    && b.released == a.released
    && (forall j :: j in a.cells && j < a.next ==> j in b.cells && b.cells[j] == a.cells[j])
    && (forall j :: j in a.asyncCells && j < a.next ==> j in b.asyncCells && b.asyncCells[j] == a.asyncCells[j])
  }

  lemma GrowsTransitive(a: State, b: State, c: State)
    requires Grows(a, b) && Grows(b, c)
    ensures Grows(a, c)
  {
  }

  /** The constant definition `normalise` makes of an `AwaitableSingleton` object. */
  function HandleCtor(h: nat): Definition {
    ConstructionWithoutContainer(ConstantCallable(Handle(h)))
  }

  /** `c` holds, for context singleton `t`, a fresh empty singleton drawn at
      or after `from`: over the context resolver when synchronous; when
      asynchronous, over a fresh `AwaitableSingleton` object (drawn just
      before the slot) whose constructor is the resolver and whose container
      is the root. */
  predicate SingletonAt(s: AScope, c: Container, t: TypeKey, from: nat, st: State) {
    var k := SingletonKeyFor(s, t);
    && AsyncContextTypeDef(s, t).Ok?
    && k in c.registered && c.registered[k].Singleton?
    && var cell := c.registered[k].cell;
       && from <= cell < st.next && cell in st.cells && st.cells[cell] == Null
       && if IsAsyncType(s, t) then
            && from < cell
            && c.registered[k].inner == HandleCtor(cell - 1)
            && cell - 1 in st.asyncCells
            && st.asyncCells[cell - 1] == AsyncCell(AsyncContextTypeDef(s, t).value, s.container, Null)
          else c.registered[k].inner == AsyncContextTypeDef(s, t).value
  }

  lemma SingletonAtPreserved(s: AScope, c: Container, c2: Container, t: TypeKey, from: nat, st: State, st2: State)
    requires SingletonAt(s, c, t, from, st) && SingletonKeyFor(s, t) in c.explicit
    requires Keeps(c, c2) && Grows(st, st2)
    ensures SingletonAt(s, c2, t, from, st2)
  {
  }

  /** `in_context[key] = self._singleton_type_def(dep_type)` for one key. */
  function InstallAsyncSingleton(s: AScope, c: Container, t: TypeKey, st: State): (o: Built)
    ensures Grows(st, o.st)
    ensures o.r.Err? ==> o.st == st && (o.r.error.InvalidDependencyDefinition? || o.r.error == DuplicateDefinition)
    ensures AsyncContextTypeDef(s, t).Err? ==> o.r.Err?
    ensures o.r.Ok? ==>
      && Keeps(c, o.r.value)
      && o.r.value.explicit == c.explicit + {SingletonKeyFor(s, t)}
      && SingletonAt(s, o.r.value, t, st.next, o.st)
  {
    var d := AsyncContextTypeDef(s, t);
    if d.Err? then Built(Err(d.error), st)
    else if IsAsyncType(s, t) then
      var h := st.next;
      var st1 := st.(next := st.next + 1, asyncCells := st.asyncCells[h := AsyncCell(d.value, s.container, Null)]);
      var df := Define(c, AwaitableSingletonOf(t), Instance(Handle(h)), st1);
      if df.r.Err? then Built(Err(df.r.error), st)
      else
        DefineKeeps(c, AwaitableSingletonOf(t), Instance(Handle(h)), st1);
        Built(Ok(df.c), df.st)
    else
      var n := MakeSingleton(Special(d.value), st);
      var df := Define(c, t, Special(n.r.value), n.st);
      if df.r.Err? then Built(Err(df.r.error), st)
      else
        DefineKeeps(c, t, Special(n.r.value), n.st);
        Built(Ok(df.c), df.st)
  }

  /** The keys a list of context singletons is installed under. */
  function SingletonKeys(s: AScope, ts: seq<TypeKey>): set<TypeKey> {
    set t | t in ts :: SingletonKeyFor(s, t)
  }

  /** `r` is `c` with exactly the context singletons `ts` installed, each
      drawn at or after `from`. */
  predicate SingletonsInstalled(s: AScope, c: Container, ts: seq<TypeKey>, from: nat, r: Container, st: State) {
    && Keeps(c, r)
    && r.explicit == c.explicit + SingletonKeys(s, ts)
    && forall t :: t in ts ==> SingletonAt(s, r, t, from, st)
  }

  /** Installing the head, then the tail, installs the list. */
  lemma SingletonsStep(s: AScope, c: Container, ts: seq<TypeKey>, st: State, rest: Built)
    requires |ts| > 0 && InstallAsyncSingleton(s, c, ts[0], st).r.Ok?
    requires var one := InstallAsyncSingleton(s, c, ts[0], st);
             rest.r.Ok? && Grows(one.st, rest.st)
             && SingletonsInstalled(s, one.r.value, ts[1..], one.st.next, rest.r.value, rest.st)
    ensures SingletonsInstalled(s, c, ts, st.next, rest.r.value, rest.st)
  {
    var t := ts[0];
    var one := InstallAsyncSingleton(s, c, t, st);
    KeepsTransitive(c, one.r.value, rest.r.value);
    SingletonAtPreserved(s, one.r.value, rest.r.value, t, st.next, one.st, rest.st);
    SingletonKeysCons(s, ts);
    forall x | x in ts
      ensures SingletonAt(s, rest.r.value, x, st.next, rest.st)
    {
      if x != t {
        assert x in ts[1..];
        SingletonAtFromEarlier(s, rest.r.value, x, one.st.next, st.next, rest.st);
      }
    }
  }

  lemma SingletonKeysCons(s: AScope, ts: seq<TypeKey>)
    requires |ts| > 0
    ensures SingletonKeys(s, ts) == {SingletonKeyFor(s, ts[0])} + SingletonKeys(s, ts[1..])
  {
    assert forall x :: x in ts <==> x == ts[0] || x in ts[1..];
  }

  /** A singleton drawn at or after `from` is drawn at or after any earlier bound. */
  lemma SingletonAtFromEarlier(s: AScope, c: Container, t: TypeKey, from: nat, earlier: nat, st: State)
    requires earlier <= from && SingletonAt(s, c, t, from, st)
    ensures SingletonAt(s, c, t, earlier, st)
  {
  }

  /** A key with no definition is the head of the list or in its tail. */
  lemma FailsInHeadOrTail(s: AScope, ts: seq<TypeKey>)
    requires |ts| > 0
    ensures (exists i :: 0 <= i < |ts| && AsyncContextTypeDef(s, ts[i]).Err?) ==>
            AsyncContextTypeDef(s, ts[0]).Err? || exists i :: 0 <= i < |ts| - 1 && AsyncContextTypeDef(s, ts[1..][i]).Err?
  {
    if exists i :: 0 <= i < |ts| && AsyncContextTypeDef(s, ts[i]).Err? {
      var i :| 0 <= i < |ts| && AsyncContextTypeDef(s, ts[i]).Err?;
      if i > 0 {
        assert ts[1..][i - 1] == ts[i];
      }
    }
  }

  /** The second loop of `__aenter__`. */
  function InstallAsyncSingletons(s: AScope, c: Container, ts: seq<TypeKey>, st: State): (o: Built)
    ensures Grows(st, o.st)
    ensures o.r.Err? ==> o.r.error.InvalidDependencyDefinition? || o.r.error == DuplicateDefinition
    ensures (exists i :: 0 <= i < |ts| && AsyncContextTypeDef(s, ts[i]).Err?) ==> o.r.Err?
    ensures o.r.Ok? ==> SingletonsInstalled(s, c, ts, st.next, o.r.value, o.st)
    decreases |ts|
  {
    if |ts| == 0 then
      assert SingletonKeys(s, ts) == {};
      Built(Ok(c), st)
    else
      var t := ts[0];
      FailsInHeadOrTail(s, ts);
      var one := InstallAsyncSingleton(s, c, t, st);
      if one.r.Err? then one
      else
        var rest := InstallAsyncSingletons(s, one.r.value, ts[1..], one.st);
        GrowsTransitive(st, one.st, rest.st);
        if rest.r.Err? then rest
        else
          SingletonsStep(s, c, ts, st, rest);
          rest
  }

  /** The result of `__aenter__`: the container the `async with` binds, or
      the error raised. */
  datatype AEntered = AEntered(r: Result<AScope>, st: State)

  /** The root's stack attribute after the `if not self.async_exit_stack`
      step: a live stack is kept, a missing one is created. */
  function RootStack(s: AScope, st: State): (r: State)
    ensures r.next == st.next && r.cells == st.cells && r.asyncCells == st.asyncCells && r.released == st.released
    ensures r.stacks == st.stacks[s.slot := if s.slot in st.stacks && st.stacks[s.slot].Open? then st.stacks[s.slot] else Open([])]
  {
    if s.slot in st.stacks && st.stacks[s.slot].Open? then st else st.(stacks := st.stacks[s.slot := Open([])])
  }

  /** The entries of a live stack, or none. */
  function EntriesOf(st: State, id: nat): seq<Release> {
    if id in st.stacks && st.stacks[id].Open? then st.stacks[id].entries else []
  }

  /** The in-context container holds the context resolvers, the context
      singletons and, for every other key, the root's own definitions. */
  predicate InAsyncContext(s: AScope, c: Container, from: nat, st: State) {
    && c.kind.Plain?
    && c.explicit == TypeKeys(s, s.contextTypes) + SingletonKeys(s, s.singletons)
    && (forall k :: k in s.container.registered && k !in c.explicit ==> k in c.registered && c.registered[k] == s.container.registered[k])
    && (forall t :: t in s.contextTypes ==> HoldsType(s, c, t))
    && (forall t :: t in s.singletons ==> SingletonAt(s, c, t, from, st))
  }

  /** Both loops of `__aenter__` over the clone. */
  function PopulateAsync(s: AScope, st: State): (o: Built)
    ensures Grows(st, o.st)
    ensures o.r.Err? ==> o.r.error.InvalidDependencyDefinition? || o.r.error == DuplicateDefinition
  {
    var a := InstallAsyncTypes(s, Clone(s.container), Dedupe(s.contextTypes), st);
    if a.r.Err? then a else InstallAsyncSingletons(s, a.r.value, Dedupe(s.singletons), a.st)
  }

  /** A context type or singleton without a manager definition makes entry
      fail; a successful entry builds the in-context container. */
  lemma PopulateAsyncSpec(s: AScope, st: State)
    ensures var o := PopulateAsync(s, st);
            && ((exists t :: t in s.contextTypes + s.singletons && AsyncContextTypeDef(s, t).Err?) ==> o.r.Err?)
            && (o.r.Ok? ==> InAsyncContext(s, o.r.value, st.next, o.st))
  {
    if exists t :: t in s.contextTypes + s.singletons && AsyncContextTypeDef(s, t).Err? {
      var t :| t in s.contextTypes + s.singletons && AsyncContextTypeDef(s, t).Err?;
      PopulateAsyncFails(s, st, t);
    }
    var a := InstallAsyncTypes(s, Clone(s.container), Dedupe(s.contextTypes), st);
    if a.r.Ok? {
      var b := InstallAsyncSingletons(s, a.r.value, Dedupe(s.singletons), a.st);
      if b.r.Ok? {
        PopulateAsyncContents(s, st, a, b);
      }
    }
  }

  lemma PopulateAsyncFails(s: AScope, st: State, t: TypeKey)
    requires t in s.contextTypes + s.singletons && AsyncContextTypeDef(s, t).Err?
    ensures PopulateAsync(s, st).r.Err?
  {
    var types, singles := Dedupe(s.contextTypes), Dedupe(s.singletons);
    var a := InstallAsyncTypes(s, Clone(s.container), types, st);
    if t in s.contextTypes {
      var i :| 0 <= i < |types| && types[i] == t;
    } else if a.r.Ok? {
      assert t in s.singletons;
      var i :| 0 <= i < |singles| && singles[i] == t;
    }
  }

  lemma PopulateAsyncContents(s: AScope, st: State, a: Built, b: Built)
    requires a == InstallAsyncTypes(s, Clone(s.container), Dedupe(s.contextTypes), st) && a.r.Ok?
    requires b == InstallAsyncSingletons(s, a.r.value, Dedupe(s.singletons), a.st) && b.r.Ok?
    ensures InAsyncContext(s, b.r.value, st.next, b.st)
  {
    var types, singles := Dedupe(s.contextTypes), Dedupe(s.singletons);
    var base := Clone(s.container);
    KeepsTransitive(base, a.r.value, b.r.value);
    assert TypeKeys(s, types) == TypeKeys(s, s.contextTypes);
    assert SingletonKeys(s, singles) == SingletonKeys(s, s.singletons);
    forall t | t in s.contextTypes
      ensures HoldsType(s, b.r.value, t)
    {
      assert t in types && HoldsType(s, a.r.value, t);
      assert TypeKeyFor(s, t) in a.r.value.explicit;
    }
  }

  /** What the in-context container holds does not depend on the exit stacks. */
  lemma InAsyncContextIgnoresStacks(s: AScope, c: Container, from: nat, st: State, st2: State)
    requires InAsyncContext(s, c, from, st)
    requires st2.next == st.next && st2.cells == st.cells && st2.asyncCells == st.asyncCells
    ensures InAsyncContext(s, c, from, st2)
  {
    forall t | t in s.singletons
      ensures SingletonAt(s, c, t, from, st2)
    {
      assert SingletonAt(s, c, t, from, st);
    }
  }

  /** `__aenter__`. A root makes sure it has a stack, builds the in-context
      clone (with a live stack of its own and not a root), installs the
      context types and singletons into it and pushes the clone's exit onto
      its own stack. Any other container returns itself. */
  function AEnter(s: AScope, st: State): (e: AEntered)
    ensures !s.root ==> e == AEntered(Ok(s), st)
    ensures s.root && e.r.Err? ==>
      (e.r.error.InvalidDependencyDefinition? || e.r.error == DuplicateDefinition)
    ensures s.root && (exists t :: t in s.contextTypes + s.singletons && AsyncContextTypeDef(s, t).Err?) ==> e.r.Err?
    ensures s.root && e.r.Ok? ==>
      var inner := e.r.value;
      && !inner.root && inner.slot == st.next
      && inner.contextTypes == s.contextTypes && inner.singletons == s.singletons
      && InAsyncContext(s, inner.container, st.next + 1, e.st)
      && (s.slot < st.next ==>
            && e.st.stacks == st.stacks[inner.slot := Open([])][s.slot := Open(EntriesOf(st, s.slot) + [ExitScope(inner.slot)])]
            && e.st.released == st.released)
  {
    if !s.root then AEntered(Ok(s), st)
    else
      var st1 := RootStack(s, st);
      var (inSlot, st2) := AllocStack(st1, Open([]));
      var p := PopulateAsync(s, st2);
      PopulateAsyncSpec(s, st2);
      if p.r.Err? then AEntered(Err(p.r.error), p.st)
      else
        var inner := AScope(p.r.value, s.contextTypes, s.singletons, false, inSlot);
        var entries := p.st.stacks[s.slot].entries;
        assert s.slot < st.next ==> entries == EntriesOf(st, s.slot);
        var st3 := p.st.(stacks := p.st.stacks[s.slot := Open(entries + [ExitScope(inSlot)])]);
        InAsyncContextIgnoresStacks(s, p.r.value, st2.next, p.st, st3);
        AEntered(Ok(inner), st3)
  }

  /** `__aexit__`: a live stack is closed, newest release first, and the
      attribute is reset to `None`; otherwise nothing happens. */
  function AExit(s: AScope, st: State): (r: State)
    ensures !(s.slot in st.stacks && st.stacks[s.slot].Open?) ==> r == st
    ensures s.slot in st.stacks && st.stacks[s.slot].Open? ==>
      && s.slot in r.stacks && r.stacks[s.slot] == Cleared
      && (AllManagers(st.stacks[s.slot].entries) ==>
            r.released == st.released + Reverse(st.stacks[s.slot].entries))
  {
    if s.slot in st.stacks && st.stacks[s.slot].Open? then CloseStack(st, s.slot, Cleared) else st
  }

  /** `AwaitableSingleton.get`: the cached instance when it is truthy,
      otherwise the constructor's instance on the stored container, kept.
      (A handle to an object that does not exist has no `get`.) */
  function AwaitableSingletonGet(w: World, h: nat, st: State, fuel: nat): (o: Out)
    ensures h !in st.asyncCells ==> o == Out(Err(AttributeError), st)
    ensures h in st.asyncCells && Truthy(st.asyncCells[h].instance) ==> o == Out(Ok(st.asyncCells[h].instance), st)
    ensures h in st.asyncCells && !Truthy(st.asyncCells[h].instance) ==>
      var g := GetInstance(w, st.asyncCells[h].container, st.asyncCells[h].ctor, st, fuel);
      && o.r == g.r
      && (g.r.Err? ==> o.st == g.st)
      && (g.r.Ok? ==> o.st == g.st.(asyncCells := g.st.asyncCells[h := st.asyncCells[h].(instance := g.r.value)]))
    ensures o.r.Ok? ==> h in o.st.asyncCells && o.st.asyncCells[h].instance == o.r.value
  {
    if h !in st.asyncCells then Out(Err(AttributeError), st)
    else
      var cell := st.asyncCells[h];
      if Truthy(cell.instance) then Out(Ok(cell.instance), st)
      else
        var g := GetInstance(w, cell.container, cell.ctor, st, fuel);
        if g.r.Err? then g
        else
          assert g.st.asyncCells == st.asyncCells;
          Out(g.r, g.st.(asyncCells := g.st.asyncCells[h := cell.(instance := g.r.value)]))
  }

  /** Awaiting `get()` twice gives the same object, built once, provided
      the first result is truthy. */
  lemma AwaitableSingletonBuildsOnce(w: World, h: nat, st: State, fuel: nat)
    ensures var o1 := AwaitableSingletonGet(w, h, st, fuel);
            o1.r.Ok? && Truthy(o1.r.value) ==> AwaitableSingletonGet(w, h, o1.st, fuel) == o1
  {
  }

  /** A falsy instance, such as an empty string, is not kept: the next
      `get()` builds again through the constructor, entering its manager
      once more. */
  lemma AwaitableSingletonRebuildsFalsy(w: World, h: nat, st: State, fuel: nat)
    requires h in st.asyncCells && st.asyncCells[h].instance == Null
    ensures var o1 := AwaitableSingletonGet(w, h, st, fuel);
            o1.r == Ok(Lit("")) ==>
              && o1.st.asyncCells[h].instance == Lit("")
              && AwaitableSingletonGet(w, h, o1.st, fuel).r
                 == GetInstance(w, o1.st.asyncCells[h].container, o1.st.asyncCells[h].ctor, o1.st, fuel).r
  {
  }

  /** The first `get()` of a context singleton's `AwaitableSingleton` enters
      the asynchronous manager onto the root's stack, through the root
      container. */
  lemma AwaitableSingletonEntersOnRoot(w: World, s: AScope, t: TypeKey, c: Container, from: nat, st: State, st2: State, fuel: nat)
    requires SingletonAt(s, c, t, from, st) && IsAsyncType(s, t)
    requires var h := c.registered[AwaitableSingletonOf(t)].cell - 1;
             h in st2.asyncCells && st2.asyncCells[h] == st.asyncCells[h]
    ensures var h := c.registered[AwaitableSingletonOf(t)].cell - 1;
            var d := AsyncContextTypeDef(s, t).value;
            && d == ContextResolver(s.slot, d.manager, true)
            && AwaitableSingletonGet(w, h, st2, fuel).r
               == GetInstance(w, s.container, ContextResolver(s.slot, d.manager, true), st2, fuel).r
  {
  }

  /** Resolving `AwaitableSingleton[T]` in the in-context container gives
      the handle to that context's `AwaitableSingleton` object. */
  lemma AwaitableSingletonKeyGivesHandle(w: World, s: AScope, t: TypeKey, c: Container, from: nat, st: State, fuel: nat)
    requires SingletonAt(s, c, t, from, st) && IsAsyncType(s, t)
    requires c.kind.Plain? && fuel > 0
    ensures var k := AwaitableSingletonOf(t);
            var o := Resolve(w, c, k, false, false, st, fuel);
            && o.r == Ok(Handle(c.registered[k].cell - 1))
            && o.r.value.id in st.asyncCells
            && st.asyncCells[o.r.value.id].ctor == AsyncContextTypeDef(s, t).value
            && st.asyncCells[o.r.value.id].container == s.container
  {
    var k := AwaitableSingletonOf(t);
    var d := c.registered[k];
    assert RemoveOptionalType(k).None? && k !in UnresolvableTypes;
    assert GetInstance(w, c, d.inner, st, fuel - 1).r == Ok(Handle(d.cell - 1));
    assert GetInstance(w, c, d, st, fuel - 1).r == Ok(Handle(d.cell - 1));
  }

  /** Each `async with` on the root makes new context singletons: the
      singleton of one entry is not that of a later one. */
  lemma EachEntryHasItsOwnSingletons(s: AScope, t: TypeKey, st: State, st2: State)
    requires s.root && t in s.singletons
    requires AEnter(s, st).r.Ok? && AEnter(s, st2).r.Ok?
    requires AEnter(s, st).st.next <= st2.next
    ensures var k := SingletonKeyFor(s, t);
            var c1 := AEnter(s, st).r.value.container;
            var c2 := AEnter(s, st2).r.value.container;
            k in c1.registered && k in c2.registered && c1.registered[k] != c2.registered[k]
  {
    var c1 := AEnter(s, st).r.value.container;
    var c2 := AEnter(s, st2).r.value.container;
    assert SingletonAt(s, c1, t, st.next + 1, AEnter(s, st).st);
    assert SingletonAt(s, c2, t, st2.next + 1, AEnter(s, st2).st);
  }

  /** Entering a root whose stack attribute is `None`: the stack is created
      holding only the in-context clone's exit, and the clone's own stack is
      empty. */
  lemma FirstEntryPushesClone(s: AScope, st: State)
    requires s.root && s.slot < st.next && s.slot in st.stacks && st.stacks[s.slot].Cleared?
    ensures var e := AEnter(s, st);
            e.r.Ok? ==>
              && e.r.value.slot != s.slot
              && e.st.stacks[s.slot] == Open([ExitScope(e.r.value.slot)])
              && e.st.stacks[e.r.value.slot] == Open([])
  {
    var e := AEnter(s, st);
    if e.r.Ok? {
      StacksAfterEntry(s, st, e.r.value.slot, e.st);
    }
  }

  lemma StacksAfterEntry(s: AScope, st: State, inSlot: nat, st2: State)
    requires s.slot < st.next && s.slot in st.stacks && st.stacks[s.slot].Cleared? && inSlot == st.next
    requires st2.stacks == st.stacks[inSlot := Open([])][s.slot := Open(EntriesOf(st, s.slot) + [ExitScope(inSlot)])]
    ensures st2.stacks[s.slot] == Open([ExitScope(inSlot)]) && st2.stacks[inSlot] == Open([])
  {
    assert EntriesOf(st, s.slot) == [];
  }

  /** Leaving the root after managers were entered: they are left newest
      first, then the in-context clone is left, and both stacks end `None`. */
  lemma CloneLeftAfterManagers(s: AScope, inner: AScope, ms: seq<Release>, st: State)
    requires s.slot in st.stacks && st.stacks[s.slot] == Open([ExitScope(inner.slot)] + ms)
    requires AllManagers(ms) && inner.slot != s.slot
    requires inner.slot in st.stacks && st.stacks[inner.slot] == Open([])
    ensures var r := AExit(s, st);
            && r.released == st.released + Reverse(ms) + [ExitScope(inner.slot)]
            && r.stacks == st.stacks[inner.slot := Cleared][s.slot := Cleared]
  {
    NestedScopeLeftLast(st, s.slot, inner.slot, ms, Cleared);
  }

  /** After the root is left, a context type no longer resolves in the
      in-context container: its resolver asserts the root's stack. */
  lemma ContextTypeNeedsLiveRoot(w: World, s: AScope, inner: AScope, t: TypeKey, st: State, fuel: nat)
    requires inner.container.kind.Plain? && HoldsType(s, inner.container, t)
    requires s.slot in st.stacks && st.stacks[s.slot].Open? && fuel > 0
    requires RemoveOptionalType(TypeKeyFor(s, t)).None? && TypeKeyFor(s, t) !in UnresolvableTypes
    ensures var r := AExit(s, st);
            Resolve(w, inner.container, TypeKeyFor(s, t), false, false, r, fuel).r == Err(AssertionError)
  {
    var r := AExit(s, st);
    var k := TypeKeyFor(s, t);
    assert GetInstance(w, inner.container, inner.container.registered[k], r, fuel - 1).r == Err(AssertionError);
  }

  /** A function bound by the asynchronous container's `partial`. */
  datatype APartial = APartial(s: AScope, f: PyFunction, shared: seq<TypeKey>)

  /** `partial`: only coroutine functions are accepted. */
  function AsyncPartial(s: AScope, f: PyFunction, shared: seq<TypeKey>): (r: Result<APartial>)
    ensures r.Ok? <==> f.sig.kind.CoroutineFn?
    ensures r.Err? ==> r.error == MissingFeature
    ensures r.Ok? ==> r.value.s == s && r.value.f == f && r.value.shared == shared
  {
    if !f.sig.kind.CoroutineFn? then Err(MissingFeature) else Ok(APartial(s, f, shared))
  }

  /** Calling it: `async with` the container, call the base bound function
      rebound to the in-context container, leave the container. */
  function ACall(w: World, p: APartial, args: seq<Value>, kwargs: map<string, Value>, st: State, fuel: nat): (o: Out)
    ensures AEnter(p.s, st).r.Err? ==> o == Out(Err(AEnter(p.s, st).r.error), AEnter(p.s, st).st)
    ensures p.s.root && AEnter(p.s, st).r.Ok? && p.s.slot < st.next ==>
      p.s.slot in o.st.stacks && o.st.stacks[p.s.slot] == Cleared
    ensures AEnter(p.s, st).r.Ok? ==>
      var call := CallPartial(w, Partial(AEnter(p.s, st).r.value.container, p.f, p.shared, {}, 0), args, kwargs, AEnter(p.s, st).st, fuel);
      o.r == call.r
  {
    var e := AEnter(p.s, st);
    if e.r.Err? then Out(Err(e.r.error), e.st)
    else
      var call := CallPartial(w, Partial(e.r.value.container, p.f, p.shared, {}, 0), args, kwargs, e.st, fuel);
      Out(call.r, AExit(p.s, call.st))
  }
}

=== FILE: binding.dfy ===
/** `Container.partial` and `_container_with_singletons_builder`
    (lagom/container.py): binding a function to a container, with optional
    per-call singletons. */
module Binding {
  import opened Types
  import opened Reflection
  import opened Defs
  import opened Engine
  import opened Registry
  import opened Wrapping
  import opened ResolutionLaws

  /** The loader installed for a shared key: a zero-argument construction
      that resolves `target` from the container `partial` was called on. */
  function Loader(origin: Container, target: TypeKey): Definition {
    ConstructionWithoutContainer(Callable(NoParams, Delegate(origin, target)))
  }

  datatype Scoped = Scoped(r: Result<Container>, st: State)

  /** `temp_container[dep] = Singleton(loader)` for one key: the singleton
      gets a fresh empty slot. */
  function InstallOne(temp: Container, origin: Container, dep: TypeKey, target: TypeKey, st: State): (s: Scoped)
    requires dep !in temp.explicit
    ensures s.r.Err? <==> dep in UnresolvableTypes
    ensures s.r.Err? ==> s.st == st && s.r.error == InvalidDependencyDefinition(PrimitiveKey)
    ensures s.r.Ok? ==>
      && s.st == AllocCell(st).1
      && s.r.value.kind == temp.kind
      && s.r.value.explicit == temp.explicit + {dep}
      && s.r.value.registered == temp.registered[dep := Singleton(st.next, Loader(origin, target))]
  {
    var n := MakeSingleton(Special(Loader(origin, target)), st);
    var d := Define(temp, dep, Special(n.r.value), n.st);
    if d.r.Err? then Scoped(Err(d.r.error), st) else Scoped(Ok(d.c), d.st)
  }

  /** Distinct keys none of which this layer has defined yet. */
  predicate Installable(temp: Container, deps: seq<TypeKey>, targets: seq<TypeKey>) {
    && |deps| == |targets|
    && (forall i :: 0 <= i < |deps| ==> deps[i] !in temp.explicit)
    && (forall i, j :: 0 <= i < j < |deps| ==> deps[i] != deps[j])
  }

  /** `InstallOne` for each shared key in turn. */
  function InstallShared(temp: Container, origin: Container, deps: seq<TypeKey>, targets: seq<TypeKey>, st: State): (s: Scoped)
    requires Installable(temp, deps, targets)
    ensures s.r.Err? <==> exists i :: 0 <= i < |deps| && deps[i] in UnresolvableTypes
    ensures s.r.Err? ==> s.r.error == InvalidDependencyDefinition(PrimitiveKey)
    ensures Extends(st, s.st) && s.st.stacks == st.stacks
    ensures s.r.Ok? ==> s.st.next == st.next + |deps| && s.r.value.kind == temp.kind
    decreases |deps|
  {
    if |deps| == 0 then Scoped(Ok(temp), st)
    else
      var one := InstallOne(temp, origin, deps[0], targets[0], st);
      if one.r.Err? then one
      else
        assert forall i :: 0 <= i < |deps| - 1 ==> deps[1..][i] == deps[i + 1];
        var rest := InstallShared(one.r.value, origin, deps[1..], targets[1..], one.st);
        if rest.r.Err? then Scoped(rest.r, rest.st) else rest
  }

  /** Installing leaves every slot allocated before it and every key not
      being shared as it was. */
  lemma {:induction false} InstallSharedKeepsRest(temp: Container, origin: Container, deps: seq<TypeKey>, targets: seq<TypeKey>, st: State)
    requires Installable(temp, deps, targets)
    ensures var s := InstallShared(temp, origin, deps, targets, st);
            s.r.Ok? ==>
              && (forall j :: j in st.cells && j < st.next ==> j in s.st.cells && s.st.cells[j] == st.cells[j])
              && (forall k :: k in temp.registered && k !in deps ==>
                    k in s.r.value.registered && s.r.value.registered[k] == temp.registered[k])
    decreases |deps|
  {
    if |deps| > 0 {
      var one := InstallOne(temp, origin, deps[0], targets[0], st);
      if one.r.Ok? {
        assert forall i :: 0 <= i < |deps| - 1 ==> deps[1..][i] == deps[i + 1];
        assert forall k :: k in deps <==> k == deps[0] || k in deps[1..];
        InstallSharedKeepsRest(one.r.value, origin, deps[1..], targets[1..], one.st);
      }
    }
  }

  /** The i-th shared key holds a singleton over its loader with the i-th
      fresh slot, still empty. */
  predicate Installed(s: Scoped, origin: Container, deps: seq<TypeKey>, targets: seq<TypeKey>, st: State, i: int)
    requires s.r.Ok? && |deps| == |targets| && 0 <= i < |deps|
  {
    && deps[i] in s.r.value.registered
    && s.r.value.registered[deps[i]] == Singleton(st.next + i, Loader(origin, targets[i]))
    && st.next + i in s.st.cells && s.st.cells[st.next + i] == Null
  }

  /** The first shared key gets the first fresh slot, and keeps it. */
  lemma InstallSharedHead(temp: Container, origin: Container, deps: seq<TypeKey>, targets: seq<TypeKey>, st: State)
    requires Installable(temp, deps, targets) && |deps| > 0
    requires InstallShared(temp, origin, deps, targets, st).r.Ok?
    ensures Installed(InstallShared(temp, origin, deps, targets, st), origin, deps, targets, st, 0)
  {
    var one := InstallOne(temp, origin, deps[0], targets[0], st);
    var d1, t1 := deps[1..], targets[1..];
    assert forall i :: 0 <= i < |d1| ==> d1[i] == deps[i + 1];
    InstallSharedKeepsRest(one.r.value, origin, d1, t1, one.st);
    assert deps[0] !in d1;
  }

  /** A successful install is the first key's install followed by the rest. */
  lemma InstallSharedTail(temp: Container, origin: Container, deps: seq<TypeKey>, targets: seq<TypeKey>, st: State)
    requires Installable(temp, deps, targets) && |deps| > 0
    requires InstallShared(temp, origin, deps, targets, st).r.Ok?
    ensures var one := InstallOne(temp, origin, deps[0], targets[0], st);
            && one.r.Ok?
            && Installable(one.r.value, deps[1..], targets[1..])
            && InstallShared(temp, origin, deps, targets, st) == InstallShared(one.r.value, origin, deps[1..], targets[1..], one.st)
  {
    assert forall i :: 0 <= i < |deps| - 1 ==> deps[1..][i] == deps[i + 1];
  }

  /** Slots of the tail, counted from one further on, are slots of the whole. */
  lemma InstalledShift(s: Scoped, origin: Container, deps: seq<TypeKey>, targets: seq<TypeKey>, st: State, st1: State)
    requires s.r.Ok? && |deps| == |targets| && |deps| > 0 && st1.next == st.next + 1
    requires forall i :: 0 <= i < |deps| - 1 ==> Installed(s, origin, deps[1..], targets[1..], st1, i)
    ensures forall i :: 1 <= i < |deps| ==> Installed(s, origin, deps, targets, st, i)
  {
    forall i | 1 <= i < |deps| ensures Installed(s, origin, deps, targets, st, i) {
      assert Installed(s, origin, deps[1..], targets[1..], st1, i - 1);
      assert deps[1..][i - 1] == deps[i] && targets[1..][i - 1] == targets[i];
    }
  }

  /** Each shared key gets its own fresh, empty slot, in order. */
  lemma {:induction false} InstallSharedSlots(temp: Container, origin: Container, deps: seq<TypeKey>, targets: seq<TypeKey>, st: State)
    requires Installable(temp, deps, targets)
    ensures var s := InstallShared(temp, origin, deps, targets, st);
            s.r.Ok? ==> forall i :: 0 <= i < |deps| ==> Installed(s, origin, deps, targets, st, i)
    decreases |deps|
  {
    var s := InstallShared(temp, origin, deps, targets, st);
    if |deps| > 0 && s.r.Ok? {
      InstallSharedHead(temp, origin, deps, targets, st);
      InstallSharedTail(temp, origin, deps, targets, st);
      var one := InstallOne(temp, origin, deps[0], targets[0], st);
      InstallSharedSlots(one.r.value, origin, deps[1..], targets[1..], one.st);
      InstalledShift(s, origin, deps, targets, st, one.st);
    }
  }

  /** `k` holds a singleton over `loader` whose slot was allocated by this
      step and is still empty. */
  predicate HoldsFreshSingleton(s: Scoped, k: TypeKey, loader: Definition, st: State)
    requires s.r.Ok?
  {
    && k in s.r.value.registered
    && s.r.value.registered[k].Singleton?
    && s.r.value.registered[k].inner == loader
    && st.next <= s.r.value.registered[k].cell < s.st.next
    && s.r.value.registered[k].cell in s.st.cells
    && s.st.cells[s.r.value.registered[k].cell] == Null
  }

  /** Installing into a clone of `c` the given loader targets for the
      de-duplicated shared keys. */
  function BuildShared(c: Container, deps: seq<TypeKey>, targets: seq<TypeKey>, st: State): (s: Scoped)
    requires |deps| > 0 && |targets| == |deps|
    requires forall i, j :: 0 <= i < j < |deps| ==> deps[i] != deps[j]
    ensures s.r.Err? <==> exists i :: 0 <= i < |deps| && deps[i] in UnresolvableTypes
    ensures s.r.Err? ==> s.r.error == InvalidDependencyDefinition(PrimitiveKey)
    ensures Extends(st, s.st) && s.st.stacks == st.stacks
    ensures s.r.Ok? ==>
      && s.r.value.kind.Plain?
      && (forall k :: k in c.registered && k !in deps ==> k in s.r.value.registered && s.r.value.registered[k] == c.registered[k])
      && (forall i :: 0 <= i < |deps| ==> HoldsFreshSingleton(s, deps[i], Loader(c, targets[i]), st))
  {
    var s := InstallShared(Clone(c), c, deps, targets, st);
    InstallSharedKeepsRest(Clone(c), c, deps, targets, st);
    InstallSharedSlots(Clone(c), c, deps, targets, st);
    assert s.r.Ok? ==> forall i :: 0 <= i < |deps| ==> HoldsFreshSingleton(s, deps[i], Loader(c, targets[i]), st) by {
      if s.r.Ok? {
        InstalledAreFresh(s, c, deps, targets, st);
      }
    }
    s
  }

  /** Installed slots lie among the ones the installation allocated. */
  lemma InstalledAreFresh(s: Scoped, origin: Container, deps: seq<TypeKey>, targets: seq<TypeKey>, st: State)
    requires s.r.Ok? && |deps| == |targets| && s.st.next == st.next + |deps|
    requires forall i :: 0 <= i < |deps| ==> Installed(s, origin, deps, targets, st, i)
    ensures forall i :: 0 <= i < |deps| ==> HoldsFreshSingleton(s, deps[i], Loader(origin, targets[i]), st)
  {
    forall i | 0 <= i < |deps| ensures HoldsFreshSingleton(s, deps[i], Loader(origin, targets[i]), st) {
      assert Installed(s, origin, deps, targets, st, i);
    }
  }

  /** The container a call of a bound function builds against: the
      container itself when nothing is shared, otherwise a fresh clone in
      which each shared key is a new singleton, not yet built, whose loader
      resolves that key from the original container. */
  function SharedContainer(c: Container, shared: seq<TypeKey>, st: State): (s: Scoped)
    ensures |shared| == 0 ==> s == Scoped(Ok(c), st)
    ensures s.r.Err? <==> exists i :: 0 <= i < |shared| && shared[i] in UnresolvableTypes
    ensures s.r.Err? ==> s.r.error == InvalidDependencyDefinition(PrimitiveKey)
    ensures Extends(st, s.st) && s.st.stacks == st.stacks
    ensures |shared| > 0 && s.r.Ok? ==>
      && s.r.value.kind.Plain?
      && (forall k :: k in c.registered && k !in shared ==> k in s.r.value.registered && s.r.value.registered[k] == c.registered[k])
      && (forall k :: k in shared ==> HoldsFreshSingleton(s, k, Loader(c, k), st))
  {
    if |shared| == 0 then Scoped(Ok(c), st)
    else
      var deps := Dedupe(shared);
      var s := BuildShared(c, deps, deps, st);
      assert forall k :: k in shared ==> exists i :: 0 <= i < |deps| && deps[i] == k;
      SameKeys(shared, deps);
      s
  }

  /** Two lists with the same elements hold a primitive key alike. */
  lemma SameKeys(xs: seq<TypeKey>, ys: seq<TypeKey>)
    requires forall x :: x in xs <==> x in ys
    ensures (exists i :: 0 <= i < |xs| && xs[i] in UnresolvableTypes) <==> (exists i :: 0 <= i < |ys| && ys[i] in UnresolvableTypes)
  {
    if exists i :: 0 <= i < |xs| && xs[i] in UnresolvableTypes {
      var i :| 0 <= i < |xs| && xs[i] in UnresolvableTypes;
      assert xs[i] in ys;
    }
    if exists i :: 0 <= i < |ys| && ys[i] in UnresolvableTypes {
      var i :| 0 <= i < |ys| && ys[i] in UnresolvableTypes;
      assert ys[i] in xs;
    }
  }

  /** As written, the loaders come from a dict comprehension whose lambdas
      all close over the comprehension variable, so every loader resolves
      the value that variable ends on: the LAST listed shared key (repeats
      included), while the dict keeps one entry per distinct key. */
  function SharedContainerAsWritten(c: Container, shared: seq<TypeKey>, st: State): (s: Scoped)
    ensures s.r.Err? <==> exists i :: 0 <= i < |shared| && shared[i] in UnresolvableTypes
    ensures |shared| > 0 && s.r.Ok? ==>
      forall k :: k in shared ==> HoldsFreshSingleton(s, k, Loader(c, shared[|shared| - 1]), st)
  {
    if |shared| == 0 then Scoped(Ok(c), st)
    else
      var deps := Dedupe(shared);
      var s := BuildShared(c, deps, seq(|deps|, _ => shared[|shared| - 1]), st);
      assert forall k :: k in shared ==> exists i :: 0 <= i < |deps| && deps[i] == k;
      SameKeys(shared, deps);
      s
  }

  /** The finding: sharing `[A, B]` as written makes `A`'s singleton
      resolve `B`; the corrected builder resolves `A`. */
  lemma SharedLoaderLateBinding(c: Container, a: TypeKey, b: TypeKey, st: State)
    requires a != b && a !in UnresolvableTypes && b !in UnresolvableTypes
    ensures SharedContainerAsWritten(c, [a, b], st).r.Ok?
    ensures HoldsFreshSingleton(SharedContainerAsWritten(c, [a, b], st), a, Loader(c, b), st)
    ensures SharedContainer(c, [a, b], st).r.Ok?
    ensures HoldsFreshSingleton(SharedContainer(c, [a, b], st), a, Loader(c, a), st)
  {
    assert Dedupe([a]) == [a];
    assert Dedupe([a, b]) == [a, b];
  }

  /** With a repeated key last, `[A, B, A]`, every loader as written
      resolves `A`, the last listed key, so `B`'s singleton loads `A`. */
  lemma SharedAsWrittenRepeatedLast(c: Container, a: TypeKey, b: TypeKey, st: State)
    requires a != b && a !in UnresolvableTypes && b !in UnresolvableTypes
    ensures SharedContainerAsWritten(c, [a, b, a], st).r.Ok?
    ensures HoldsFreshSingleton(SharedContainerAsWritten(c, [a, b, a], st), a, Loader(c, a), st)
    ensures HoldsFreshSingleton(SharedContainerAsWritten(c, [a, b, a], st), b, Loader(c, a), st)
    ensures HoldsFreshSingleton(SharedContainer(c, [a, b, a], st), b, Loader(c, b), st)
  {
    var shared := [a, b, a];
    assert shared[|shared| - 1] == a;
    assert a in shared && b in shared;
    assert forall i :: 0 <= i < |shared| ==> shared[i] !in UnresolvableTypes;
  }

  /** A shared key's singleton, on first use in a call's container, builds
      by resolving that key in the original container: lazily, at call time. */
  lemma SharedKeyResolvesFromOrigin(w: World, c: Container, shared: seq<TypeKey>, k: TypeKey, st: State, fuel: nat)
    requires SharedContainer(c, shared, st).r.Ok? && k in shared
    ensures var s := SharedContainer(c, shared, st);
            GetInstance(w, s.r.value, s.r.value.registered[k], s.st, fuel).r == Resolve(w, c, k, false, false, s.st, fuel).r
  {
    var s := SharedContainer(c, shared, st);
    assert HoldsFreshSingleton(s, k, Loader(c, k), st);
    var d := s.r.value.registered[k];
    EmptyLoaderResolvesTarget(w, s.r.value, c, k, d.cell, s.st, fuel);
  }

  /** An empty singleton over a loader builds by resolving the loader's
      key in the loader's container. */
  lemma EmptyLoaderResolvesTarget(w: World, temp: Container, c: Container, k: TypeKey, cell: nat, st: State, fuel: nat)
    requires cell in st.cells && st.cells[cell] == Null
    ensures GetInstance(w, temp, Singleton(cell, Loader(c, k)), st, fuel).r == Resolve(w, c, k, false, false, st, fuel).r
  {
    var f := Callable(NoParams, Delegate(c, k));
    assert Arity(f) == 0;
    assert Invoke(w, f, None, st, fuel) == Resolve(w, c, k, false, false, st, fuel);
    var o := GetInstance(w, temp, Loader(c, k), st, fuel);
    assert o == Invoke(w, f, None, st, fuel);
    assert GetInstance(w, temp, Singleton(cell, Loader(c, k)), st, fuel).r == o.r;
  }

  /** Within one call a shared key is the same instance every time it is
      resolved. */
  lemma SharedIdenticalWithinCall(w: World, c: Container, shared: seq<TypeKey>, k: TypeKey, st: State, fuel: nat)
    requires SharedContainer(c, shared, st).r.Ok? && k in shared
    requires fuel > 0 && RemoveOptionalType(k).None?
    ensures var s := SharedContainer(c, shared, st);
            var o1 := Resolve(w, s.r.value, k, false, false, s.st, fuel);
            o1.r.Ok? && o1.r.value != Null ==> Resolve(w, s.r.value, k, false, false, o1.st, fuel) == o1
  {
    var s := SharedContainer(c, shared, st);
    assert HoldsFreshSingleton(s, k, Loader(c, k), st);
    ResolvedSingletonIsStable(w, s.r.value, k, s.st, fuel);
  }

  /** Two calls never share a per-call singleton: the second call's slots
      are all new. */
  lemma SharedFreshAcrossCalls(c: Container, shared: seq<TypeKey>, k: TypeKey, st: State)
    requires SharedContainer(c, shared, st).r.Ok? && k in shared
    ensures var s1 := SharedContainer(c, shared, st);
            var s2 := SharedContainer(c, shared, s1.st);
            && s2.r.Ok?
            && s1.r.value.registered[k].cell != s2.r.value.registered[k].cell
            && s2.st.cells[s2.r.value.registered[k].cell] == Null
  {
    var s1 := SharedContainer(c, shared, st);
    var s2 := SharedContainer(c, shared, s1.st);
    assert |shared| > 0;
    assert HoldsFreshSingleton(s1, k, Loader(c, k), st);
    assert s2.r.Ok?;
    assert HoldsFreshSingleton(s2, k, Loader(c, k), s1.st);
  }

  /** A function bound by `partial`: the container, the function, the
      shared keys, the names to skip and the positional count to skip. */
  datatype Partial = Partial(c: Container, f: PyFunction, shared: seq<TypeKey>, keys: set<string>, skipPos: nat)

  /** Calling a bound function: build the call's container, infer the
      function's dependencies from it with errors suppressed, skipping the
      names the caller supplies, then call the error-mapped function with
      the inferred keyword arguments overridden by the caller's. How the
      caller's names and positional count reach `_bind_func` (through
      `bound_function`) is taken as: the caller's keyword names and the
      number of positional arguments. */
  function CallPartial(w: World, p: Partial, args: seq<Value>, kwargs: map<string, Value>, st: State, fuel: nat): (o: Out)
    ensures Extends(st, o.st)
    ensures SharedContainer(p.c, p.shared, st).r.Err? ==> o.r == Err(SharedContainer(p.c, p.shared, st).r.error)
    ensures o.r.Ok? ==> o.r.value.Record? && o.r.value.args.Keys == NameSet(p.f.sig.params)
    ensures o.r.Ok? ==> kwargs.Keys <= o.r.value.args.Keys
    ensures o.r.Ok? && DistinctNames(p.f.sig.params) ==> forall n :: n in kwargs ==> o.r.value.args[n] == kwargs[n]
  {
    var s := SharedContainer(p.c, p.shared, st);
    if s.r.Err? then Out(Err(s.r.error), s.st)
    else
      var deps := CallDependencies(w, p, s.r.value, args, kwargs, s.st, fuel);
      if deps.r.Err? then Out(Err(deps.r.error), deps.st)
      else
        var all := deps.r.value + kwargs;
        assert forall n :: n in kwargs ==> n in all && all[n] == kwargs[n];
        Out(CallWithErrorHandling(p.f.sig, Reflect(p.f.sig), args, all), deps.st)
  }

  /** The positional names a call leaves alone: as many as the caller
      passes positionally, or as `partial` was told to skip if more. */
  function SkippedPositions(p: Partial, args: seq<Value>): nat {
    if p.skipPos >= |args| then p.skipPos else |args|
  }

  /** What a call of a bound function infers from the call's container `s`. */
  function CallDependencies(w: World, p: Partial, s: Container, args: seq<Value>, kwargs: map<string, Value>,
                            st: State, fuel: nat): DepsOut
  {
    InferDependencies(w, s, Reflect(p.f.sig), true, p.keys + kwargs.Keys, SkippedPositions(p, args), st, fuel)
  }

  /** A bound call passes every inferred dependency on: an inference error
      is the call's error; on success each name inferred from the call's
      container reaches the function with the value it resolved to (the
      caller's own keywords being skipped by the inference); and when the
      merged arguments bind and the body does not raise, the result is the
      function's result for exactly those arguments. */
  lemma PartialPassesDependencies(w: World, p: Partial, args: seq<Value>, kwargs: map<string, Value>, st: State, fuel: nat)
    requires SharedContainer(p.c, p.shared, st).r.Ok?
    ensures var s := SharedContainer(p.c, p.shared, st);
            var deps := CallDependencies(w, p, s.r.value, args, kwargs, s.st, fuel);
            var o := CallPartial(w, p, args, kwargs, st, fuel);
            && (deps.r.Err? ==> o == Out(Err(deps.r.error), deps.st))
            && (o.r.Ok? ==> deps.r.Ok? && deps.r.value.Keys <= o.r.value.args.Keys)
            && (o.r.Ok? && DistinctNames(p.f.sig.params) ==>
                  forall n :: n in deps.r.value ==> o.r.value.args[n] == deps.r.value[n])
            && (deps.r.Ok? && Bind(p.f.sig.params, args, deps.r.value + kwargs).Ok? && p.f.sig.raises.None? ==>
                  o == Out(Ok(Record(Bind(p.f.sig.params, args, deps.r.value + kwargs).value)), deps.st))
  {
    var s := SharedContainer(p.c, p.shared, st);
    var spec := Reflect(p.f.sig);
    var deps := CallDependencies(w, p, s.r.value, args, kwargs, s.st, fuel);
    var o := CallPartial(w, p, args, kwargs, st, fuel);
    if deps.r.Ok? {
      var all := deps.r.value + kwargs;
      assert o == Out(CallWithErrorHandling(p.f.sig, spec, args, all), deps.st);
      DependenciesAreNotKeywords(spec, p.keys + kwargs.Keys, SkippedPositions(p, args), deps.r.value, kwargs);
      if o.r.Ok? {
        assert o.r == Call(p.f.sig, args, all);
        assert forall n :: n in deps.r.value ==> n in all && all[n] == deps.r.value[n];
      }
    }
  }

  /** The names inferred are wanted, so none of them is a caller's keyword. */
  lemma DependenciesAreNotKeywords(spec: FunctionSpec, keys: set<string>, skipPos: nat, deps: map<string, Value>, kwargs: map<string, Value>)
    requires kwargs.Keys <= keys
    requires forall n :: n in deps ==> Wanted(spec.annotations, Skipped(spec, keys, skipPos), n)
    ensures forall n :: n in deps ==> n !in kwargs
  {
    forall n | n in deps ensures n !in kwargs {
      assert Wanted(spec.annotations, Skipped(spec, keys, skipPos), n);
    }
  }
}

=== FILE: composition.dfy ===
/** `compose` and `_SourceList` (lagom/composition.py): several definition
    sources read in order, the earliest source that defines a key winning,
    after a check that no two sources define the same key. */
module Composition {
  import opened Types
  import opened Defs

  /** `_SourceList.get_definition`: the definition held by the first source,
      in argument order, that defines the key; `None` when none does. */
  function GetDefinition(sources: seq<Container>, k: TypeKey): (r: Option<Definition>)
    ensures r.Some? <==> exists i :: 0 <= i < |sources| && k in sources[i].registered
    ensures r.Some? ==> exists i :: 0 <= i < |sources| && k in sources[i].registered
                                  && r.value == sources[i].registered[k]
                                  && forall j :: 0 <= j < i ==> k !in sources[j].registered
    decreases |sources|
  {
    if |sources| == 0 then None
    else if k in sources[0].registered then Some(sources[0].registered[k])
    else
      var r := GetDefinition(sources[1..], k);
      assert forall i :: 0 <= i < |sources| - 1 ==> sources[1..][i] == sources[i + 1];
      if r.Some? then
        var i :| 0 <= i < |sources| - 1 && k in sources[1..][i].registered
                 && r.value == sources[1..][i].registered[k]
                 && forall j :: 0 <= j < i ==> k !in sources[1..][j].registered;
        assert forall j :: 0 <= j < i + 1 ==> k !in sources[j].registered;
        r
      else r
  }

  /** `_SourceList.defined_types`: the union of the sources' defined types. */
  function DefinedTypesOf(sources: seq<Container>): (r: set<TypeKey>)
    ensures forall k :: k in r <==> exists i :: 0 <= i < |sources| && k in sources[i].registered
    decreases |sources|
  {
    if |sources| == 0 then {}
    else
      assert forall i :: 0 <= i < |sources| - 1 ==> sources[1..][i] == sources[i + 1];
      sources[0].registered.Keys + DefinedTypesOf(sources[1..])
  }

  /** A key the list lists as defined is exactly a key it has a definition for. */
  lemma DefinedIffFound(sources: seq<Container>, k: TypeKey)
    ensures k in DefinedTypesOf(sources) <==> GetDefinition(sources, k).Some?
  {
  }

  /** `dep` is defined in both sources and is not the debug-info key, which
      the check lets every source define. */
  predicate Clash(a: Container, b: Container, dep: TypeKey) {
    dep in a.registered && dep in b.registered && KeyName(dep) != "ContainerDebugInfo"
  }

  predicate Overlapping(a: Container, b: Container) {
    exists dep :: dep in a.registered && Clash(a, b, dep)
  }

  /** No two positions of the list define a common key. */
  predicate Unique(sources: seq<Container>) {
    forall i, j :: 0 <= i < j < |sources| ==> !Overlapping(sources[i], sources[j])
  }

  /** The pair (i, j) comes before (first, second) in the order the check visits pairs. */
  predicate VisitedBefore(i: int, j: int, first: int, second: int) {
    i < first || (i == first && j < second)
  }

  /** The innermost loop of the check: the keys of `a`, in some order, until
      one clashes with `b`. */
  method FindClash(a: Container, b: Container) returns (r: Option<TypeKey>)
    ensures r.None? <==> !Overlapping(a, b)
    ensures r.Some? ==> Clash(a, b, r.value)
  {
    var todo := a.registered.Keys;
    while todo != {}
      invariant todo <= a.registered.Keys
      invariant forall dep :: dep in a.registered && dep !in todo ==> !Clash(a, b, dep)
      decreases todo
    {
      var dep :| dep in todo;
      if dep in b.registered && KeyName(dep) != "ContainerDebugInfo" {
        return Some(dep);
      }
      todo := todo - {dep};
    }
    return None;
  }

  /** `_assert_unique_dependencies`: every pair of positions i < j is
      checked, in order; the first pair sharing a key raises `ValueError`
      naming both positions. */
  method AssertUniqueDependencies(sources: seq<Container>) returns (r: Result<()>)
    ensures r.Ok? <==> Unique(sources)
    ensures r.Err? ==>
      && r.error.CompositionOverlap?
      && r.error.first < r.error.second < |sources|
      && Overlapping(sources[r.error.first], sources[r.error.second])
      && forall i, j :: 0 <= i < j < |sources| && VisitedBefore(i, j, r.error.first, r.error.second) ==>
           !Overlapping(sources[i], sources[j])
  {
    var first := 0;
    while first < |sources|
      invariant 0 <= first <= |sources|
      invariant forall i, j :: 0 <= i < first && i < j < |sources| ==> !Overlapping(sources[i], sources[j])
    {
      var second := first + 1;
      while second < |sources|
        invariant first + 1 <= second <= |sources|
        invariant forall j :: first < j < second ==> !Overlapping(sources[first], sources[j])
      {
        var clash := FindClash(sources[first], sources[second]);
        if clash.Some? {
          return Err(CompositionOverlap(first, second));
        }
        second := second + 1;
      }
      first := first + 1;
    }
    return Ok(());
  }

  /** The registered map of a container layered over the source list: each
      key any source defines, with its first-hit definition. */
  function Merge(sources: seq<Container>): (m: map<TypeKey, Definition>)
    ensures m.Keys == DefinedTypesOf(sources)
    ensures forall k :: k in m ==> GetDefinition(sources, k) == Some(m[k])
  {
    map k | k in DefinedTypesOf(sources) :: GetDefinition(sources, k).value
  }

  /** `compose(*sources)`: refuse overlapping sources, otherwise a container
      that reads its definitions from the list, first source first. */
  method Compose(sources: seq<Container>) returns (r: Result<Container>)
    ensures r.Ok? <==> Unique(sources)
    ensures r.Err? ==> r.error.CompositionOverlap?
    ensures r.Ok? ==>
      && r.value.kind.Plain? && r.value.explicit == {}
      && (forall k :: k in r.value.registered <==> exists i :: 0 <= i < |sources| && k in sources[i].registered)
      && (forall k :: k in r.value.registered ==> GetDefinition(sources, k) == Some(r.value.registered[k]))
  {
    var check := AssertUniqueDependencies(sources);
    if check.Err? {
      return Err(check.error);
    }
    return Ok(Container(Merge(sources), {}, Plain));
  }

  /** With unique sources the order does not matter: a key (other than the
      debug-info key) defined by source i gets source i's definition. */
  lemma UniqueSourceOwnsKey(sources: seq<Container>, i: nat, k: TypeKey)
    requires Unique(sources) && i < |sources| && k in sources[i].registered
    requires KeyName(k) != "ContainerDebugInfo"
    ensures GetDefinition(sources, k) == Some(sources[i].registered[k])
  {
    var r := GetDefinition(sources, k);
    var j :| 0 <= j < |sources| && k in sources[j].registered && r.value == sources[j].registered[k]
             && forall l :: 0 <= l < j ==> k !in sources[l].registered;
    if j != i {
      assert j < i;
      assert Clash(sources[j], sources[i], k);
      assert false;
    }
  }

  /** Passing the same source twice fails as soon as it defines any key
      other than the debug-info key. */
  lemma SameSourceTwiceOverlaps(s: Container, k: TypeKey)
    requires k in s.registered && KeyName(k) != "ContainerDebugInfo"
    ensures !Unique([s, s])
  {
    assert Clash([s, s][0], [s, s][1], k);
  }

  /** Sources with pairwise disjoint keys pass the check. */
  lemma DisjointSourcesAreUnique(sources: seq<Container>)
    requires forall i, j :: 0 <= i < j < |sources| ==> sources[i].registered.Keys !! sources[j].registered.Keys
    ensures Unique(sources)
  {
  }
}

=== FILE: decorators.dfy ===
/** The decorators of lagom/decorators.py: binding a function to a
    container, and registering a function (or generator) as the definition
    of the type it returns. */
module Decorators {
  import opened Types
  import opened Reflection
  import opened Defs
  import opened Engine
  import opened Registry
  import opened Binding
  import opened ResolutionLaws

  /** `bind_to_container(container, shared)(func)`: classes and other
      callables are refused; a function becomes the container's `partial`
      with nothing skipped. */
  function BindToContainer(c: Container, f: Callable, shared: seq<TypeKey>): (r: Result<Partial>)
    ensures r.Err? <==> !IsFunctionKind(f.sig.kind)
    ensures r.Err? ==> r.error == ClassesCannotBeDecorated
    ensures r.Ok? ==> r.value.f == f && r.value.c == c && r.value.shared == shared
    ensures r.Ok? ==> r.value.keys == {} && r.value.skipPos == 0
  {
    if !IsFunctionKind(f.sig.kind) then Err(ClassesCannotBeDecorated)
    else Ok(Partial(c, f, shared, {}, 0))
  }

  /** A decorated function called with every argument supplied by the
      caller receives exactly those arguments: the container only fills in
      what is missing. */
  lemma DecoratedCallKeepsCallerArguments(w: World, c: Container, f: Callable, kwargs: map<string, Value>, st: State, fuel: nat)
    requires BindToContainer(c, f, []).Ok? && DistinctNames(f.sig.params)
    ensures var o := CallPartial(w, BindToContainer(c, f, []).value, [], kwargs, st, fuel);
            o.r.Ok? ==> o.r.value.Record? && o.r.value.args.Keys == NameSet(f.sig.params)
                        && forall n :: n in kwargs ==> o.r.value.args[n] == kwargs[n]
  {
  }

  /** `return_type.__args__[0]`: the first type argument of a generic; a
      key without type arguments has no `__args__`, and an empty argument
      list has no first element. */
  function GeneratorType(k: Option<TypeKey>): (r: Result<TypeKey>)
    ensures r.Ok? <==> k.Some? && k.value.Generic? && |k.value.args| > 0
    ensures r.Ok? ==> r.value == k.value.args[0]
    ensures k.None? || !k.value.Generic? ==> r == Err(AttributeError)
  {
    if k.None? || !k.value.Generic? then Err(AttributeError)
    else if |k.value.args| == 0 then Err(Raised("IndexError"))
    else Ok(k.value.args[0])
  }

  lemma GeneratorTypeRoundTrip(t: TypeKey)
    ensures GeneratorType(Some(IteratorOf(t))) == Ok(t)
    ensures GeneratorType(Some(GeneratorOf(t))) == Ok(t)
    ensures GeneratorType(Some(AsyncGeneratorOf(t))) == Ok(t)
  {
  }

  /** A definition and the key it is registered under. */
  datatype Extracted = Extracted(d: Definition, key: TypeKey)

  /** `_extract_definition_func_and_type`: the reflected return type is
      required; a coroutine function becomes an async construction under
      `Awaitable[T]`; any other non-generator goes through `construction`;
      a generator (sync or async) becomes a yielding construction under the
      type it yields. */
  function ExtractDefinition(f: Callable): (r: Result<Extracted>)
    ensures ReturnHint(f.sig.hints).None? ==> r == Err(MissingReturnType)
    ensures ReturnHint(f.sig.hints).Some? && f.sig.kind.CoroutineFn? ==>
      r == Ok(Extracted(AsyncConstruction(f), AwaitableOf(ReturnHint(f.sig.hints).value)))
    ensures ReturnHint(f.sig.hints).Some? && !f.sig.kind.CoroutineFn? && !f.sig.kind.GeneratorFn? && !f.sig.kind.AsyncGeneratorFn? ==>
      && (r.Ok? <==> Construction(f).Ok?)
      && (r.Ok? ==> r.value == Extracted(Construction(f).value, ReturnHint(f.sig.hints).value))
      && (r.Err? ==> r.error == InvalidDependencyDefinition(BadArity(Arity(f))))
    ensures ReturnHint(f.sig.hints).Some? && (f.sig.kind.GeneratorFn? || f.sig.kind.AsyncGeneratorFn?) ==>
      && (r.Ok? <==> GeneratorType(ReturnHint(f.sig.hints)).Ok?)
      && (r.Ok? ==> r.value == Extracted(YieldingConstruction(f), GeneratorType(ReturnHint(f.sig.hints)).value))
  {
    var ret := Reflect(f.sig).returnType;
    if ret.None? then Err(MissingReturnType)
    else if f.sig.kind.CoroutineFn? then Ok(Extracted(AsyncConstruction(f), ret.value))
    else if !f.sig.kind.GeneratorFn? && !f.sig.kind.AsyncGeneratorFn? then
      var d := Construction(f);
      if d.Err? then Err(d.error) else Ok(Extracted(d.value, ret.value))
    else
      var t := GeneratorType(ret);
      if t.Err? then Err(t.error) else Ok(Extracted(YieldingConstruction(f), t.value))
  }

  /** `dependency_definition(container, singleton)(func)`: the extracted
      definition is defined under its key, behind a fresh singleton when
      asked to. */
  function DependencyDefinition(c: Container, f: Callable, singleton: bool, st: State): (d: Defined)
    ensures ExtractDefinition(f).Err? ==> d == Defined(Err(ExtractDefinition(f).error), c, st)
    ensures d.r.Ok? <==> ExtractDefinition(f).Ok? && ExtractDefinition(f).value.key !in UnresolvableTypes
                         && ExtractDefinition(f).value.key !in c.explicit
    ensures d.r.Ok? ==>
      var x := ExtractDefinition(f).value;
      && x.key in d.c.registered
      && d.c.explicit == c.explicit + {x.key}
      && (!singleton ==> d.c.registered[x.key] == x.d && d.st == st)
      && (singleton ==> d.c.registered[x.key] == Singleton(st.next, x.d)
                        && st.next in d.st.cells && d.st.cells[st.next] == Null)
  {
    var x := ExtractDefinition(f);
    if x.Err? then Defined(Err(x.error), c, st)
    else if singleton then
      var n := MakeSingleton(Special(x.value.d), st);
      Define(c, x.value.key, Special(n.r.value), n.st)
    else Define(c, x.value.key, Special(x.value.d), st)
  }

  /** The decorated function with no parameters builds a new value each
      time its return type is resolved: resolving the type calls it. */
  lemma DefinitionFunctionIsCalledOnResolve(w: World, c: Container, f: Callable, st: State, fuel: nat)
    requires c.kind.Plain? && fuel > 0 && f.sig.kind.PlainFn? && Arity(f) == 0
    requires DependencyDefinition(c, f, false, st).r.Ok?
    requires RemoveOptionalType(ReturnHint(f.sig.hints).value).None?
    ensures var d := DependencyDefinition(c, f, false, st);
            var k := ReturnHint(f.sig.hints).value;
            Resolve(w, d.c, k, false, false, st, fuel) == Recover(Invoke(w, f, None, st, fuel - 1), k, false)
  {
    var k := ReturnHint(f.sig.hints).value;
    DefineThenResolve(w, c, k, ConstructionWithoutContainer(f), false, st, fuel);
  }

  /** A decorated coroutine function with no parameters is defined under
      `Awaitable[T]`; awaiting that key calls the function, so a coroutine
      that builds an object yields a fresh object of its class. */
  lemma CoroutineDefinitionResolvesUnderAwaitable(w: World, c: Container, f: Callable, st: State, fuel: nat)
    requires c.kind.Plain? && fuel > 0 && f.sig.kind.CoroutineFn? && Arity(f) == 0
    requires DependencyDefinition(c, f, false, st).r.Ok?
    ensures ReturnHint(f.sig.hints).Some?
    ensures var d := DependencyDefinition(c, f, false, st);
            var k := AwaitableOf(ReturnHint(f.sig.hints).value);
            && k in d.c.registered
            && Resolve(w, d.c, k, false, false, st, fuel) == Recover(Invoke(w, f, None, st, fuel - 1), k, false)
            && (f.body.New? ==> Resolve(w, d.c, k, false, false, st, fuel)
                                == Out(Ok(Obj(st.next, f.body.cls, map[])), st.(next := st.next + 1)))
  {
    var k := AwaitableOf(ReturnHint(f.sig.hints).value);
    DefineThenResolve(w, c, k, AsyncConstruction(f), false, st, fuel);
  }

  /** With `singleton=True` the return type, once resolved to an instance,
      keeps resolving to that same instance. */
  lemma SingletonDefinitionResolvesOnce(w: World, c: Container, f: Callable, st: State, fuel: nat)
    requires c.kind.Plain? && fuel > 0 && DependencyDefinition(c, f, true, st).r.Ok?
    requires Ordinary(ExtractDefinition(f).value.key)
    ensures var d := DependencyDefinition(c, f, true, st);
            var k := ExtractDefinition(f).value.key;
            var o1 := Resolve(w, d.c, k, false, false, d.st, fuel);
            o1.r.Ok? && o1.r.value != Null ==> Resolve(w, d.c, k, false, false, o1.st, fuel) == o1
  {
    var d := DependencyDefinition(c, f, true, st);
    ResolvedSingletonIsStable(w, d.c, ExtractDefinition(f).value.key, d.st, fuel);
  }

  /** What `contextmanager(func)` (or `asynccontextmanager(func)`) is: a
      function with the generator's parameters whose call returns a manager
      object yielding `t`. */
  function ManagerFactory(f: Callable, t: TypeKey, isAsync: bool): (g: PyFunction)
    ensures g.sig.params == f.sig.params && g.sig.kind.PlainFn?
    ensures g.body == New(Generic(if isAsync then AsyncGeneratorManager else GeneratorManager, [t]))
  {
    Callable(Func(f.sig.params, f.sig.hints, PlainFn, None),
             New(Generic(if isAsync then AsyncGeneratorManager else GeneratorManager, [t])))
  }

  /** `context_dependency_definition(container)(func)`: only generator
      functions are accepted; the type they yield is taken from the return
      annotation; a generator defines `ContextManager[T]`, an async
      generator `AsyncContextManager[T]`. */
  function ContextDependencyDefinition(c: Container, f: Callable, st: State): (d: Defined)
    ensures !f.sig.kind.GeneratorFn? && !f.sig.kind.AsyncGeneratorFn? ==>
      d == Defined(Err(InvalidDependencyDefinition(NotAGenerator)), c, st)
    ensures (f.sig.kind.GeneratorFn? || f.sig.kind.AsyncGeneratorFn?) && GeneratorType(ReturnHint(f.sig.hints)).Err? ==>
      d == Defined(Err(GeneratorType(ReturnHint(f.sig.hints)).error), c, st)
    ensures d.r.Ok? ==>
      var t := GeneratorType(ReturnHint(f.sig.hints)).value;
      var isAsync := f.sig.kind.AsyncGeneratorFn?;
      var key := if isAsync then AsyncContextManagerOf(t) else ContextManagerOf(t);
      && (f.sig.kind.GeneratorFn? || f.sig.kind.AsyncGeneratorFn?)
      && key in d.c.registered
      && Construction(ManagerFactory(f, t, isAsync)).Ok?
      && d.c.registered[key] == Construction(ManagerFactory(f, t, isAsync)).value
      && d.c.explicit == c.explicit + {key}
      && d.st == st
    ensures d.r.Err? ==> d.c == c && d.st == st
  {
    if !f.sig.kind.GeneratorFn? && !f.sig.kind.AsyncGeneratorFn? then
      Defined(Err(InvalidDependencyDefinition(NotAGenerator)), c, st)
    else
      var t := GeneratorType(Reflect(f.sig).returnType);
      if t.Err? then Defined(Err(t.error), c, st)
      else if f.sig.kind.GeneratorFn? then
        Define(c, ContextManagerOf(t.value), Function(ManagerFactory(f, t.value, false)), st)
      else
        Define(c, AsyncContextManagerOf(t.value), Function(ManagerFactory(f, t.value, true)), st)
  }

  /** The docstring's use: after decorating a parameterless generator
      yielding `T`, resolving `ContextManager[T]` gives a context manager
      whose `__enter__` produces a `T`. */
  lemma ContextDefinitionGivesManager(w: World, c: Container, f: Callable, st: State, fuel: nat)
    requires c.kind.Plain? && fuel > 1 && f.sig.kind.GeneratorFn? && |f.sig.params| == 0
    requires ContextDependencyDefinition(c, f, st).r.Ok?
    requires Generic(GeneratorManager, [GeneratorType(ReturnHint(f.sig.hints)).value]) !in w.managers
    ensures var d := ContextDependencyDefinition(c, f, st);
            var t := GeneratorType(ReturnHint(f.sig.hints)).value;
            var o := Resolve(w, d.c, ContextManagerOf(t), false, false, st, fuel);
            && o.r.Ok?
            && ManagerOf(w, o.r.value) == Some(Manager(t, false))
  {
    var d := ContextDependencyDefinition(c, f, st);
    var t := GeneratorType(ReturnHint(f.sig.hints)).value;
    var g := ManagerFactory(f, t, false);
    assert Construction(g) == Ok(ConstructionWithoutContainer(g));
    DefineThenResolve(w, c, ContextManagerOf(t), ConstructionWithoutContainer(g), false, st, fuel);
    assert GetInstance(w, d.c, ConstructionWithoutContainer(g), st, fuel - 1).r == Ok(Obj(st.next, Generic(GeneratorManager, [t]), map[]));
  }

  /** Anything but a generator function is refused, whatever it returns. */
  lemma ContextDefinitionNeedsGenerator(c: Container, f: Callable, st: State)
    requires f.sig.kind.PlainFn? || f.sig.kind.CoroutineFn?
    ensures ContextDependencyDefinition(c, f, st).r == Err(InvalidDependencyDefinition(NotAGenerator))
    ensures DependencyDefinition(c, f, false, st).r.Err? ==>
      ReturnHint(f.sig.hints).None? || DependencyDefinition(c, f, false, st).r.error != InvalidDependencyDefinition(NotAGenerator)
  {
  }
}

=== FILE: definitions.dfy ===
/** The definition kinds (lagom/definitions.py) together with the container
    record they close over and the mutable state they act on. Definitions,
    callables and containers refer to one another, so they live in one module. */
module Defs {
  import opened Types
  import opened Reflection

  /** What a user-supplied callable does when invoked:
      build a fresh object of a class, return a fixed value, resolve a key from
      the container it is passed, resolve a key from a container it closed
      over, or raise. */
  datatype Body =
    | New(cls: TypeKey)
    | Const(v: Value)
    | UseArg(key: TypeKey)
    | Delegate(target: Container, key: TypeKey)
    | Raise(e: Error)

  /** A callable: its signature and its behaviour. */
  datatype Callable = Callable(sig: Func, body: Body)

  /** The closed sum of definition kinds. `cell` names the mutable slot of a
      `Singleton` in `State.cells` (shared by reference between clones);
      `ContextResolver` is the `ConstructionWithContainer` a scope installs
      around `_context_resolver`, naming the exit stack it pushes onto. */
  datatype Definition =
    | ConstructionWithoutContainer(ctor: Callable)
    | ConstructionWithContainer(ctor: Callable)
    | Alias(target: TypeKey)
    | Singleton(cell: nat, inner: Definition)
    | PlainFunction(value: Value)
    | AsyncConstruction(ctor: Callable)
    | YieldingConstruction(ctor: Callable)
    | ContextResolver(stack: nat, manager: Definition, isAsync: bool)

  /** Which `resolve` a container runs: the base one, the explicit-only one
      (lagom/experimental/container.py) or the older scope's (context_based.py),
      whose exit stack is `scope`. */
  datatype Kind = Plain | Explicit | LegacyContext(scope: nat, contextTypes: set<TypeKey>)

  /** A container: `_registered_types`, `_explicitly_registered_types` and the
      class whose `resolve` it runs. */
  datatype Container = Container(registered: map<TypeKey, Definition>, explicit: set<TypeKey>, kind: Kind)

  /** A release pushed on an exit stack: leaving a context manager (by its
      object id) or leaving a nested scope (by the id of its stack). */
  datatype Release = ExitManager(manager: nat, isAsync: bool) | ExitScope(stack: nat)

  /** An exit stack attribute: a live `ExitStack` or one reset to `None`.
      A stack id missing from `State.stacks` is an attribute never assigned. */
  datatype Stack = Open(entries: seq<Release>) | Cleared

  /** An `AwaitableSingleton` object: constructor, container and cached instance. */
  datatype AsyncCell = AsyncCell(ctor: Definition, container: Container, instance: Value)

  /** The heap: the id counter, singleton slots, exit stacks, the log of
      releases run so far and the `AwaitableSingleton` objects. */
  datatype State = State(
    next: nat,
    cells: map<nat, Value>,
    stacks: map<nat, Stack>,
    released: seq<Release>,
    asyncCells: map<nat, AsyncCell>)

  /** What resolution may do to the heap: draw ids, fill singleton slots and
      push onto live stacks, but never close or release anything. */
  predicate Extends(a: State, b: State) {
    && a.next <= b.next
    && a.cells.Keys <= b.cells.Keys
    && a.stacks.Keys == b.stacks.Keys
    && (forall id :: id in a.stacks && a.stacks[id].Open? ==> b.stacks[id].Open?)
    && a.asyncCells == b.asyncCells
    && a.released == b.released
  }

  lemma ExtendsTransitive(a: State, b: State, c: State)
    requires Extends(a, b) && Extends(b, c)
    ensures Extends(a, c)
  {
  }

  /** A fresh empty singleton slot. */
  function AllocCell(st: State): (p: (nat, State))
    ensures p.0 == st.next && p.1.next == st.next + 1
    ensures p.1.cells == st.cells[st.next := Null]
    ensures p.1.stacks == st.stacks && p.1.released == st.released && p.1.asyncCells == st.asyncCells
  {
    (st.next, st.(next := st.next + 1, cells := st.cells[st.next := Null]))
  }

  /** A fresh stack id holding the given stack. */
  function AllocStack(st: State, s: Stack): (p: (nat, State))
    ensures p.0 == st.next && p.1.next == st.next + 1
    ensures p.1.stacks == st.stacks[st.next := s]
    ensures p.1.cells == st.cells && p.1.released == st.released && p.1.asyncCells == st.asyncCells
  {
    (st.next, st.(next := st.next + 1, stacks := st.stacks[st.next := s]))
  }

  /** `lagom.util.functional.arity`: the number of parameters. */
  function Arity(f: Callable): nat { |f.sig.params| }

  const NoParams: Func := Func([], [], PlainFn, None)

  /** `lambda: value`. */
  function ConstantCallable(v: Value): (f: Callable)
    ensures Arity(f) == 0 && f.sig.kind.PlainFn?
  {
    Callable(NoParams, Const(v))
  }

  /** A Python function (what `inspect.isfunction` accepts). */
  type PyFunction = f: Callable | IsFunctionKind(f.sig.kind) witness Callable(NoParams, Const(Null))

  /** `construction`: the arity decides whether the container is passed. */
  function Construction(f: Callable): (r: Result<Definition>)
    ensures Arity(f) == 0 <==> r == Ok(ConstructionWithoutContainer(f))
    ensures Arity(f) == 1 <==> r == Ok(ConstructionWithContainer(f))
    ensures Arity(f) > 1 <==> r == Err(InvalidDependencyDefinition(BadArity(Arity(f))))
  {
    if Arity(f) == 0 then Ok(ConstructionWithoutContainer(f))
    else if Arity(f) == 1 then Ok(ConstructionWithContainer(f))
    else Err(InvalidDependencyDefinition(BadArity(Arity(f))))
  }

  /** The four shapes of `TypeResolver` accepted by `define`. */
  datatype Resolver =
    | Special(d: Definition)
    | Function(f: PyFunction)
    | ClassRef(k: TypeKey)
    | Instance(v: Value)

  datatype Normalised = Normalised(r: Result<Definition>, st: State)

  /** `normalise`: definitions pass through, functions go through
      `construction`, classes become aliases and any other value becomes a
      singleton holding that constant in a fresh slot. */
  function Normalise(res: Resolver, st: State): (n: Normalised)
    ensures res.Special? ==> n == Normalised(Ok(res.d), st)
    ensures res.Function? ==> n == Normalised(Construction(res.f), st)
    ensures res.ClassRef? ==> n == Normalised(Ok(Alias(res.k)), st)
    ensures res.Instance? ==>
      && n.r == Ok(Singleton(st.next, ConstructionWithoutContainer(ConstantCallable(res.v))))
      && n.st == AllocCell(st).1
    ensures n.r.Ok? && !res.Instance? ==> n.st == st
    ensures n.r.Err? ==> n.r.error.InvalidDependencyDefinition? && n.st == st
  {
    match res
    case Special(d) => Normalised(Ok(d), st)
    case Function(f) => Normalised(Construction(f), st)
    case ClassRef(k) => Normalised(Ok(Alias(k)), st)
    case Instance(v) =>
      var (cell, st') := AllocCell(st);
      Normalised(Ok(Singleton(cell, ConstructionWithoutContainer(ConstantCallable(v)))), st')
  }

  /** `Singleton(resolver)`: the argument is normalised first and the result
      is wrapped around a fresh empty slot. */
  function MakeSingleton(res: Resolver, st: State): (n: Normalised)
    ensures Normalise(res, st).r.Err? ==> n == Normalise(res, st)
    ensures Normalise(res, st).r.Ok? ==>
      var m := Normalise(res, st);
      && n.r == Ok(Singleton(m.st.next, m.r.value))
      && n.st == AllocCell(m.st).1
  {
    var m := Normalise(res, st);
    if m.r.Err? then m
    else
      var (cell, st') := AllocCell(m.st);
      Normalised(Ok(Singleton(cell, m.r.value)), st')
  }

  /** `Singleton(SomeClass)` wraps `Alias(SomeClass)`, and the new slot is empty. */
  lemma SingletonOfClassWrapsAlias(k: TypeKey, st: State)
    ensures MakeSingleton(ClassRef(k), st).r == Ok(Singleton(st.next, Alias(k)))
    ensures MakeSingleton(ClassRef(k), st).st.cells[st.next] == Null
  {
  }

  /** Normalising is idempotent: a definition produced by `normalise` comes
      back unchanged when normalised again. */
  lemma NormaliseIdempotent(res: Resolver, st: State, st2: State)
    requires Normalise(res, st).r.Ok?
    ensures Normalise(Special(Normalise(res, st).r.value), st2) == Normalised(Normalise(res, st).r, st2)
  {
  }

  /** `get_definition(k1) or get_definition(k2) or ...`: the definition of
      the first key in the list that has one. */
  function FirstDefined(m: map<TypeKey, Definition>, keys: seq<TypeKey>): (r: Option<Definition>)
    ensures r.Some? <==> exists i :: 0 <= i < |keys| && keys[i] in m
    ensures r.Some? ==> exists i :: 0 <= i < |keys| && keys[i] in m && r.value == m[keys[i]]
                                && forall j :: 0 <= j < i ==> keys[j] !in m
  {
    if |keys| == 0 then None
    else if keys[0] in m then Some(m[keys[0]])
    else
      var r := FirstDefined(m, keys[1..]);
      assert forall i :: 0 <= i < |keys| - 1 ==> keys[1..][i] == keys[i + 1];
      if r.Some? then
        var i :| 0 <= i < |keys[1..]| && keys[1..][i] in m && r.value == m[keys[1..][i]]
                 && forall j :: 0 <= j < i ==> keys[1..][j] !in m;
        assert keys[i + 1] in m && forall j :: 0 <= j < i + 1 ==> keys[j] !in m;
        r
      else r
  }
}

=== FILE: engine.dfy ===
/** Resolution (lagom/container.py `resolve`, `_reflection_build`,
    `_infer_dependencies`), every definition's `get_instance`
    (lagom/definitions.py), the explicit-only `resolve`
    (lagom/experimental/container.py) and the older scope's `resolve`
    (context_based.py). Python dispatches `resolve` on the container's class,
    so `Resolve` dispatches on `Container.kind`. Resolution in Python can
    recurse without bound; `fuel` bounds it and running out is
    `RecursionLimit` (Python's `RecursionError`). */
module Engine {
  import opened Types
  import opened Reflection
  import opened Defs

  /** What a context manager class does on `__enter__`: the class of the
      object it yields and whether it is an asynchronous manager. */
  datatype Manager = Manager(produces: TypeKey, isAsync: bool)

  /** The classes the program knows: each class's `__init__` signature
      (without `self`) and the context manager classes. A key with no
      `__init__` entry cannot be built by reflection. */
  datatype World = World(inits: map<TypeKey, Func>, managers: map<TypeKey, Manager>)

  datatype Out = Out(r: Result<Value>, st: State)
  datatype DepsOut = DepsOut(r: Result<map<string, Value>>, st: State)

  /** The `except UnresolvableType` handler around the base `resolve`. */
  function Recover(o: Out, k: TypeKey, suppress: bool): (p: Out)
    ensures p.st == o.st
    ensures IsUnresolvable(o.r) && suppress ==> p.r == Ok(Null)
    ensures IsUnresolvable(o.r) && !suppress ==> p.r == Err(UnresolvableType(k))
    ensures !IsUnresolvable(o.r) ==> p == o
  {
    if IsUnresolvable(o.r) then
      if suppress then Out(Ok(Null), o.st) else Out(Err(UnresolvableType(k)), o.st)
    else o
  }

  /** The context manager an object is, if it is one: one of the known
      manager classes, or what `contextmanager`/`asynccontextmanager`
      produce for a generator yielding `T`. */
  function ManagerOf(w: World, v: Value): (m: Option<Manager>)
    ensures m.Some? ==> v.Obj?
  {
    if !v.Obj? then None
    else if v.cls in w.managers then Some(w.managers[v.cls])
    else if v.cls.Generic? && |v.cls.args| == 1 && v.cls.origin == GeneratorManager then
      Some(Manager(v.cls.args[0], false))
    else if v.cls.Generic? && |v.cls.args| == 1 && v.cls.origin == AsyncGeneratorManager then
      Some(Manager(v.cls.args[0], true))
    else None
  }

  /** `exit_stack.enter_context(cm)` (or `enter_async_context`): the
      manager's exit is pushed on the stack and what it yields is returned.
      A stack that is `None` or was never assigned has no such method. */
  function EnterManager(w: World, v: Value, stack: nat, isAsync: bool, st: State): (o: Out)
    ensures Extends(st, o.st)
    ensures o.r.Ok? ==>
      && ManagerOf(w, v).Some?
      && stack in st.stacks && st.stacks[stack].Open?
      && o.r.value == Obj(st.next, ManagerOf(w, v).value.produces, map[])
      && o.st == st.(next := st.next + 1,
                     stacks := st.stacks[stack := Open(st.stacks[stack].entries + [ExitManager(v.id, isAsync)])])
    ensures o.r.Err? ==> o.st == st
  {
    var m := ManagerOf(w, v);
    if m.None? || m.value.isAsync != isAsync then Out(Err(NotAContextManager), st)
    else if stack !in st.stacks || !st.stacks[stack].Open? then Out(Err(AttributeError), st)
    else
      var entries := st.stacks[stack].entries + [ExitManager(v.id, isAsync)];
      Out(Ok(Obj(st.next, m.value.produces, map[])),
          st.(next := st.next + 1, stacks := st.stacks[stack := Open(entries)]))
  }

  /** Calling the class with the inferred keyword arguments; a `TypeError`
      from the call becomes `UnresolvableType` for the class. */
  function Construct(k: TypeKey, init: Func, kwargs: map<string, Value>, st: State): (o: Out)
    ensures Extends(st, o.st)
    ensures o.r.Ok? ==> o.r.value.Obj? && o.r.value.id == st.next && o.st.next == st.next + 1
    ensures o.r.Ok? ==> o.r.value.cls == k && o.r.value.fields.Keys == NameSet(init.params)
    ensures Bind(init.params, [], kwargs).Err? ==> o.r == Err(UnresolvableType(k))
    ensures init.raises == Some(TypeError) ==> o.r == Err(UnresolvableType(k))
    ensures Bind(init.params, [], kwargs).Ok? && init.raises.Some? && init.raises != Some(TypeError) ==>
      o == Out(Err(init.raises.value), st)
    ensures Bind(init.params, [], kwargs).Ok? && init.raises.None? ==>
      o == Out(Ok(Obj(st.next, k, Bind(init.params, [], kwargs).value)), st.(next := st.next + 1))
    ensures o.r.Ok? ==> o.r.value.fields == Bind(init.params, [], kwargs).value
  {
    var b := Bind(init.params, [], kwargs);
    if b.Err? then Out(Err(UnresolvableType(k)), st)
    else if init.raises == Some(TypeError) then Out(Err(UnresolvableType(k)), st)
    else if init.raises.Some? then Out(Err(init.raises.value), st)
    else Out(Ok(Obj(st.next, k, b.value)), st.(next := st.next + 1))
  }

  /** The names `_infer_dependencies` leaves alone: the given keys and the
      first `skipPos` positional names (a Python slice, so clamped). */
  function Skipped(spec: FunctionSpec, keys: set<string>, skipPos: nat): (r: set<string>)
    ensures forall n :: n in r <==> n in keys || exists i :: 0 <= i < |spec.args| && i < skipPos && spec.args[i] == n
  {
    keys + set i | 0 <= i < |spec.args| && i < skipPos :: spec.args[i]
  }

  /** The base `resolve`. */
  function Resolve(w: World, c: Container, k: TypeKey, suppress: bool, skip: bool, st: State, fuel: nat): (o: Out)
    decreases fuel, 0
    ensures Extends(st, o.st)
    ensures c.kind.Plain? || (c.kind.LegacyContext? && k !in c.kind.contextTypes) ==>
      && (suppress ==> !IsUnresolvable(o.r))
      && (IsUnresolvable(o.r) ==> o.r == Err(UnresolvableType(k)))
  {
    if fuel == 0 then Out(Err(RecursionLimit), st)
    else
      match c.kind
      case Plain => ResolveBase(w, c, k, suppress, skip, st, fuel - 1)
      case Explicit => ResolveExplicit(w, c, k, suppress, st, fuel - 1)
      case LegacyContext(scope, types) =>
        if k in types then ResolveContextType(w, c, k, scope, st, fuel - 1)
        else ResolveBase(w, c, k, suppress, skip, st, fuel - 1)
  }

  /** `Container.resolve`: strip `Optional`, refuse primitives, prefer a
      definition unless told to skip it, otherwise build by reflection; an
      `UnresolvableType` from anywhere inside names the requested key, or
      becomes `None` when suppressed. */
  function ResolveBase(w: World, c: Container, k: TypeKey, suppress: bool, skip: bool, st: State, fuel: nat): (o: Out)
    decreases fuel, 4
    ensures Extends(st, o.st)
    ensures suppress ==> !IsUnresolvable(o.r)
    ensures IsUnresolvable(o.r) ==> o.r == Err(UnresolvableType(k))
  {
    var opt := RemoveOptionalType(k);
    if opt.Some? then Recover(Resolve(w, c, opt.value, true, false, st, fuel), k, suppress)
    else if k in UnresolvableTypes then Recover(Out(Err(UnresolvableType(k)), st), k, suppress)
    else if !skip && k in c.registered then Recover(GetInstance(w, c, c.registered[k], st, fuel), k, suppress)
    else Recover(ReflectionBuild(w, c, k, st, fuel), k, suppress)
  }

  /** `ExplicitContainer.resolve`: only definitions, no reflection, no
      `Optional` stripping, `skip_definitions` ignored. */
  function ResolveExplicit(w: World, c: Container, k: TypeKey, suppress: bool, st: State, fuel: nat): (o: Out)
    decreases fuel, 4
    ensures Extends(st, o.st)
    ensures k !in c.registered && suppress ==> o == Out(Ok(Null), st)
    ensures k !in c.registered && !suppress ==> o == Out(Err(DependencyNotDefined(NotDefinedMessage(k))), st)
  {
    if k !in c.registered then
      if suppress then Out(Ok(Null), st) else Out(Err(DependencyNotDefined(NotDefinedMessage(k))), st)
    else
      GetInstance(w, c, c.registered[k], st, fuel)
  }

  function NotDefinedMessage(k: TypeKey): string {
    KeyName(k) + " has not been defined. In an explict container all dependencies must be defined"
  }

  /** `ContextContainer.resolve` for a context type: inside `with`, look up
      `Iterator[T]` then `Generator[T, None, None]`, build the manager, enter
      it and push its exit. */
  function ResolveContextType(w: World, c: Container, k: TypeKey, scope: nat, st: State, fuel: nat): (o: Out)
    decreases fuel, 4
    ensures Extends(st, o.st)
    ensures scope !in st.stacks ==> o == Out(Err(AttributeError), st)
    ensures scope in st.stacks && st.stacks[scope].Cleared? ==> o == Out(Err(AssertionError), st)
    ensures FirstDefined(c.registered, [IteratorOf(k), GeneratorOf(k)]).None? ==> o.r.Err?
  {
    if scope !in st.stacks then Out(Err(AttributeError), st)
    else if st.stacks[scope].Cleared? then Out(Err(AssertionError), st)
    else
      match FirstDefined(c.registered, [IteratorOf(k), GeneratorOf(k)])
      case None => Out(Err(AssertionError), st)
      case Some(d) =>
        var m := GetInstance(w, c, d, st, fuel);
        if m.r.Err? then m else EnterManager(w, m.r.value, scope, false, m.st)
  }

  /** Calling a constructor callable, with the container or with nothing. */
  function Invoke(w: World, f: Callable, arg: Option<Container>, st: State, fuel: nat): (o: Out)
    decreases fuel, 2
    ensures Extends(st, o.st)
    ensures Arity(f) != (if arg.Some? then 1 else 0) ==> o == Out(Err(TypeError), st)
  {
    if Arity(f) != (if arg.Some? then 1 else 0) then Out(Err(TypeError), st)
    else
      match f.body
      case New(cls) => Out(Ok(Obj(st.next, cls, map[])), st.(next := st.next + 1))
      case Const(v) => Out(Ok(v), st)
      case UseArg(t) =>
        if arg.Some? then Resolve(w, arg.value, t, false, false, st, fuel)
        else Out(Err(Raised("NameError")), st)
      case Delegate(target, t) => Resolve(w, target, t, false, false, st, fuel)
      case Raise(e) => Out(Err(e), st)
  }

  /** `get_instance(container)` of every definition kind. */
  function GetInstance(w: World, c: Container, d: Definition, st: State, fuel: nat): (o: Out)
    decreases fuel, 3, d
    ensures Extends(st, o.st)
  {
    match d
    case ConstructionWithoutContainer(f) => Invoke(w, f, None, st, fuel)
    case ConstructionWithContainer(f) => Invoke(w, f, Some(c), st, fuel)
    case Alias(t) => Resolve(w, c, t, false, true, st, fuel)
    case Singleton(cell, inner) =>
      if cell in st.cells && st.cells[cell] != Null then Out(Ok(st.cells[cell]), st)
      else
        var o := GetInstance(w, c, inner, st, fuel);
        if o.r.Err? then o else Out(o.r, o.st.(cells := o.st.cells[cell := o.r.value]))
    case PlainFunction(v) => Out(Ok(v), st)
    case AsyncConstruction(f) => Invoke(w, f, if Arity(f) == 0 then None else Some(c), st, fuel)
    case YieldingConstruction(f) => Invoke(w, f, if Arity(f) == 0 then None else Some(c), st, fuel)
    case ContextResolver(stack, manager, isAsync) =>
      if stack !in st.stacks then Out(Err(AttributeError), st)
      else if st.stacks[stack].Cleared? then Out(Err(AssertionError), st)
      else
        var m := GetInstance(w, c, manager, st, fuel);
        if m.r.Err? then m else EnterManager(w, m.r.value, stack, isAsync, m.st)
  }

  /** `_reflection_build`: infer the constructor's dependencies and call it. */
  function ReflectionBuild(w: World, c: Container, k: TypeKey, st: State, fuel: nat): (o: Out)
    decreases fuel, 2
    ensures Extends(st, o.st)
    ensures k !in w.inits ==> o == Out(Err(UnresolvableType(k)), st)
    ensures o.r.Ok? ==> o.r.value.Obj? && o.r.value.cls == k && st.next <= o.r.value.id < o.st.next
    ensures o.r.Ok? ==> k in w.inits && o.r.value.fields.Keys == NameSet(w.inits[k].params)
  {
    if k !in w.inits then Out(Err(UnresolvableType(k)), st)
    else BuildWith(k, w.inits[k], InferDependencies(w, c, Reflect(w.inits[k]), false, {}, 0, st, fuel))
  }

  /** The object `_reflection_build` returns is built from the inferred
      dependencies: a failed inference is the build's failure; the object's
      fields are the constructor's parameters bound to the inferred keyword
      arguments (so a dependency that resolved to `None` leaves its
      parameter to the default); and when that binding succeeds and the
      constructor does not raise, the build succeeds. */
  lemma BuiltFromInferredDependencies(w: World, c: Container, k: TypeKey, st: State, fuel: nat)
    requires k in w.inits
    ensures var o := ReflectionBuild(w, c, k, st, fuel);
            var init := w.inits[k];
            var deps := InferDependencies(w, c, Reflect(init), false, {}, 0, st, fuel);
            && (deps.r.Err? ==> o == Out(Err(deps.r.error), deps.st))
            && (o.r.Ok? ==> deps.r.Ok? && Bind(init.params, [], deps.r.value).Ok? &&
                            o.r.value.fields == Bind(init.params, [], deps.r.value).value)
            && (deps.r.Ok? && Bind(init.params, [], deps.r.value).Ok? && init.raises.None? ==>
                  o == Out(Ok(Obj(deps.st.next, k, Bind(init.params, [], deps.r.value).value)), deps.st.(next := deps.st.next + 1)))
  {
  }

  /** The last step of `_reflection_build`: a failed inference is the
      build's failure, otherwise the class is called with what was inferred. */
  function BuildWith(k: TypeKey, init: Func, deps: DepsOut): (o: Out)
    ensures Extends(deps.st, o.st)
    ensures o.r.Ok? ==> o.r.value.Obj? && o.r.value.cls == k && deps.st.next <= o.r.value.id < o.st.next
    ensures deps.r.Err? ==> o == Out(Err(deps.r.error), deps.st)
    ensures o.r.Ok? ==> deps.r.Ok? && Bind(init.params, [], deps.r.value).Ok? &&
                        o.r.value.fields == Bind(init.params, [], deps.r.value).value
    ensures deps.r.Ok? && Bind(init.params, [], deps.r.value).Ok? && init.raises.None? ==>
              o == Out(Ok(Obj(deps.st.next, k, Bind(init.params, [], deps.r.value).value)), deps.st.(next := deps.st.next + 1))
  {
    if deps.r.Err? then Out(Err(deps.r.error), deps.st)
    else Construct(k, init, deps.r.value, deps.st)
  }

  /** The names `_infer_dependencies` asks the container for. */
  predicate Wanted(anns: seq<(string, TypeKey)>, skip: set<string>, n: string) {
    exists i :: 0 <= i < |anns| && anns[i].0 == n && anns[i].1 != AnyType && n !in skip
  }

  /** `_infer_dependencies`: resolve every wanted annotation, then drop the
      `None`s so the callee's defaults apply. */
  function InferDependencies(w: World, c: Container, spec: FunctionSpec, suppress: bool,
                             keys: set<string>, skipPos: nat, st: State, fuel: nat): (o: DepsOut)
    decreases fuel, 1, |spec.annotations| + 1
    ensures Extends(st, o.st)
    ensures o.r.Ok? ==> forall n :: n in o.r.value ==> Wanted(spec.annotations, Skipped(spec, keys, skipPos), n)
    ensures o.r.Ok? ==> forall n :: n in o.r.value ==> o.r.value[n] != Null
    ensures o.r.Ok? ==> forall i :: 0 <= i < |spec.args| && i < skipPos ==> spec.args[i] !in o.r.value
    ensures suppress && c.kind.Plain? && o.r.Err? ==> !o.r.error.UnresolvableType?
    ensures var raw := ResolveAll(w, c, spec.annotations, suppress, Skipped(spec, keys, skipPos), st, fuel);
            && o.st == raw.st
            && (o.r.Err? <==> raw.r.Err?)
            && (o.r.Err? ==> o.r.error == raw.r.error)
            && (o.r.Ok? ==> forall n :: n in o.r.value <==> n in raw.r.value && raw.r.value[n] != Null)
            && (o.r.Ok? ==> forall n :: n in o.r.value ==> o.r.value[n] == raw.r.value[n])
  {
    var skip := Skipped(spec, keys, skipPos);
    var raw := ResolveAll(w, c, spec.annotations, suppress, skip, st, fuel);
    if raw.r.Err? then raw
    else DepsOut(Ok(map n | n in raw.r.value && raw.r.value[n] != Null :: raw.r.value[n]), raw.st)
  }

  /** The first annotation `_infer_dependencies` asks for is resolved once:
      a failure is the inference's failure, `None` leaves the parameter to
      its default, and any other value is passed under the parameter's name. */
  lemma InferredHeadDependency(w: World, c: Container, spec: FunctionSpec, suppress: bool,
                               keys: set<string>, skipPos: nat, st: State, fuel: nat)
    requires |spec.annotations| > 0
    requires spec.annotations[0].1 != AnyType && spec.annotations[0].0 !in Skipped(spec, keys, skipPos)
    requires forall j :: 0 < j < |spec.annotations| ==> spec.annotations[j].0 != spec.annotations[0].0
    ensures var (n, k) := spec.annotations[0];
            var o := InferDependencies(w, c, spec, suppress, keys, skipPos, st, fuel);
            var one := Resolve(w, c, k, suppress, false, st, fuel);
            && (one.r.Err? ==> o.r == Err(one.r.error))
            && (o.r.Ok? ==> one.r.Ok? && (n in o.r.value <==> one.r.value != Null))
            && (o.r.Ok? && one.r.value != Null ==> o.r.value[n] == one.r.value)
  {
  }

  /** The dict comprehension of `_infer_dependencies`, in annotation order. */
  function ResolveAll(w: World, c: Container, anns: seq<(string, TypeKey)>, suppress: bool,
                      skip: set<string>, st: State, fuel: nat): (o: DepsOut)
    decreases fuel, 1, |anns|
    ensures Extends(st, o.st)
    ensures o.r.Ok? ==> forall n :: n in o.r.value <==> Wanted(anns, skip, n)
    ensures suppress && c.kind.Plain? && o.r.Err? ==> !o.r.error.UnresolvableType?
    ensures |anns| > 0 && anns[0].1 != AnyType && anns[0].0 !in skip ==>
      var one := Resolve(w, c, anns[0].1, suppress, false, st, fuel);
      && (one.r.Err? ==> o == DepsOut(Err(one.r.error), one.st))
      && (o.r.Ok? ==> one.r.Ok? && anns[0].0 in o.r.value && ((forall j :: 0 < j < |anns| ==> anns[j].0 != anns[0].0) ==>
                                      o.r.value[anns[0].0] == one.r.value))
  {
    if |anns| == 0 then DepsOut(Ok(map[]), st)
    else
      var rest := anns[1..];
      assert forall i :: 0 <= i < |rest| ==> rest[i] == anns[i + 1];
      if anns[0].1 == AnyType || anns[0].0 in skip then
        var o := ResolveAll(w, c, rest, suppress, skip, st, fuel);
        assert o.r.Ok? ==> forall n :: Wanted(anns, skip, n) ==> Wanted(rest, skip, n) by {
          if o.r.Ok? {
            forall n | Wanted(anns, skip, n) ensures Wanted(rest, skip, n) {
              var i :| 0 <= i < |anns| && anns[i].0 == n && anns[i].1 != AnyType && n !in skip;
              assert i > 0 && rest[i - 1] == anns[i];
            }
          }
        }
        o
      else
        var one := Resolve(w, c, anns[0].1, suppress, false, st, fuel);
        if one.r.Err? then DepsOut(Err(one.r.error), one.st)
        else
          var more := ResolveAll(w, c, rest, suppress, skip, one.st, fuel);
          if more.r.Err? then more
          else
            var r := map[anns[0].0 := one.r.value] + more.r.value;
            assert forall n :: Wanted(anns, skip, n) <==> n == anns[0].0 || Wanted(rest, skip, n) by {
              forall n ensures Wanted(anns, skip, n) <==> n == anns[0].0 || Wanted(rest, skip, n) {
                if Wanted(anns, skip, n) && n != anns[0].0 {
                  var i :| 0 <= i < |anns| && anns[i].0 == n && anns[i].1 != AnyType && n !in skip;
                  assert i > 0 && rest[i - 1] == anns[i];
                }
                if Wanted(rest, skip, n) {
                  var i :| 0 <= i < |rest| && rest[i].0 == n && rest[i].1 != AnyType && n !in skip;
                  assert anns[i + 1] == rest[i];
                }
              }
            }
            DepsOut(Ok(r), more.st)
  }
}

=== FILE: exit_stack.dfy ===
/** Closing an exit stack (`contextlib.ExitStack.close` and
    `AsyncExitStack.aclose`): what was pushed runs last-in first-out. */
module ExitStacks {
  import opened Types
  import opened Defs

  /** Running one release. Leaving a manager is logged. Leaving a nested
      scope (`__aexit__` of an inner context container) is logged, then that
      scope's own stack, if live, has its releases logged in reverse and is
      reset to `None`. */
  function ReleaseOne(st: State, e: Release): (r: State)
    ensures r.next == st.next && r.cells == st.cells && r.asyncCells == st.asyncCells
    ensures r.stacks.Keys == st.stacks.Keys
    ensures |r.released| >= |st.released| + 1 && r.released[..|st.released| + 1] == st.released + [e]
    ensures e.ExitManager? ==> r == st.(released := st.released + [e])
  {
    var st1 := st.(released := st.released + [e]);
    match e
    case ExitManager(_, _) => st1
    case ExitScope(j) =>
      if j in st1.stacks && st1.stacks[j].Open? then
        st1.(released := st1.released + Reverse(st1.stacks[j].entries), stacks := st1.stacks[j := Cleared])
      else st1
  }

  predicate AllManagers(rs: seq<Release>) {
    forall i :: 0 <= i < |rs| ==> rs[i].ExitManager?
  }

  /** Running releases in the order given. */
  function RunReleases(st: State, rs: seq<Release>): (r: State)
    ensures r.next == st.next && r.cells == st.cells && r.asyncCells == st.asyncCells
    ensures r.stacks.Keys == st.stacks.Keys
    ensures AllManagers(rs) ==> r.released == st.released + rs && r.stacks == st.stacks
    decreases |rs|
  {
    if |rs| == 0 then st
    else
      var r := RunReleases(ReleaseOne(st, rs[0]), rs[1..]);
      assert AllManagers(rs) ==> AllManagers(rs[1..]) && st.released + rs == (st.released + [rs[0]]) + rs[1..];
      r
  }

  /** Closing a live stack: its releases run newest first, then the stack
      attribute becomes `after` (an empty reusable stack, or `None`). */
  function CloseStack(st: State, id: nat, after: Stack): (r: State)
    requires id in st.stacks && st.stacks[id].Open?
    ensures r.next == st.next && r.cells == st.cells && r.asyncCells == st.asyncCells
    ensures r.stacks.Keys == st.stacks.Keys && r.stacks[id] == after
    ensures AllManagers(st.stacks[id].entries) ==>
      && r.released == st.released + Reverse(st.stacks[id].entries)
      && r.stacks == st.stacks[id := after]
  {
    var entries := st.stacks[id].entries;
    var s1 := RunReleases(st, Reverse(entries));
    assert AllManagers(entries) ==> AllManagers(Reverse(entries));
    s1.(stacks := s1.stacks[id := after])
  }

  /** The manager entered last is the first one left. */
  lemma LastEnteredFirstReleased(st: State, id: nat, after: Stack)
    requires id in st.stacks && st.stacks[id].Open? && |st.stacks[id].entries| > 0
    requires AllManagers(st.stacks[id].entries)
    ensures var entries := st.stacks[id].entries;
            CloseStack(st, id, after).released[|st.released|] == entries[|entries| - 1]
  {
  }

  /** Running two lists of releases one after the other is running their
      concatenation. */
  lemma {:induction false} RunReleasesAppend(st: State, a: seq<Release>, b: seq<Release>)
    ensures RunReleases(st, a + b) == RunReleases(RunReleases(st, a), b)
    decreases |a|
  {
    if |a| > 0 {
      assert (a + b)[0] == a[0] && (a + b)[1..] == a[1..] + b;
      RunReleasesAppend(ReleaseOne(st, a[0]), a[1..], b);
    } else {
      assert a + b == b;
    }
  }

  /** A nested scope pushed on a stack before any manager is left after all
      of them, and its own (empty) stack is reset to `None`. */
  lemma NestedScopeLeftLast(st: State, id: nat, inner: nat, ms: seq<Release>, after: Stack)
    requires id in st.stacks && st.stacks[id] == Open([ExitScope(inner)] + ms)
    requires AllManagers(ms) && inner != id
    requires inner in st.stacks && st.stacks[inner] == Open([])
    ensures var r := CloseStack(st, id, after);
            && r.released == st.released + Reverse(ms) + [ExitScope(inner)]
            && r.stacks == st.stacks[inner := Cleared][id := after]
  {
    ReverseFront(ExitScope(inner), ms);
    RunReleasesAppend(st, Reverse(ms), [ExitScope(inner)]);
    assert AllManagers(Reverse(ms));
    var s1 := RunReleases(st, Reverse(ms));
    LeaveEmptyScope(s1, inner);
    assert RunReleases(st, Reverse(st.stacks[id].entries)) == RunReleases(s1, [ExitScope(inner)]);
  }

  /** The release pushed first runs last. */
  lemma ReverseFront(x: Release, ms: seq<Release>)
    ensures Reverse([x] + ms) == Reverse(ms) + [x]
  {
    assert forall i :: 0 <= i < |ms| + 1 ==> Reverse([x] + ms)[i] == (Reverse(ms) + [x])[i];
  }

  /** Leaving a nested scope whose stack is empty logs the scope and resets
      its stack to `None`. */
  lemma LeaveEmptyScope(st: State, inner: nat)
    requires inner in st.stacks && st.stacks[inner] == Open([])
    ensures RunReleases(st, [ExitScope(inner)])
            == st.(released := st.released + [ExitScope(inner)], stacks := st.stacks[inner := Cleared])
  {
    assert RunReleases(st, [ExitScope(inner)]) == RunReleases(ReleaseOne(st, ExitScope(inner)), []);
    assert Reverse<Release>([]) == [];
  }
}

=== FILE: explicit.dfy ===
/** `ExplicitContainer.define` (lagom/experimental/container.py): an
    explicit container builds only what it was told to build, so a
    definition that would fall back to reflection (an alias, or a singleton
    over an alias) is meant to be refused. Its `resolve` is
    `Engine.ResolveExplicit`. */
module Explicit {
  import opened Types
  import opened Defs
  import opened Engine
  import opened Registry
  import opened ResolutionLaws

  /** `ExplicitContainer()` or `ExplicitContainer(container)`. */
  function NewExplicit(base: Option<Container>): (c: Container)
    ensures c.kind.Explicit? && c.explicit == {}
    ensures base.None? ==> c.registered == map[]
    ensures base.Some? ==> c.registered == base.value.registered
  {
    NewContainer(base).(kind := Explicit)
  }

  /** A definition that needs reflection to be built. */
  predicate NeedsReflection(d: Definition) {
    d.Alias? || (d.Singleton? && d.inner.Alias?)
  }

  /** `define` as written: the base `define` returns `None`, so neither
      `isinstance` check can fire and every definition the base accepts is
      kept, aliases included. */
  function ExplicitDefineAsWritten(c: Container, k: TypeKey, res: Resolver, st: State): (d: Defined)
    requires c.kind.Explicit?
    ensures d.r.Ok? <==> k !in UnresolvableTypes && k !in c.explicit && Normalise(res, st).r.Ok?
    ensures d.r.Ok? ==> k in d.c.registered && d.c.registered[k] == Normalise(res, st).r.value
  {
    // The value the checks inspect is the base `define`'s `None`.
    Define(c, k, res, st)
  }

  /** As written, `container[A] = A` is accepted by an explicit container,
      and the alias it stores can never be resolved. */
  lemma AliasAcceptedAsWritten(w: World, c: Container, k: TypeKey, st: State, fuel: nat)
    requires c.kind.Explicit? && k !in UnresolvableTypes && k !in c.explicit
    ensures var d := ExplicitDefineAsWritten(c, k, ClassRef(k), st);
            && d.r.Ok?
            && d.c.registered[k] == Alias(k)
            && Resolve(w, d.c, k, false, false, d.st, fuel) == Out(Err(RecursionLimit), d.st)
  {
    var d := ExplicitDefineAsWritten(c, k, ClassRef(k), st);
    ExplicitSelfAliasNeverResolves(w, d.c, k, false, false, d.st, fuel);
  }

  /** `define` as intended: the base definition is stored, then an alias or
      a singleton over an alias is reported as an invalid definition. */
  function ExplicitDefine(c: Container, k: TypeKey, res: Resolver, st: State): (d: Defined)
    requires c.kind.Explicit?
    ensures Define(c, k, res, st).r.Err? ==> d == Define(c, k, res, st)
    ensures d.r.Ok? <==> Define(c, k, res, st).r.Ok? && !NeedsReflection(Normalise(res, st).r.value)
    ensures d.r.Ok? ==> k in d.c.registered && !NeedsReflection(d.c.registered[k])
    ensures Define(c, k, res, st).r.Ok? && Normalise(res, st).r.value.Alias? ==>
      d.r == Err(InvalidDependencyDefinition(AliasInExplicit))
    ensures Define(c, k, res, st).r.Ok? && Normalise(res, st).r.value.Singleton? && Normalise(res, st).r.value.inner.Alias? ==>
      d.r == Err(InvalidDependencyDefinition(AliasInSingletonInExplicit))
    ensures d.c.kind.Explicit?
  {
    var base := Define(c, k, res, st);
    if base.r.Err? then base
    else
      var definition := base.c.registered[k];
      if definition.Alias? then
        Defined(Err(InvalidDependencyDefinition(AliasInExplicit)), base.c, base.st)
      else if definition.Singleton? && definition.inner.Alias? then
        Defined(Err(InvalidDependencyDefinition(AliasInSingletonInExplicit)), base.c, base.st)
      else base
  }

  /** `container[K] = SomeClass` and `container[K] = Singleton(SomeClass)`
      are refused by the intended `define`. */
  lemma ExplicitRefusesClasses(c: Container, k: TypeKey, t: TypeKey, st: State)
    requires c.kind.Explicit? && k !in UnresolvableTypes && k !in c.explicit
    ensures ExplicitDefine(c, k, ClassRef(t), st).r == Err(InvalidDependencyDefinition(AliasInExplicit))
    ensures ExplicitDefine(c, k, Special(Singleton(st.next, Alias(t))), st).r
         == Err(InvalidDependencyDefinition(AliasInSingletonInExplicit))
  {
  }

  /** The intended `define` agrees with the one as written on every
      definition that does not need reflection. */
  lemma IntendedAgreesOffAliases(c: Container, k: TypeKey, res: Resolver, st: State)
    requires c.kind.Explicit?
    requires Normalise(res, st).r.Ok? ==> !NeedsReflection(Normalise(res, st).r.value)
    ensures ExplicitDefine(c, k, res, st) == ExplicitDefineAsWritten(c, k, res, st)
  {
  }
}

=== FILE: injection.dfy ===
/** `TemporaryInjectionContext` (lagom/injection_context.py): a context
    manager over a container that, on entry, hands out either the result of
    an update function applied to the container or a plain clone of it. */
module Injection {
  import opened Types
  import opened Defs
  import opened Registry

  /** The base container and the optional update function. */
  datatype InjectionContext = InjectionContext(base: Container, update: Option<Container -> Container>)

  /** `__enter__`: the temporary container. */
  function Enter(i: InjectionContext): (c: Container)
    ensures i.update.Some? ==> c == i.update.value(i.base)
    ensures i.update.None? ==> c.registered == i.base.registered && c.explicit == {} && c.kind.Plain?
  {
    if i.update.Some? then i.update.value(i.base) else Clone(i.base)
  }

  /** `rebound_to`: the same update function over another container. */
  function ReboundTo(i: InjectionContext, n: Container): (r: InjectionContext)
    ensures r.base == n
    ensures r.update == i.update
  {
    InjectionContext(n, i.update)
  }

  /** A rebound context enters on the new container exactly as the
      original would have entered on it. */
  lemma ReboundEntersOnNewContainer(i: InjectionContext, n: Container)
    ensures i.update.Some? ==> Enter(ReboundTo(i, n)) == i.update.value(n)
    ensures i.update.None? ==> Enter(ReboundTo(i, n)) == Clone(n)
  {
  }

  /** Without an update function the temporary container is a fresh layer:
      any key the base defined, in any layer, may be redefined in it, and
      every other key keeps the base's definition. */
  lemma PlainEntryAllowsOverride(i: InjectionContext, k: TypeKey, res: Resolver, st: State)
    requires i.update.None?
    requires k !in UnresolvableTypes && Normalise(res, st).r.Ok?
    ensures var d := Define(Enter(i), k, res, st);
            && d.r.Ok?
            && d.c.registered[k] == Normalise(res, st).r.value
            && (forall j :: j in i.base.registered && j != k ==> d.c.registered[j] == i.base.registered[j])
  {
  }

  /** The base container itself refuses a key defined in its own layer;
      the temporary container of a plain entry accepts it. */
  lemma OverrideOnlyInTemporary(i: InjectionContext, k: TypeKey, res: Resolver, st: State)
    requires i.update.None?
    requires k !in UnresolvableTypes && k in i.base.explicit && Normalise(res, st).r.Ok?
    ensures Define(i.base, k, res, st).r == Err(DuplicateDefinition)
    ensures Define(Enter(i), k, res, st).r.Ok?
  {
  }
}

=== FILE: legacy_scope.dfy ===
/** The older scoped container of context_based.py (`ContextContainer`): a
    container whose context types resolve only between `__enter__` and
    `__exit__`, each resolution entering a new context manager on the
    container's own exit stack. Resolution itself is `Engine.Resolve` on the
    `LegacyContext` kind. */
module LegacyScope {
  import opened Types
  import opened Defs
  import opened Engine
  import opened ExitStacks

  datatype Made = Made(c: Container, st: State)

  /** `ContextContainer(container, context_types)`: the definitions are
      copied, the context types kept as a set, and the stack attribute is
      left unassigned (its id is drawn but nothing is stored under it). */
  function NewLegacy(base: Container, types: seq<TypeKey>, st: State): (m: Made)
    ensures m.c.registered == base.registered && m.c.explicit == {}
    ensures m.c.kind == LegacyContext(st.next, set t | t in types)
    ensures m.st == st.(next := st.next + 1)
  {
    Made(Container(base.registered, {}, LegacyContext(st.next, set t | t in types)), st.(next := st.next + 1))
  }

  /** `__enter__`: a new, empty exit stack replaces whatever the attribute
      held, and the container itself is returned. */
  function LegacyEnter(c: Container, st: State): (m: Made)
    requires c.kind.LegacyContext?
    ensures m.c == c
    ensures m.st == st.(stacks := st.stacks[c.kind.scope := Open([])])
  {
    Made(c, st.(stacks := st.stacks[c.kind.scope := Open([])]))
  }

  datatype Exited = Exited(r: Result<()>, st: State)

  /** `__exit__`: it asserts a stack is present (an unassigned attribute
      raises `AttributeError` first), closes it and sets it to `None`. */
  function LegacyExit(c: Container, st: State): (e: Exited)
    requires c.kind.LegacyContext?
    ensures c.kind.scope !in st.stacks ==> e == Exited(Err(AttributeError), st)
    ensures c.kind.scope in st.stacks && st.stacks[c.kind.scope].Cleared? ==> e == Exited(Err(AssertionError), st)
    ensures e.r.Ok? <==> c.kind.scope in st.stacks && st.stacks[c.kind.scope].Open?
    ensures e.r.Ok? ==>
      && c.kind.scope in st.stacks && st.stacks[c.kind.scope].Open?
      && c.kind.scope in e.st.stacks && e.st.stacks[c.kind.scope] == Cleared
      && (AllManagers(st.stacks[c.kind.scope].entries) ==>
            e.st.released == st.released + Reverse(st.stacks[c.kind.scope].entries))
  {
    var id := c.kind.scope;
    if id !in st.stacks then Exited(Err(AttributeError), st)
    else if st.stacks[id].Cleared? then Exited(Err(AssertionError), st)
    else Exited(Ok(()), CloseStack(st, id, Cleared))
  }

  /** Leaving before ever entering fails. */
  lemma ExitBeforeEnterFails(base: Container, types: seq<TypeKey>, st: State)
    requires st.next !in st.stacks
    ensures var m := NewLegacy(base, types, st);
            LegacyExit(m.c, m.st).r == Err(AttributeError)
  {
  }

  /** After `__exit__` the stack is `None`: leaving again fails, and a
      context type no longer resolves. */
  lemma AfterExitNothingResolves(w: World, c: Container, k: TypeKey, st: State, fuel: nat)
    requires c.kind.LegacyContext? && LegacyExit(c, st).r.Ok?
    requires k in c.kind.contextTypes && fuel > 0
    ensures var e := LegacyExit(c, st);
            && LegacyExit(c, e.st).r == Err(AssertionError)
            && Resolve(w, c, k, false, false, e.st, fuel).r == Err(AssertionError)
  {
  }

  /** Enter, resolve a context type, exit: the manager entered is released
      on exit, and it is the only release. */
  lemma EnterResolveExit(w: World, c: Container, k: TypeKey, st: State, fuel: nat)
    requires c.kind.LegacyContext? && k in c.kind.contextTypes && fuel > 0
    requires FirstDefined(c.registered, [IteratorOf(k), GeneratorOf(k)]).Some?
    requires FirstDefined(c.registered, [IteratorOf(k), GeneratorOf(k)]).value.PlainFunction?
    ensures var m := LegacyEnter(c, st);
            var o := Resolve(w, c, k, false, false, m.st, fuel);
            var e := LegacyExit(c, o.st);
            o.r.Ok? ==>
              && e.r.Ok?
              && |e.st.released| == |st.released| + 1
              && e.st.released[|st.released|].ExitManager?
  {
    var m := LegacyEnter(c, st);
    var d := FirstDefined(c.registered, [IteratorOf(k), GeneratorOf(k)]).value;
    var o := Resolve(w, c, k, false, false, m.st, fuel);
    assert o == ResolveContextType(w, c, k, c.kind.scope, m.st, fuel - 1);
    var g := GetInstance(w, c, d, m.st, fuel - 1);
    assert g == Out(Ok(d.value), m.st);
    if o.r.Ok? {
      assert o == EnterManager(w, d.value, c.kind.scope, false, m.st);
      assert o.st.stacks[c.kind.scope] == Open([ExitManager(d.value.id, false)]);
      assert AllManagers(o.st.stacks[c.kind.scope].entries);
    }
  }
}

=== FILE: partial_laws.dfy ===
/** Laws of `Container.partial` with shared keys (lagom/container.py):
    a call of a bound function that shares a key builds that key at most
    once for the whole call, and anew for every call. */
module PartialLaws {
  import opened Types
  import opened Reflection
  import opened Defs
  import opened Engine
  import opened Registry
  import opened Wrapping
  import opened ResolutionLaws
  import opened Binding

  /** Sharing one key: the call's container is the original's definitions
      with the key bound to a new singleton over its loader, in a new slot. */
  lemma ShareOneKey(c: Container, k: TypeKey, st: State)
    requires k !in UnresolvableTypes
    ensures var s := SharedContainer(c, [k], st);
            && s.r.Ok? && s.r.value.kind == Plain
            && s.r.value.registered == c.registered[k := Singleton(st.next, Loader(c, k))]
            && s.st == AllocCell(st).1
  {
    assert Dedupe([k]) == [k];
    var one := InstallOne(Clone(c), c, k, k, st);
    assert [k][1..] == [];
    assert InstallShared(one.r.value, c, [], [], one.st) == Scoped(Ok(one.r.value), one.st);
  }

  /** The first time a shared key is resolved in the call's container, its
      loader builds it in the original container and the slot keeps it. */
  lemma SharedFirstUse(w: World, temp: Container, c: Container, k: TypeKey, cell: nat, st: State, fuel: nat)
    requires temp.kind.Plain? && c.kind.Plain? && fuel > 2 && Ordinary(k) && k !in c.registered
    requires k in temp.registered && temp.registered[k] == Singleton(cell, Loader(c, k))
    requires cell in st.cells && st.cells[cell] == Null
    requires k in w.inits && w.inits[k] == Func([], [], ClassObj, None)
    ensures var e := Obj(st.next, k, map[]);
            Resolve(w, temp, k, false, false, st, fuel - 1) == Out(Ok(e), st.(next := st.next + 1, cells := st.cells[cell := e]))
  {
    var e := Obj(st.next, k, map[]);
    BuildsWithoutDependencies(w, c, k, false, false, st, fuel - 2);
    var f := Callable(NoParams, Delegate(c, k));
    assert Invoke(w, f, None, st, fuel - 2) == Out(Ok(e), st.(next := st.next + 1));
    assert GetInstance(w, temp, Loader(c, k), st, fuel - 2) == Out(Ok(e), st.(next := st.next + 1));
    assert GetInstance(w, temp, Singleton(cell, Loader(c, k)), st, fuel - 2)
        == Out(Ok(e), st.(next := st.next + 1, cells := st.cells[cell := e]));
    DefinitionPrecedence(w, temp, k, false, st, fuel - 1);
  }

  /** Once built, a shared key resolves to what its slot holds. */
  lemma SharedLaterUse(w: World, temp: Container, k: TypeKey, cell: nat, loader: Definition, st: State, fuel: nat)
    requires temp.kind.Plain? && fuel > 1 && Ordinary(k)
    requires k in temp.registered && temp.registered[k] == Singleton(cell, loader)
    requires cell in st.cells && st.cells[cell] != Null
    ensures Resolve(w, temp, k, false, false, st, fuel - 1) == Out(Ok(st.cells[cell]), st)
  {
    SingletonReturnsCachedInstance(w, temp, cell, loader, st, fuel - 2);
    DefinitionPrecedence(w, temp, k, false, st, fuel - 1);
  }

  /** The reflected spec of a function of two annotated parameters. */
  lemma ReflectTwoParameters(sig: Func, n1: string, t1: TypeKey, n2: string, t2: TypeKey)
    requires n1 != ReturnAnnotation && n2 != ReturnAnnotation
    requires sig.params == [Param(n1, true, None), Param(n2, true, None)] && sig.hints == [(n1, t1), (n2, t2)]
    ensures Reflect(sig).annotations == [(n1, t1), (n2, t2)]
    ensures Skipped(Reflect(sig), {}, 0) == {}
  {
    var h := sig.hints;
    assert h[1..] == [(n2, t2)];
    assert KeptBefore(h[1..], 1) == 1;
    assert KeptBefore(h, 2) == 2;
    assert KeptBefore(h, 1) == 1;
    assert KeptBefore(h, 0) == 0;
  }

  /** Two wanted annotations are resolved in order into a two-entry map. */
  lemma ResolveTwoAnnotations(w: World, c: Container, n1: string, t1: TypeKey, n2: string, t2: TypeKey,
                              suppress: bool, skip: set<string>, st: State, fuel: nat,
                              v1: Value, st1: State, v2: Value, st2: State)
    requires t1 != AnyType && t2 != AnyType && n1 !in skip && n2 !in skip && n1 != n2
    requires Resolve(w, c, t1, suppress, false, st, fuel) == Out(Ok(v1), st1)
    requires Resolve(w, c, t2, suppress, false, st1, fuel) == Out(Ok(v2), st2)
    ensures ResolveAll(w, c, [(n1, t1), (n2, t2)], suppress, skip, st, fuel) == DepsOut(Ok(map[n1 := v1, n2 := v2]), st2)
  {
    var anns := [(n1, t1), (n2, t2)];
    assert anns[1..] == [(n2, t2)];
    ResolveOneAnnotation(w, c, n2, t2, suppress, skip, st1, fuel);
    ResolveAllCons(w, c, anns, suppress, skip, st, fuel);
    assert map[n1 := v1] + map[n2 := v2] == map[n1 := v1, n2 := v2];
  }

  /** When every wanted annotation resolves to something other than
      `None`, `_infer_dependencies` passes the dict comprehension on whole. */
  lemma InferKeepsAll(w: World, c: Container, spec: FunctionSpec, suppress: bool, st: State, fuel: nat,
                      m: map<string, Value>, s: State)
    requires ResolveAll(w, c, spec.annotations, suppress, Skipped(spec, {}, 0), st, fuel) == DepsOut(Ok(m), s)
    requires forall n :: n in m ==> m[n] != Null
    ensures InferDependencies(w, c, spec, suppress, {}, 0, st, fuel) == DepsOut(Ok(m), s)
  {
    DropsNothing(InferDependencies(w, c, spec, suppress, {}, 0, st, fuel), DepsOut(Ok(m), s), m, s);
  }

  /** With no `None` among the values, dropping them changes nothing. */
  lemma DropsNothing(o: DepsOut, raw: DepsOut, m: map<string, Value>, s: State)
    requires raw == DepsOut(Ok(m), s) && forall n :: n in m ==> m[n] != Null
    requires o.st == raw.st && (o.r.Err? <==> raw.r.Err?)
    requires o.r.Ok? ==> forall n :: n in o.r.value <==> n in raw.r.value && raw.r.value[n] != Null
    requires o.r.Ok? ==> forall n :: n in o.r.value ==> o.r.value[n] == raw.r.value[n]
    ensures o == raw
  {
    assert o.r.Ok?;
    assert o.r.value.Keys == m.Keys;
    assert o.r.value == m;
  }

  /** Binding two parameters by keyword takes both values. */
  lemma BindTwoParameters(n1: string, n2: string, v1: Value, v2: Value)
    requires n1 != n2
    ensures Bind([Param(n1, true, None), Param(n2, true, None)], [], map[n1 := v1, n2 := v2]) == Ok(map[n1 := v1, n2 := v2])
  {
    var params := [Param(n1, true, None), Param(n2, true, None)];
    var kw := map[n1 := v1, n2 := v2];
    assert NameSet(params) == {n1, n2};
    assert Bindable(params, [], kw);
    assert DistinctNames(params);
    var r := Bind(params, [], kw);
    assert BoundValue(params, [], kw, 0) == Some(r.value[n1]);
    assert BoundValue(params, [], kw, 1) == Some(r.value[n2]);
    assert r.value == kw;
  }

  /** The function `f(dep_one: DepOne, dep_two: DepTwo)` used below. */
  predicate TakesTwoDependencies(f: PyFunction, one: TypeKey, two: TypeKey) {
    f.sig == Func([Param("dep_one", true, None), Param("dep_two", true, None)], [("dep_one", one), ("dep_two", two)], PlainFn, None)
  }

  /** A class whose only constructor parameter is `cache: Cache`. */
  predicate NeedsCache(w: World, k: TypeKey, cache: TypeKey) {
    k in w.inits && w.inits[k] == Func([Param("cache", true, None)], [("cache", cache)], ClassObj, None)
  }

  /** Inside the call's container, `DepOne` is built first and the cache
      with it, in the slot the call allocated. */
  lemma FirstDependencyBuildsCache(w: World, c: Container, temp: Container, one: TypeKey, cache: TypeKey,
                                   cell: nat, st: State, fuel: nat)
    requires c.kind.Plain? && temp.kind.Plain? && fuel > 2
    requires Ordinary(one) && Ordinary(cache) && cache != AnyType
    requires one !in temp.registered && cache !in c.registered
    requires cache in temp.registered && temp.registered[cache] == Singleton(cell, Loader(c, cache))
    requires cell in st.cells && st.cells[cell] == Null
    requires NeedsCache(w, one, cache) && cache in w.inits && w.inits[cache] == Func([], [], ClassObj, None)
    ensures var e := Obj(st.next, cache, map[]);
            Resolve(w, temp, one, true, false, st, fuel)
            == Out(Ok(Obj(st.next + 1, one, map["cache" := e])), st.(next := st.next + 2, cells := st.cells[cell := e]))
  {
    SharedFirstUse(w, temp, c, cache, cell, st, fuel);
    BuildsFromOneDependency(w, temp, one, "cache", cache, None, true, st, fuel);
  }

  /** `DepTwo` then gets the cache the slot holds. */
  lemma LaterDependencyReusesCache(w: World, temp: Container, two: TypeKey, cache: TypeKey, cell: nat,
                                   loader: Definition, st: State, fuel: nat)
    requires temp.kind.Plain? && fuel > 2
    requires Ordinary(two) && Ordinary(cache) && cache != AnyType && two !in temp.registered
    requires cache in temp.registered && temp.registered[cache] == Singleton(cell, loader)
    requires cell in st.cells && st.cells[cell] != Null
    requires NeedsCache(w, two, cache)
    ensures Resolve(w, temp, two, true, false, st, fuel)
            == Out(Ok(Obj(st.next, two, map["cache" := st.cells[cell]])), st.(next := st.next + 1))
  {
    SharedLaterUse(w, temp, cache, cell, loader, st, fuel);
    BuildsFromOneDependency(w, temp, two, "cache", cache, None, true, st, fuel);
  }

  /** Inferring the dependencies of `f(dep_one: DepOne, dep_two: DepTwo)`:
      both are resolved in order and, neither being `None`, both kept. */
  lemma InferTwoDependencies(w: World, temp: Container, f: PyFunction, one: TypeKey, two: TypeKey,
                             st: State, fuel: nat, d1: Value, st1: State, d2: Value, st2: State)
    requires TakesTwoDependencies(f, one, two) && one != AnyType && two != AnyType
    requires Resolve(w, temp, one, true, false, st, fuel) == Out(Ok(d1), st1) && d1 != Null
    requires Resolve(w, temp, two, true, false, st1, fuel) == Out(Ok(d2), st2) && d2 != Null
    ensures InferDependencies(w, temp, Reflect(f.sig), true, {}, 0, st, fuel) == DepsOut(Ok(map["dep_one" := d1, "dep_two" := d2]), st2)
  {
    ResolveTwoParameters(w, temp, f, one, two, st, fuel, d1, st1, d2, st2);
    InferKeepsAll(w, temp, Reflect(f.sig), true, st, fuel, map["dep_one" := d1, "dep_two" := d2], st2);
  }

  /** The dict comprehension over the two annotations of `f`. */
  lemma ResolveTwoParameters(w: World, temp: Container, f: PyFunction, one: TypeKey, two: TypeKey,
                             st: State, fuel: nat, d1: Value, st1: State, d2: Value, st2: State)
    requires TakesTwoDependencies(f, one, two) && one != AnyType && two != AnyType
    requires Resolve(w, temp, one, true, false, st, fuel) == Out(Ok(d1), st1)
    requires Resolve(w, temp, two, true, false, st1, fuel) == Out(Ok(d2), st2)
    ensures ResolveAll(w, temp, Reflect(f.sig).annotations, true, Skipped(Reflect(f.sig), {}, 0), st, fuel)
         == DepsOut(Ok(map["dep_one" := d1, "dep_two" := d2]), st2)
  {
    ReflectTwoParameters(f.sig, "dep_one", one, "dep_two", two);
    ResolveTwoAnnotations(w, temp, "dep_one", one, "dep_two", two, true, {}, st, fuel, d1, st1, d2, st2);
  }


  /** Inside the call's container, `DepOne` is built first and its cache
      with it; `DepTwo` then gets the cache the slot now holds. */
  lemma SharedCacheDependencies(w: World, c: Container, temp: Container, f: PyFunction, one: TypeKey, two: TypeKey,
                                cache: TypeKey, cell: nat, st: State, fuel: nat)
    requires c.kind.Plain? && temp.kind.Plain? && fuel > 2
    requires Ordinary(one) && Ordinary(two) && Ordinary(cache) && cache != AnyType && one != AnyType && two != AnyType
    requires one !in temp.registered && two !in temp.registered && cache !in c.registered
    requires cache in temp.registered && temp.registered[cache] == Singleton(cell, Loader(c, cache))
    requires cell in st.cells && st.cells[cell] == Null
    requires TakesTwoDependencies(f, one, two) && NeedsCache(w, one, cache) && NeedsCache(w, two, cache)
    requires cache in w.inits && w.inits[cache] == Func([], [], ClassObj, None)
    ensures var e := Obj(st.next, cache, map[]);
            InferDependencies(w, temp, Reflect(f.sig), true, {}, 0, st, fuel)
            == DepsOut(Ok(map["dep_one" := Obj(st.next + 1, one, map["cache" := e]),
                              "dep_two" := Obj(st.next + 2, two, map["cache" := e])]),
                       st.(next := st.next + 3, cells := st.cells[cell := e]))
  {
    var e := Obj(st.next, cache, map[]);
    var st1 := st.(next := st.next + 2, cells := st.cells[cell := e]);
    FirstDependencyBuildsCache(w, c, temp, one, cache, cell, st, fuel);
    LaterDependencyReusesCache(w, temp, two, cache, cell, Loader(c, cache), st1, fuel);
    InferTwoDependencies(w, temp, f, one, two, st, fuel,
                         Obj(st.next + 1, one, map["cache" := e]), st1,
                         Obj(st.next + 2, two, map["cache" := e]), st1.(next := st1.next + 1));
  }

  /** `partial(f, shared=[Cache])` called with no arguments: the two
      dependencies each got a new object, and both were given the one cache
      the call built, which is new in this call. */
  lemma PartialCallSharesCache(w: World, c: Container, f: PyFunction, one: TypeKey, two: TypeKey, cache: TypeKey,
                               st: State, fuel: nat)
    requires c.kind.Plain? && fuel > 2
    requires Ordinary(one) && Ordinary(two) && Ordinary(cache) && cache != AnyType && one != AnyType && two != AnyType
    requires one != cache && two != cache
    requires one !in c.registered && two !in c.registered && cache !in c.registered
    requires TakesTwoDependencies(f, one, two) && NeedsCache(w, one, cache) && NeedsCache(w, two, cache)
    requires cache in w.inits && w.inits[cache] == Func([], [], ClassObj, None)
    ensures var o := CallPartial(w, Partial(c, f, [cache], {}, 0), [], map[], st, fuel);
            o.r == Ok(SharedCacheCall(st.next, one, two, cache)) && o.st.next == st.next + 4
  {
    var p := Partial(c, f, [cache], {}, 0);
    ShareOneKey(c, cache, st);
    var s := SharedContainer(c, [cache], st);
    CallWithFreshCache(w, c, f, one, two, cache, st, fuel, s.r.value, s.st);
  }

  /** The call's container holds the cache's singleton in slot `st.next`;
      the call then builds both dependencies around one new cache. */
  lemma CallWithFreshCache(w: World, c: Container, f: PyFunction, one: TypeKey, two: TypeKey, cache: TypeKey,
                           st: State, fuel: nat, temp: Container, s1: State)
    requires c.kind.Plain? && fuel > 2
    requires Ordinary(one) && Ordinary(two) && Ordinary(cache) && cache != AnyType && one != AnyType && two != AnyType
    requires one != cache && two != cache
    requires one !in c.registered && two !in c.registered && cache !in c.registered
    requires TakesTwoDependencies(f, one, two) && NeedsCache(w, one, cache) && NeedsCache(w, two, cache)
    requires cache in w.inits && w.inits[cache] == Func([], [], ClassObj, None)
    requires SharedContainer(c, [cache], st) == Scoped(Ok(temp), s1)
    requires temp.kind == Plain && temp.registered == c.registered[cache := Singleton(st.next, Loader(c, cache))]
    requires s1 == AllocCell(st).1
    ensures var o := CallPartial(w, Partial(c, f, [cache], {}, 0), [], map[], st, fuel);
            o.r == Ok(SharedCacheCall(st.next, one, two, cache)) && o.st.next == st.next + 4
  {
    var p := Partial(c, f, [cache], {}, 0);
    SharedCacheDependencies(w, c, temp, f, one, two, cache, st.next, s1, fuel);
    var e := Obj(s1.next, cache, map[]);
    var m := map["dep_one" := Obj(s1.next + 1, one, map["cache" := e]), "dep_two" := Obj(s1.next + 2, two, map["cache" := e])];
    var s3 := s1.(next := s1.next + 3, cells := s1.cells[st.next := e]);
    NoCallerArguments(w, p, temp, s1, fuel);
    BindTwoParameters("dep_one", "dep_two", Obj(s1.next + 1, one, map["cache" := e]), Obj(s1.next + 2, two, map["cache" := e]));
    NoKeywordsAdded(m);
    PartialCallResult(w, p, [], map[], st, fuel, temp, s1, m, s3, m);
  }

  /** Merging in no keyword arguments changes nothing. */
  lemma NoKeywordsAdded(m: map<string, Value>)
    ensures m + map[] == m
  {
  }

  /** A call with no arguments infers every annotated parameter. */
  lemma NoCallerArguments(w: World, p: Partial, temp: Container, st: State, fuel: nat)
    requires p.keys == {} && p.skipPos == 0
    ensures CallDependencies(w, p, temp, [], map[], st, fuel) == InferDependencies(w, temp, Reflect(p.f.sig), true, {}, 0, st, fuel)
  {
    var none: map<string, Value> := map[];
    assert p.keys + none.Keys == {};
  }

  /** A bound call whose container, inferred dependencies and binding are
      known yields the function's result for that binding. */
  lemma PartialCallResult(w: World, p: Partial, args: seq<Value>, kwargs: map<string, Value>, st: State, fuel: nat,
                          temp: Container, s1: State, m: map<string, Value>, s3: State, b: map<string, Value>)
    requires SharedContainer(p.c, p.shared, st) == Scoped(Ok(temp), s1)
    requires CallDependencies(w, p, temp, args, kwargs, s1, fuel) == DepsOut(Ok(m), s3)
    requires Bind(p.f.sig.params, args, m + kwargs) == Ok(b) && p.f.sig.raises.None?
    ensures CallPartial(w, p, args, kwargs, st, fuel) == Out(Ok(Record(b)), s3)
  {
    PartialPassesDependencies(w, p, args, kwargs, st, fuel);
  }

  /** What a call of `f` starting at slot `n` passes: the cache is object
      `n + 1`, then `DepOne` and `DepTwo` are built around it. */
  function SharedCacheCall(n: nat, one: TypeKey, two: TypeKey, cache: TypeKey): Value {
    var e := Obj(n + 1, cache, map[]);
    Record(map["dep_one" := Obj(n + 2, one, map["cache" := e]), "dep_two" := Obj(n + 3, two, map["cache" := e])])
  }

  /** The cache a call passed to the dependency named `n`, or `None`. */
  function CacheOf(call: Value, n: string): Value {
    if call.Record? && n in call.args && call.args[n].Obj? && "cache" in call.args[n].fields
    then call.args[n].fields["cache"] else Null
  }

  /** Two calls of the same bound function never share the cache: each call
      builds its own. */
  lemma PartialCallsBuildTheirOwnCache(w: World, c: Container, f: PyFunction, one: TypeKey, two: TypeKey, cache: TypeKey,
                                       st: State, fuel: nat)
    requires c.kind.Plain? && fuel > 2
    requires Ordinary(one) && Ordinary(two) && Ordinary(cache) && cache != AnyType && one != AnyType && two != AnyType
    requires one != cache && two != cache
    requires one !in c.registered && two !in c.registered && cache !in c.registered
    requires TakesTwoDependencies(f, one, two) && NeedsCache(w, one, cache) && NeedsCache(w, two, cache)
    requires cache in w.inits && w.inits[cache] == Func([], [], ClassObj, None)
    ensures var p := Partial(c, f, [cache], {}, 0);
            var o1 := CallPartial(w, p, [], map[], st, fuel);
            var o2 := CallPartial(w, p, [], map[], o1.st, fuel);
            && o1.r.Ok? && o2.r.Ok?
            && CacheOf(o1.r.value, "dep_one") != Null
            && CacheOf(o1.r.value, "dep_one") == CacheOf(o1.r.value, "dep_two")
            && CacheOf(o2.r.value, "dep_one") == CacheOf(o2.r.value, "dep_two")
            && CacheOf(o1.r.value, "dep_one") != CacheOf(o2.r.value, "dep_one")
  {
    var p := Partial(c, f, [cache], {}, 0);
    PartialCallSharesCache(w, c, f, one, two, cache, st, fuel);
    var o1 := CallPartial(w, p, [], map[], st, fuel);
    PartialCallSharesCache(w, c, f, one, two, cache, o1.st, fuel);
    CacheOfCall(st.next, one, two, cache);
    CacheOfCall(o1.st.next, one, two, cache);
  }

  /** Both dependencies of such a call hold the cache built at slot `n + 1`. */
  lemma CacheOfCall(n: nat, one: TypeKey, two: TypeKey, cache: TypeKey)
    ensures CacheOf(SharedCacheCall(n, one, two, cache), "dep_one") == Obj(n + 1, cache, map[])
    ensures CacheOf(SharedCacheCall(n, one, two, cache), "dep_two") == Obj(n + 1, cache, map[])
  {
  }
}

=== FILE: reflection.dfy ===
/** Signature reflection (lagom/util/reflection.py). Python's `inspect` is
    replaced by an explicit descriptor of a callable: its parameters, its type
    hints and what kind of function it is. */
module Reflection {
  import opened Types

  /** One declared parameter: positional-or-keyword (`positional`) or
      keyword-only, with its default literal if it declares one. */
  datatype Param = Param(name: string, positional: bool, default: Option<Value>)

  /** What `inspect` would say about a callable object. */
  datatype FuncKind = PlainFn | CoroutineFn | GeneratorFn | AsyncGeneratorFn | ClassObj | OtherCallable

  /** A callable's signature: parameters in order, `get_type_hints` (the
      "return" entry included) and its kind. `raises` is the exception its body
      throws, if it throws one. */
  datatype Func = Func(params: seq<Param>, hints: seq<(string, TypeKey)>, kind: FuncKind, raises: Option<Error>)

  /** `FunctionSpec`: argument names, annotations (in declaration order),
      defaults, the return type and the arity. */
  datatype FunctionSpec = FunctionSpec(
    args: seq<string>,
    annotations: seq<(string, TypeKey)>,
    defaults: map<string, Value>,
    returnType: Option<TypeKey>,
    arity: nat)

  /** `isinstance(func, FunctionType)`: plain, coroutine, generator and async
      generator functions are Python functions; classes and other callables are not. */
  predicate IsFunctionKind(k: FuncKind) {
    k.PlainFn? || k.CoroutineFn? || k.GeneratorFn? || k.AsyncGeneratorFn?
  }

  const ReturnAnnotation: string := "return"

  /** `FunctionSpec.__init__`: the arity is always the number of arguments. */
  function MakeSpec(args: seq<string>, annotations: seq<(string, TypeKey)>, defaults: map<string, Value>, returnType: Option<TypeKey>): (s: FunctionSpec)
    ensures s.arity == |args|
    ensures s.args == args && s.annotations == annotations && s.defaults == defaults && s.returnType == returnType
  {
    FunctionSpec(args, annotations, defaults, returnType, |args|)
  }

  predicate WellFormed(s: FunctionSpec) {
    s.arity == |s.args|
  }

  /** How many of the first `i` names differ from `n`. */
  function OthersBefore(xs: seq<string>, n: string, i: nat): nat
    requires i <= |xs|
  {
    if i == 0 then 0
    else (if xs[0] != n then 1 else 0) + OthersBefore(xs[1..], n, i - 1)
  }

  /** The list comprehension `[arg for arg in args if arg != n]`: every
      other name, as often as it occurs and in its original order (the name
      with `k` other names before it is at index `k`). */
  function Without(xs: seq<string>, n: string): (r: seq<string>)
    ensures forall x :: x in r <==> x in xs && x != n
    ensures n !in xs ==> r == xs
    ensures |r| <= |xs|
    ensures |r| == OthersBefore(xs, n, |xs|)
    ensures forall i :: 0 <= i < |xs| && xs[i] != n ==> OthersBefore(xs, n, i) < |r| && r[OthersBefore(xs, n, i)] == xs[i]
    ensures multiset(r) == multiset(xs)[n := 0]
  {
    if |xs| == 0 then []
    else
      var rest := Without(xs[1..], n);
      var r := if xs[0] == n then rest else [xs[0]] + rest;
      WithoutStep(xs, n, xs[1..], rest, r);
      r
  }

  /** One step of `Without`: its contract for the whole list follows from
      the contract for the tail. */
  lemma WithoutStep(xs: seq<string>, n: string, tail: seq<string>, rest: seq<string>, r: seq<string>)
    requires |xs| > 0 && tail == xs[1..]
    requires forall x :: x in rest <==> x in tail && x != n
    requires n !in tail ==> rest == tail
    requires |rest| <= |tail|
    requires |rest| == OthersBefore(tail, n, |tail|)
    requires forall i :: 0 <= i < |tail| && tail[i] != n ==> OthersBefore(tail, n, i) < |rest| && rest[OthersBefore(tail, n, i)] == tail[i]
    requires multiset(rest) == multiset(tail)[n := 0]
    requires r == if xs[0] == n then rest else [xs[0]] + rest
    ensures forall x :: x in r <==> x in xs && x != n
    ensures n !in xs ==> r == xs
    ensures |r| <= |xs|
    ensures |r| == OthersBefore(xs, n, |xs|)
    ensures forall i :: 0 <= i < |xs| && xs[i] != n ==> OthersBefore(xs, n, i) < |r| && r[OthersBefore(xs, n, i)] == xs[i]
    ensures multiset(r) == multiset(xs)[n := 0]
  {
    WithoutMembersStep(xs, n, tail, rest, r);
    OthersBeforeAll(xs, n, tail);
    WithoutCountStep(xs, n, rest, r);
    WithoutOrderStep(xs, n, tail, rest, r);
  }

  /** One step of `Without` keeps exactly the other names. */
  lemma WithoutMembersStep(xs: seq<string>, n: string, tail: seq<string>, rest: seq<string>, r: seq<string>)
    requires |xs| > 0 && tail == xs[1..]
    requires forall x :: x in rest <==> x in tail && x != n
    requires n !in tail ==> rest == tail
    requires |rest| <= |tail|
    requires r == if xs[0] == n then rest else [xs[0]] + rest
    ensures forall x :: x in r <==> x in xs && x != n
    ensures n !in xs ==> r == xs
    ensures |r| <= |xs|
  {
    assert xs == [xs[0]] + tail;
    assert forall x :: x in xs <==> x == xs[0] || x in tail;
  }

  /** One step of `Without` keeps the other names in order. */
  lemma WithoutOrderStep(xs: seq<string>, n: string, tail: seq<string>, rest: seq<string>, r: seq<string>)
    requires |xs| > 0 && tail == xs[1..]
    requires forall i :: 0 <= i < |tail| && tail[i] != n ==> OthersBefore(tail, n, i) < |rest| && rest[OthersBefore(tail, n, i)] == tail[i]
    requires r == if xs[0] == n then rest else [xs[0]] + rest
    ensures forall i :: 0 <= i < |xs| && xs[i] != n ==> OthersBefore(xs, n, i) < |r| && r[OthersBefore(xs, n, i)] == xs[i]
  {
    forall i | 0 <= i < |xs| && xs[i] != n
      ensures OthersBefore(xs, n, i) < |r| && r[OthersBefore(xs, n, i)] == xs[i]
    {
      if i > 0 {
        assert tail[i - 1] == xs[i];
      }
    }
  }

  /** Counting the other names of a whole list: the head, then the tail. */
  lemma OthersBeforeAll(xs: seq<string>, n: string, tail: seq<string>)
    requires |xs| > 0 && tail == xs[1..]
    ensures OthersBefore(xs, n, |xs|) == (if xs[0] != n then 1 else 0) + OthersBefore(tail, n, |tail|)
  {
  }

  /** One step of `Without` keeps every other name's count. */
  lemma WithoutCountStep(xs: seq<string>, n: string, rest: seq<string>, r: seq<string>)
    requires |xs| > 0 && multiset(rest) == multiset(xs[1..])[n := 0]
    requires r == if xs[0] == n then rest else [xs[0]] + rest
    ensures multiset(r) == multiset(xs)[n := 0]
  {
    assert xs == [xs[0]] + xs[1..];
    assert multiset(xs) == multiset{xs[0]} + multiset(xs[1..]);
  }

  /** Removing two names is independent of the order they are removed in. */
  lemma {:induction false} WithoutCommutes(xs: seq<string>, a: string, b: string)
    ensures Without(Without(xs, a), b) == Without(Without(xs, b), a)
  {
    if |xs| > 0 {
      WithoutCommutes(xs[1..], a, b);
      if xs[0] != a && xs[0] != b {
        assert Without(xs, a) == [xs[0]] + Without(xs[1..], a);
        assert ([xs[0]] + Without(xs[1..], a))[1..] == Without(xs[1..], a);
        assert ([xs[0]] + Without(xs[1..], b))[1..] == Without(xs[1..], b);
      } else if xs[0] == a && xs[0] != b {
        assert ([xs[0]] + Without(xs[1..], b))[1..] == Without(xs[1..], b);
      } else if xs[0] != a && xs[0] == b {
        assert ([xs[0]] + Without(xs[1..], a))[1..] == Without(xs[1..], a);
      }
    }
  }

  /** `FunctionSpec.without_argument`. */
  function WithoutArgument(s: FunctionSpec, n: string): (r: FunctionSpec)
    ensures forall x :: x in r.args <==> x in s.args && x != n
    ensures |r.args| <= |s.args|
    ensures |r.args| == OthersBefore(s.args, n, |s.args|)
    ensures forall i :: 0 <= i < |s.args| && s.args[i] != n ==>
              OthersBefore(s.args, n, i) < |r.args| && r.args[OthersBefore(s.args, n, i)] == s.args[i]
    ensures multiset(r.args) == multiset(s.args)[n := 0]
    ensures WellFormed(r)
    ensures r.annotations == s.annotations && r.defaults == s.defaults && r.returnType == s.returnType
    ensures n !in s.args ==> r.args == s.args
  {
    MakeSpec(Without(s.args, n), s.annotations, s.defaults, s.returnType)
  }

  /** Removing an argument twice is the same as removing it once. */
  lemma WithoutArgumentIdempotent(s: FunctionSpec, n: string)
    ensures WithoutArgument(WithoutArgument(s, n), n) == WithoutArgument(s, n)
  {
  }

  /** How many of the first `i` parameters are positional. */
  function PositionalBefore(params: seq<Param>, i: nat): nat
    requires i <= |params|
  {
    if i == 0 then 0
    else (if params[0].positional then 1 else 0) + PositionalBefore(params[1..], i - 1)
  }

  /** `getfullargspec(func).args`: the names of the positional parameters,
      in declaration order: the positional parameter with `k` positional
      parameters before it is at index `k`, and there are no other entries. */
  function PositionalNames(params: seq<Param>): (r: seq<string>)
    ensures |r| <= |params|
    ensures |r| == PositionalBefore(params, |params|)
    ensures forall i :: 0 <= i < |params| && params[i].positional ==>
              PositionalBefore(params, i) < |r| && r[PositionalBefore(params, i)] == params[i].name
    ensures forall x :: x in r <==> exists i :: 0 <= i < |params| && params[i].positional && params[i].name == x
  {
    if |params| == 0 then []
    else
      var rest := PositionalNames(params[1..]);
      assert forall i :: 0 <= i < |params| - 1 ==> params[1..][i] == params[i + 1];
      var r := if params[0].positional then [params[0].name] + rest else rest;
      forall i | 0 <= i < |params| && params[i].positional
        ensures PositionalBefore(params, i) < |r| && r[PositionalBefore(params, i)] == params[i].name
      {
        if i > 0 {
          assert params[1..][i - 1] == params[i];
        }
      }
      r
  }

  /** Positional names keep their declaration order: of two positional
      parameters, the earlier one gets the smaller index in `args`. */
  lemma {:induction false} PositionalOrderKept(params: seq<Param>, i: nat, j: nat)
    requires i < j < |params| && params[i].positional
    ensures PositionalBefore(params, i) < PositionalBefore(params, j)
    decreases i
  {
    if i > 0 {
      assert params[1..][i - 1] == params[i];
      PositionalOrderKept(params[1..], i - 1, j - 1);
    }
  }

  /** `_get_default_args`: exactly the parameters that declare a default,
      each mapped to its own default when the names are distinct. */
  function DefaultArgs(params: seq<Param>): (r: map<string, Value>)
    ensures forall n :: n in r <==> exists i :: 0 <= i < |params| && params[i].name == n && params[i].default.Some?
    ensures forall n :: n in r ==> exists i :: 0 <= i < |params| && params[i].name == n && params[i].default == Some(r[n])
    ensures DistinctNames(params) ==>
      forall i :: 0 <= i < |params| && params[i].default.Some? ==> params[i].name in r && r[params[i].name] == params[i].default.value
  {
    if |params| == 0 then map[]
    else
      var rest := DefaultArgs(params[1..]);
      var r := if params[0].default.Some? && params[0].name !in rest then rest[params[0].name := params[0].default.value]
               else rest;
      DefaultArgsStep(params, params[1..], rest, r);
      r
  }

  /** One step of `DefaultArgs`: the head's default is added unless the tail
      already has its name, and the tail's defaults are kept. */
  lemma DefaultArgsStep(params: seq<Param>, tail: seq<Param>, rest: map<string, Value>, r: map<string, Value>)
    requires |params| > 0 && tail == params[1..]
    requires forall n :: n in rest <==> exists i :: 0 <= i < |tail| && tail[i].name == n && tail[i].default.Some?
    requires forall n :: n in rest ==> exists i :: 0 <= i < |tail| && tail[i].name == n && tail[i].default == Some(rest[n])
    requires DistinctNames(tail) ==>
      forall i :: 0 <= i < |tail| && tail[i].default.Some? ==> tail[i].name in rest && rest[tail[i].name] == tail[i].default.value
    requires r == if params[0].default.Some? && params[0].name !in rest then rest[params[0].name := params[0].default.value] else rest
    ensures forall n :: n in r <==> exists i :: 0 <= i < |params| && params[i].name == n && params[i].default.Some?
    ensures forall n :: n in r ==> exists i :: 0 <= i < |params| && params[i].name == n && params[i].default == Some(r[n])
    ensures DistinctNames(params) ==>
      forall i :: 0 <= i < |params| && params[i].default.Some? ==> params[i].name in r && r[params[i].name] == params[i].default.value
  {
    forall n ensures n in r <==> exists i :: 0 <= i < |params| && params[i].name == n && params[i].default.Some? {
      if exists i :: 0 <= i < |params| && params[i].name == n && params[i].default.Some? {
        var i :| 0 <= i < |params| && params[i].name == n && params[i].default.Some?;
        if i > 0 {
          assert tail[i - 1] == params[i];
        }
      }
    }
    forall n | n in r ensures exists i :: 0 <= i < |params| && params[i].name == n && params[i].default == Some(r[n]) {
      if n in rest && r[n] == rest[n] {
        var i :| 0 <= i < |tail| && tail[i].name == n && tail[i].default == Some(rest[n]);
        assert params[i + 1] == tail[i];
      } else {
        assert params[0].name == n && params[0].default == Some(r[n]);
      }
    }
    if DistinctNames(params) {
      assert DistinctNames(tail) by {
        forall i, j | 0 <= i < j < |tail| ensures tail[i].name != tail[j].name {
          assert tail[i] == params[i + 1] && tail[j] == params[j + 1];
        }
      }
      assert params[0].name !in rest by {
        forall i | 0 <= i < |tail| ensures tail[i].name != params[0].name {
          assert params[i + 1] == tail[i];
        }
      }
      forall i | 0 <= i < |params| && params[i].default.Some?
        ensures params[i].name in r && r[params[i].name] == params[i].default.value
      {
        if i > 0 {
          assert tail[i - 1] == params[i];
          assert params[i].name != params[0].name;
        }
      }
    }
  }

  /** The value of the "return" type hint, if there is one. */
  function ReturnHint(hints: seq<(string, TypeKey)>): (r: Option<TypeKey>)
    ensures r.Some? <==> exists i :: 0 <= i < |hints| && hints[i].0 == ReturnAnnotation
    ensures r.Some? ==> exists i :: 0 <= i < |hints| && hints[i] == (ReturnAnnotation, r.value)
  {
    if |hints| == 0 then None
    else if hints[0].0 == ReturnAnnotation then Some(hints[0].1)
    else
      assert forall i :: 0 <= i < |hints| - 1 ==> hints[1..][i] == hints[i + 1];
      ReturnHint(hints[1..])
  }

  /** How many of the first `i` hints are not the return hint. */
  function KeptBefore(hints: seq<(string, TypeKey)>, i: nat): nat
    requires i <= |hints|
  {
    if i == 0 then 0
    else (if hints[0].0 != ReturnAnnotation then 1 else 0) + KeptBefore(hints[1..], i - 1)
  }

  /** `annotations.pop("return")`: the hints without the return entry, in
      their original order: a kept hint with `k` kept hints before it is at
      index `k`, and there are no other entries. */
  function DropReturn(hints: seq<(string, TypeKey)>): (r: seq<(string, TypeKey)>)
    ensures forall h :: h in r <==> h in hints && h.0 != ReturnAnnotation
    ensures |r| <= |hints|
    ensures |r| == KeptBefore(hints, |hints|)
    ensures forall i :: 0 <= i < |hints| && hints[i].0 != ReturnAnnotation ==>
              KeptBefore(hints, i) < |r| && r[KeptBefore(hints, i)] == hints[i]
  {
    if |hints| == 0 then []
    else
      var rest := DropReturn(hints[1..]);
      var r := if hints[0].0 == ReturnAnnotation then rest else [hints[0]] + rest;
      forall i | 0 <= i < |hints| && hints[i].0 != ReturnAnnotation
        ensures KeptBefore(hints, i) < |r| && r[KeptBefore(hints, i)] == hints[i]
      {
        if i > 0 {
          assert hints[1..][i - 1] == hints[i];
        }
      }
      r
  }

  /** `reflect`: the return hint moves out of the annotations into
      `return_type`, wrapped in `Awaitable` for a coroutine function. */
  function Reflect(f: Func): (s: FunctionSpec)
    ensures WellFormed(s)
    ensures forall h :: h in s.annotations <==> h in f.hints && h.0 != ReturnAnnotation
    ensures |s.annotations| == KeptBefore(f.hints, |f.hints|)
    ensures forall i :: 0 <= i < |f.hints| && f.hints[i].0 != ReturnAnnotation ==>
              KeptBefore(f.hints, i) < |s.annotations| && s.annotations[KeptBefore(f.hints, i)] == f.hints[i]
    ensures |s.args| == PositionalBefore(f.params, |f.params|)
    ensures forall i :: 0 <= i < |f.params| && f.params[i].positional ==>
              PositionalBefore(f.params, i) < |s.args| && s.args[PositionalBefore(f.params, i)] == f.params[i].name
    ensures s.returnType.Some? <==> ReturnHint(f.hints).Some?
    ensures ReturnHint(f.hints).Some? && !f.kind.CoroutineFn? ==> s.returnType == ReturnHint(f.hints)
    ensures ReturnHint(f.hints).Some? && f.kind.CoroutineFn? ==> s.returnType == Some(AwaitableOf(ReturnHint(f.hints).value))
    ensures forall x :: x in s.args <==> exists i :: 0 <= i < |f.params| && f.params[i].positional && f.params[i].name == x
    ensures forall n :: n in s.defaults <==> exists i :: 0 <= i < |f.params| && f.params[i].name == n && f.params[i].default.Some?
    ensures s.defaults == DefaultArgs(f.params)
    ensures DistinctNames(f.params) ==>
      forall i :: 0 <= i < |f.params| && f.params[i].default.Some? ==>
        f.params[i].name in s.defaults && s.defaults[f.params[i].name] == f.params[i].default.value
  {
    var ret := ReturnHint(f.hints);
    var ret' := if ret.Some? && f.kind.CoroutineFn? then Some(AwaitableOf(ret.value)) else ret;
    MakeSpec(PositionalNames(f.params), DropReturn(f.hints), DefaultArgs(f.params), ret')
  }

  /** `CachingReflector.overview_of_cache`: a constant placeholder. */
  function CacheOverview(): (r: map<string, string>)
    ensures r.Keys == {"hidden"} && r["hidden"] == ""
  {
    map["hidden" := ""]
  }

  /** `remove_optional_type`: `T` for a two-argument generic whose second
      argument is `NoneType` (which is how `Optional[T]` is spelled), and
      nothing for every other key. */
  function RemoveOptionalType(k: TypeKey): (r: Option<TypeKey>)
    ensures r.Some? <==> k.Generic? && |k.args| == 2 && k.args[1] == NoneType
    ensures r.Some? ==> r.value == k.args[0]
  {
    match k
    case Generic(_, args) => if |args| == 2 && args[1] == NoneType then Some(args[0]) else None
    case _ => None
  }

  lemma OptionalRoundTrip(t: TypeKey)
    ensures RemoveOptionalType(OptionalOf(t)) == Some(t)
    ensures RemoveOptionalType(t) == None <== !t.Generic?
  {
  }

  /** `remove_awaitable_type`: the first argument of `Awaitable[T]`, nothing
      for other keys. */
  function RemoveAwaitableType(k: TypeKey): (r: Option<TypeKey>)
    ensures r.Some? <==> k.Generic? && k.origin.Awaitable? && |k.args| > 0
    ensures r.Some? ==> r.value == k.args[0]
  {
    match k
    case Generic(Awaitable, args) => if |args| > 0 then Some(args[0]) else None
    case _ => None
  }

  lemma AwaitableRoundTrip(t: TypeKey)
    ensures RemoveAwaitableType(AwaitableOf(t)) == Some(t)
    ensures RemoveAwaitableType(Class("int")) == None
  {
  }

  function NameSet(params: seq<Param>): (r: set<string>)
    ensures forall n :: n in r <==> exists i :: 0 <= i < |params| && params[i].name == n
  {
    if |params| == 0 then {}
    else
      assert forall i :: 0 <= i < |params| - 1 ==> params[1..][i] == params[i + 1];
      {params[0].name} + NameSet(params[1..])
  }

  predicate DistinctNames(params: seq<Param>) {
    forall i, j :: 0 <= i < j < |params| ==> params[i].name != params[j].name
  }

  /** Whether the parameter at `j` takes a positional argument: it is
      positional and there are more arguments than positional parameters
      before it. */
  predicate TakesPositional(params: seq<Param>, args: seq<Value>, j: nat)
    requires j < |params|
  {
    params[j].positional && PositionalBefore(params, j) < |args|
  }

  /** Python's binding rules: no more positional arguments than positional
      parameters, no parameter given both positionally and by keyword, and
      every parameter not given positionally is given by keyword or has a
      default. */
  predicate Bindable(params: seq<Param>, args: seq<Value>, kwargs: map<string, Value>) {
    && |args| <= PositionalBefore(params, |params|)
    && forall j :: 0 <= j < |params| ==>
         if TakesPositional(params, args, j) then params[j].name !in kwargs
         else params[j].name in kwargs || params[j].default.Some?
  }

  /** The value binding gives the parameter at `j`: the positional argument
      it takes, else its keyword argument, else its default. */
  function BoundValue(params: seq<Param>, args: seq<Value>, kwargs: map<string, Value>, j: nat): Option<Value>
    requires j < |params|
  {
    if TakesPositional(params, args, j) then Some(args[PositionalBefore(params, j)])
    else if params[j].name in kwargs then Some(kwargs[params[j].name])
    else params[j].default
  }

  /** `Bindable` and `BoundValue` split at the first parameter. */
  lemma BindableStep(params: seq<Param>, args: seq<Value>, kwargs: map<string, Value>)
    requires |params| > 0
    ensures var p := params[0];
            var args' := if p.positional && |args| > 0 then args[1..] else args;
            && (Bindable(params, args, kwargs) <==>
                  && (if p.positional && |args| > 0 then p.name !in kwargs else p.name in kwargs || p.default.Some?)
                  && Bindable(params[1..], args', kwargs))
            && (forall j :: 1 <= j < |params| ==> BoundValue(params, args, kwargs, j) == BoundValue(params[1..], args', kwargs, j - 1))
  {
    var p := params[0];
    var args' := if p.positional && |args| > 0 then args[1..] else args;
    var d := if p.positional then 1 else 0;
    assert PositionalBefore(params, |params|) == d + PositionalBefore(params[1..], |params| - 1);
    forall j | 1 <= j < |params|
      ensures params[1..][j - 1] == params[j]
      ensures PositionalBefore(params, j) == d + PositionalBefore(params[1..], j - 1)
      ensures TakesPositional(params, args, j) == TakesPositional(params[1..], args', j - 1)
      ensures BoundValue(params, args, kwargs, j) == BoundValue(params[1..], args', kwargs, j - 1)
    {
    }
    assert TakesPositional(params, args, 0) == (p.positional && |args| > 0);
    if Bindable(params[1..], args', kwargs) {
      forall j | 1 <= j < |params|
        ensures if TakesPositional(params, args, j) then params[j].name !in kwargs
                else params[j].name in kwargs || params[j].default.Some?
      {
        assert params[1..][j - 1] == params[j];
      }
    }
    if Bindable(params, args, kwargs) {
      forall j | 0 <= j < |params| - 1
        ensures if TakesPositional(params[1..], args', j) then params[1..][j].name !in kwargs
                else params[1..][j].name in kwargs || params[1..][j].default.Some?
      {
        assert params[1..][j] == params[j + 1];
      }
    }
  }

  /** Python's argument binding, parameter by parameter: positional arguments
      fill positional parameters first; a parameter given both positionally
      and by keyword, a missing parameter without default, and a surplus
      positional argument are all `TypeError`. Binding succeeds exactly when
      the rules hold, and then (names being distinct) every parameter holds
      its positional argument, its keyword argument or its default. */
  function BindParams(params: seq<Param>, args: seq<Value>, kwargs: map<string, Value>): (r: Result<map<string, Value>>)
    ensures r.Ok? <==> Bindable(params, args, kwargs)
    ensures r.Ok? ==> r.value.Keys == NameSet(params)
    ensures r.Ok? && DistinctNames(params) ==>
      forall j :: 0 <= j < |params| ==> BoundValue(params, args, kwargs, j) == Some(r.value[params[j].name])
    ensures r.Ok? && DistinctNames(params) ==> forall n :: n in kwargs && n in NameSet(params) ==> r.value[n] == kwargs[n]
    ensures r.Err? ==> r.error == TypeError
  {
    if |params| == 0 then
      if |args| == 0 then Ok(map[]) else Err(TypeError)
    else
      var p := params[0];
      var takes := p.positional && |args| > 0;
      var args' := if takes then args[1..] else args;
      var v := if takes then Some(args[0]) else if p.name in kwargs then Some(kwargs[p.name]) else p.default;
      var rest := BindParams(params[1..], args', kwargs);
      var r := if takes && p.name in kwargs then Err(TypeError)
               else if v.None? then Err(TypeError)
               else match rest
                    case Ok(m) => Ok(m[p.name := v.value])
                    case Err(e) => Err(e);
      BindParamsStep(params, args, kwargs, params[1..], args', v, rest, r);
      r
  }

  /** How `BindParams` combines the head parameter with the tail's result:
      `v` is what the head receives, `args'` what is left for the tail. */
  predicate BindStep(params: seq<Param>, args: seq<Value>, kwargs: map<string, Value>,
                     tail: seq<Param>, args': seq<Value>, v: Option<Value>,
                     rest: Result<map<string, Value>>, r: Result<map<string, Value>>)
  {
    var takes := |params| > 0 && params[0].positional && |args| > 0;
    && |params| > 0 && tail == params[1..]
    && args' == (if takes then args[1..] else args)
    && v == (if takes then Some(args[0]) else if params[0].name in kwargs then Some(kwargs[params[0].name]) else params[0].default)
    && r == if takes && params[0].name in kwargs then Err(TypeError)
            else if v.None? then Err(TypeError)
            else match rest
                 case Ok(m) => Ok(m[params[0].name := v.value])
                 case Err(e) => Err(e)
  }

  /** One step of `BindParams`: its contract for the whole list follows from
      the contract for the tail. */
  lemma BindParamsStep(params: seq<Param>, args: seq<Value>, kwargs: map<string, Value>,
                       tail: seq<Param>, args': seq<Value>, v: Option<Value>,
                       rest: Result<map<string, Value>>, r: Result<map<string, Value>>)
    requires BindStep(params, args, kwargs, tail, args', v, rest, r)
    requires rest.Ok? <==> Bindable(tail, args', kwargs)
    requires rest.Ok? ==> rest.value.Keys == NameSet(tail)
    requires rest.Ok? && DistinctNames(tail) ==>
      forall j :: 0 <= j < |tail| ==> BoundValue(tail, args', kwargs, j) == Some(rest.value[tail[j].name])
    requires rest.Err? ==> rest.error == TypeError
    ensures r.Ok? <==> Bindable(params, args, kwargs)
    ensures r.Ok? ==> r.value.Keys == NameSet(params)
    ensures r.Ok? && DistinctNames(params) ==>
      forall j :: 0 <= j < |params| ==> BoundValue(params, args, kwargs, j) == Some(r.value[params[j].name])
    ensures r.Ok? && DistinctNames(params) ==> forall n :: n in kwargs && n in NameSet(params) ==> r.value[n] == kwargs[n]
    ensures r.Err? ==> r.error == TypeError
  {
    BindableStep(params, args, kwargs);
    if r.Ok? {
      BindStepKeys(params, tail, r.value, rest.value, v.value);
      if DistinctNames(params) {
        BindStepValues(params, args, kwargs, tail, args', v, rest, r);
        forall n | n in kwargs && n in NameSet(params) ensures r.value[n] == kwargs[n] {
          var j :| 0 <= j < |params| && params[j].name == n;
          assert BoundValue(params, args, kwargs, j) == Some(r.value[n]);
        }
      }
    }
  }

  /** The names bound after a step: the head's and the tail's. */
  lemma BindStepKeys(params: seq<Param>, tail: seq<Param>, m: map<string, Value>, m': map<string, Value>, x: Value)
    requires |params| > 0 && tail == params[1..]
    requires m'.Keys == NameSet(tail) && m == m'[params[0].name := x]
    ensures m.Keys == NameSet(params)
  {
    forall n ensures n in NameSet(params) <==> n == params[0].name || n in NameSet(tail) {
      if n in NameSet(params) && n != params[0].name {
        var i :| 0 <= i < |params| && params[i].name == n;
        assert tail[i - 1] == params[i];
      }
      if n in NameSet(tail) {
        var i :| 0 <= i < |tail| && tail[i].name == n;
        assert params[i + 1] == tail[i];
      }
    }
  }

  /** The values bound after a step, names being distinct. */
  lemma BindStepValues(params: seq<Param>, args: seq<Value>, kwargs: map<string, Value>,
                       tail: seq<Param>, args': seq<Value>, v: Option<Value>,
                       rest: Result<map<string, Value>>, r: Result<map<string, Value>>)
    requires BindStep(params, args, kwargs, tail, args', v, rest, r)
    requires r.Ok? && rest.Ok? && DistinctNames(params)
    requires rest.value.Keys == NameSet(tail) && r.value.Keys == NameSet(params)
    requires DistinctNames(tail) ==>
      forall j :: 0 <= j < |tail| ==> BoundValue(tail, args', kwargs, j) == Some(rest.value[tail[j].name])
    requires forall j :: 1 <= j < |params| ==> BoundValue(params, args, kwargs, j) == BoundValue(tail, args', kwargs, j - 1)
    ensures forall j :: 0 <= j < |params| ==> BoundValue(params, args, kwargs, j) == Some(r.value[params[j].name])
  {
    assert DistinctNames(tail) by {
      forall i, j | 0 <= i < j < |tail| ensures tail[i].name != tail[j].name {
        assert tail[i] == params[i + 1] && tail[j] == params[j + 1];
      }
    }
    forall j | 0 <= j < |params|
      ensures BoundValue(params, args, kwargs, j) == Some(r.value[params[j].name])
    {
      if j > 0 {
        assert tail[j - 1] == params[j];
        assert params[j].name != params[0].name;
      }
    }
  }

  /** Calling a function with `*args, **kwargs`: an unknown keyword is a
      `TypeError`, otherwise the parameters are bound as above. */
  function Bind(params: seq<Param>, args: seq<Value>, kwargs: map<string, Value>): (r: Result<map<string, Value>>)
    ensures r.Ok? <==> kwargs.Keys <= NameSet(params) && Bindable(params, args, kwargs)
    ensures !(kwargs.Keys <= NameSet(params)) ==> r == Err(TypeError)
    ensures r.Ok? ==> r.value.Keys == NameSet(params)
    ensures r.Ok? && DistinctNames(params) ==>
      forall j :: 0 <= j < |params| ==> BoundValue(params, args, kwargs, j) == Some(r.value[params[j].name])
    ensures r.Ok? && DistinctNames(params) ==> forall n :: n in kwargs ==> r.value[n] == kwargs[n]
    ensures r.Err? ==> r.error == TypeError
  {
    if !(kwargs.Keys <= NameSet(params)) then Err(TypeError)
    else BindParams(params, args, kwargs)
  }
}

=== FILE: registry.dfy ===
/** The definition registry of `Container` (lagom/container.py): `__init__`,
    `define`, `defined_types` and `clone`. */
module Registry {
  import opened Types
  import opened Reflection
  import opened Defs
  import opened Engine

  /** `Container()` or `Container(container)`: a given container's
      definitions are copied (the definitions themselves are shared), the
      set of keys defined in this layer starts empty. */
  function NewContainer(base: Option<Container>): (c: Container)
    ensures c.explicit == {} && c.kind.Plain?
    ensures base.None? ==> c.registered == map[]
    ensures base.Some? ==> c.registered == base.value.registered
  {
    match base
    case None => Container(map[], {}, Plain)
    case Some(b) => Container(b.registered, {}, Plain)
  }

  /** `clone`: `Container(self)`, whatever the class of `self`. */
  function Clone(c: Container): (r: Container)
    ensures r.registered == c.registered && r.explicit == {} && r.kind.Plain?
  {
    NewContainer(Some(c))
  }

  /** `defined_types`. */
  function DefinedTypes(c: Container): (r: set<TypeKey>)
    ensures forall k :: k in r <==> k in c.registered
  {
    c.registered.Keys
  }

  datatype Defined = Defined(r: Result<()>, c: Container, st: State)

  /** `define(dep, resolver)`: primitives are refused, a key defined in this
      layer cannot be defined again, otherwise the normalised resolver
      replaces whatever an earlier layer defined. */
  function Define(c: Container, k: TypeKey, res: Resolver, st: State): (d: Defined)
    ensures k in UnresolvableTypes ==> d == Defined(Err(InvalidDependencyDefinition(PrimitiveKey)), c, st)
    ensures k !in UnresolvableTypes && k in c.explicit ==> d == Defined(Err(DuplicateDefinition), c, st)
    ensures d.r.Ok? <==> k !in UnresolvableTypes && k !in c.explicit && Normalise(res, st).r.Ok?
    ensures d.r.Err? ==> d.c == c && d.st == st
    ensures d.r.Ok? ==>
      && d.c.kind == c.kind
      && d.c.explicit == c.explicit + {k}
      && d.c.registered.Keys == c.registered.Keys + {k}
      && d.c.registered[k] == Normalise(res, st).r.value
      && (forall j :: j in c.registered && j != k ==> d.c.registered[j] == c.registered[j])
      && d.st == Normalise(res, st).st
  {
    if k in UnresolvableTypes then Defined(Err(InvalidDependencyDefinition(PrimitiveKey)), c, st)
    else if k in c.explicit then Defined(Err(DuplicateDefinition), c, st)
    else
      var n := Normalise(res, st);
      if n.r.Err? then Defined(Err(n.r.error), c, st)
      else Defined(Ok(()), c.(registered := c.registered[k := n.r.value], explicit := c.explicit + {k}), n.st)
  }

  /** A second `define` of a key in the same container fails with
      `DuplicateDefinition` and the first definition stays. */
  lemma DuplicateKeepsFirst(c: Container, k: TypeKey, r1: Resolver, r2: Resolver, st: State)
    requires Define(c, k, r1, st).r.Ok?
    ensures var d1 := Define(c, k, r1, st);
            var d2 := Define(d1.c, k, r2, d1.st);
            && d2.r == Err(DuplicateDefinition)
            && d2.c.registered[k] == d1.c.registered[k]
  {
  }

  /** A clone may redefine a key its parent defined; the parent keeps its
      own definition and every other key of the clone is the parent's. */
  lemma CloneMayRedefine(c: Container, k: TypeKey, res: Resolver, st: State)
    requires k !in UnresolvableTypes && Normalise(res, st).r.Ok?
    ensures var d := Define(Clone(c), k, res, st);
            && d.r.Ok?
            && d.c.registered[k] == Normalise(res, st).r.value
            && (forall j :: j in c.registered && j != k ==> d.c.registered[j] == c.registered[j])
  {
  }

  /** A clone shares its parent's singletons: once the parent's singleton
      holds an instance, the clone resolves the key to that same instance. */
  lemma CloneSharesSingletons(w: World, c: Container, k: TypeKey, cell: nat, inner: Definition, st: State, fuel: nat)
    requires c.kind.Plain? && fuel > 0 && RemoveOptionalType(k).None? && k !in UnresolvableTypes
    requires k in c.registered && c.registered[k] == Singleton(cell, inner)
    requires cell in st.cells && st.cells[cell] != Null
    ensures Resolve(w, Clone(c), k, false, false, st, fuel) == Out(Ok(st.cells[cell]), st)
    ensures Resolve(w, c, k, false, false, st, fuel) == Out(Ok(st.cells[cell]), st)
  {
    var hit := Out(Ok(st.cells[cell]), st);
    assert GetInstance(w, c, Singleton(cell, inner), st, fuel - 1) == hit;
    assert GetInstance(w, Clone(c), Singleton(cell, inner), st, fuel - 1) == hit;
    assert ResolveBase(w, c, k, false, false, st, fuel - 1) == Recover(hit, k, false);
    assert ResolveBase(w, Clone(c), k, false, false, st, fuel - 1) == Recover(hit, k, false);
  }

  /** After `c[K] = definition`, resolving `K` is that definition's
      `get_instance` on the container it was defined in. */
  lemma DefineThenResolve(w: World, c: Container, k: TypeKey, d: Definition, suppress: bool, st: State, fuel: nat)
    requires c.kind.Plain? && fuel > 0 && RemoveOptionalType(k).None?
    requires Define(c, k, Special(d), st).r.Ok?
    ensures var c2 := Define(c, k, Special(d), st).c;
            Resolve(w, c2, k, suppress, false, st, fuel) == Recover(GetInstance(w, c2, d, st, fuel - 1), k, suppress)
  {
  }
}

=== FILE: resolution_laws.dfy ===
/** Laws of resolution: how `Container.resolve`, the definition kinds'
    `get_instance` and the explicit and older scoped `resolve` behave. */
module ResolutionLaws {
  import opened Types
  import opened Reflection
  import opened Defs
  import opened Engine

  /** `resolve(Optional[T])` is `resolve(T, suppress_error=True)`: it never
      raises `UnresolvableType` and yields `None` when `T` cannot be built. */
  lemma OptionalIsSuppressed(w: World, c: Container, t: TypeKey, suppress: bool, skip: bool, st: State, fuel: nat)
    requires c.kind.Plain? && fuel > 0
    ensures Resolve(w, c, OptionalOf(t), suppress, skip, st, fuel) == Resolve(w, c, t, true, false, st, fuel - 1)
    ensures !IsUnresolvable(Resolve(w, c, OptionalOf(t), suppress, skip, st, fuel).r)
  {
    OptionalRoundTrip(t);
  }

  /** `str`, `int`, `float` and `bool` are never built: the request fails
      with `UnresolvableType` naming the key, or yields `None` when
      suppressed, and nothing else happens. */
  lemma PrimitiveKeysAreUnresolvable(w: World, c: Container, k: TypeKey, suppress: bool, skip: bool, st: State, fuel: nat)
    requires c.kind.Plain? && fuel > 0 && k in UnresolvableTypes
    ensures Resolve(w, c, k, suppress, skip, st, fuel)
         == Out(if suppress then Ok(Null) else Err(UnresolvableType(k)), st)
  {
  }

  /** A key that is neither `Optional[...]` nor primitive. */
  predicate Ordinary(k: TypeKey) {
    RemoveOptionalType(k).None? && k !in UnresolvableTypes
  }

  /** A definition wins over reflection unless `skip_definitions` is set;
      either way failures are renamed after the requested key. */
  lemma DefinitionPrecedence(w: World, c: Container, k: TypeKey, suppress: bool, st: State, fuel: nat)
    requires c.kind.Plain? && fuel > 0 && Ordinary(k)
    ensures k in c.registered ==>
      Resolve(w, c, k, suppress, false, st, fuel) == Recover(GetInstance(w, c, c.registered[k], st, fuel - 1), k, suppress)
    ensures k !in c.registered ==>
      Resolve(w, c, k, suppress, false, st, fuel) == Recover(ReflectionBuild(w, c, k, st, fuel - 1), k, suppress)
    ensures Resolve(w, c, k, suppress, true, st, fuel) == Recover(ReflectionBuild(w, c, k, st, fuel - 1), k, suppress)
  {
  }

  /** `c[K] = K` (an alias to its own key) builds `K` by reflection instead
      of looping, because `Alias` resolves with `skip_definitions`. */
  lemma SelfAliasBuildsByReflection(w: World, c: Container, k: TypeKey, suppress: bool, st: State, fuel: nat)
    requires c.kind.Plain? && fuel > 1 && Ordinary(k)
    requires k in c.registered && c.registered[k] == Alias(k)
    ensures Resolve(w, c, k, suppress, false, st, fuel) == Recover(ReflectionBuild(w, c, k, st, fuel - 2), k, suppress)
  {
    var inner := ReflectionBuild(w, c, k, st, fuel - 2);
    var viaAlias := Resolve(w, c, k, false, true, st, fuel - 1);
    assert viaAlias == ResolveBase(w, c, k, false, true, st, fuel - 2);
    assert viaAlias == Recover(inner, k, false);
    assert GetInstance(w, c, Alias(k), st, fuel - 1) == viaAlias;
    assert Resolve(w, c, k, suppress, false, st, fuel) == ResolveBase(w, c, k, suppress, false, st, fuel - 1);
    assert ResolveBase(w, c, k, suppress, false, st, fuel - 1) == Recover(viaAlias, k, suppress);
  }

  /** `ConstructionWithoutContainer` ignores the container it is given. */
  lemma WithoutContainerIgnoresContainer(w: World, c1: Container, c2: Container, f: Callable, st: State, fuel: nat)
    ensures GetInstance(w, c1, ConstructionWithoutContainer(f), st, fuel)
         == GetInstance(w, c2, ConstructionWithoutContainer(f), st, fuel)
  {
  }

  /** `ConstructionWithContainer` passes exactly the container it was given:
      `lambda c: c[T]` resolves `T` in that container. */
  lemma WithContainerPassesContainer(w: World, c: Container, sig: Func, t: TypeKey, st: State, fuel: nat)
    requires |sig.params| == 1
    ensures GetInstance(w, c, ConstructionWithContainer(Callable(sig, UseArg(t))), st, fuel)
         == Resolve(w, c, t, false, false, st, fuel)
  {
  }

  /** Constructions cache nothing: two `get_instance` calls of `lambda: C()`
      give two distinct objects. */
  lemma ConstructionIsNotCached(w: World, c: Container, cls: TypeKey, st: State, fuel: nat)
    ensures var d := ConstructionWithoutContainer(Callable(NoParams, New(cls)));
            var o1 := GetInstance(w, c, d, st, fuel);
            var o2 := GetInstance(w, c, d, o1.st, fuel);
            && o1.r.Ok? && o2.r.Ok? && o1.r.value.Obj? && o2.r.value.Obj?
            && o1.r.value.id != o2.r.value.id
  {
  }

  /** A filled singleton slot is returned as is, whatever container asks
      (a clone shares its parent's singletons) and without building. */
  lemma SingletonReturnsCachedInstance(w: World, c: Container, cell: nat, inner: Definition, st: State, fuel: nat)
    requires cell in st.cells && st.cells[cell] != Null
    ensures GetInstance(w, c, Singleton(cell, inner), st, fuel) == Out(Ok(st.cells[cell]), st)
  {
  }

  /** A singleton builds on its first `get_instance`, stores what it built,
      and from then on returns that same value without building again. */
  lemma SingletonBuildsOnce(w: World, c: Container, c2: Container, cell: nat, inner: Definition, st: State, fuel: nat, fuel2: nat)
    requires cell in st.cells && st.cells[cell] == Null
    ensures var o1 := GetInstance(w, c, Singleton(cell, inner), st, fuel);
            && o1.r == GetInstance(w, c, inner, st, fuel).r
            && (o1.r.Ok? && o1.r.value != Null ==>
                  GetInstance(w, c2, Singleton(cell, inner), o1.st, fuel2) == Out(o1.r, o1.st))
  {
  }

  /** A key defined as a singleton, once resolved to an instance, resolves
      to that same instance again and changes nothing. */
  lemma ResolvedSingletonIsStable(w: World, c: Container, k: TypeKey, st: State, fuel: nat)
    requires c.kind.Plain? && fuel > 0 && Ordinary(k)
    requires k in c.registered && c.registered[k].Singleton?
    ensures var o1 := Resolve(w, c, k, false, false, st, fuel);
            o1.r.Ok? && o1.r.value != Null ==> Resolve(w, c, k, false, false, o1.st, fuel) == o1
  {
    var d := c.registered[k];
    var g1 := GetInstance(w, c, d, st, fuel - 1);
    DefinitionPrecedence(w, c, k, false, st, fuel);
    if g1.r.Ok? && g1.r.value != Null {
      assert g1.st.cells[d.cell] == g1.r.value;
      assert GetInstance(w, c, d, g1.st, fuel - 1) == g1;
      DefinitionPrecedence(w, c, k, false, g1.st, fuel);
    }
  }

  /** A stored `None` counts as "no instance": a singleton whose definition
      produced `None` builds again on the next call. */
  lemma SingletonRebuildsAfterNone(w: World, c: Container, cell: nat, inner: Definition, st: State, fuel: nat)
    requires cell in st.cells && st.cells[cell] == Null
    requires GetInstance(w, c, inner, st, fuel).r == Ok(Null)
    ensures var o1 := GetInstance(w, c, Singleton(cell, inner), st, fuel);
            && o1.st.cells[cell] == Null
            && GetInstance(w, c, Singleton(cell, inner), o1.st, fuel).r == GetInstance(w, c, inner, o1.st, fuel).r
  {
  }

  /** Objects built by reflection are new on every request. */
  lemma ReflectionBuildsDistinctObjects(w: World, c: Container, k: TypeKey, st: State, fuel: nat)
    requires c.kind.Plain? && fuel > 0 && Ordinary(k) && k !in c.registered
    ensures var o1 := Resolve(w, c, k, false, false, st, fuel);
            var o2 := Resolve(w, c, k, false, false, o1.st, fuel);
            o1.r.Ok? && o2.r.Ok? ==> o1.r.value.Obj? && o2.r.value.Obj? && o1.r.value.id < o2.r.value.id
  {
    var o1 := Resolve(w, c, k, false, false, st, fuel);
    var o2 := Resolve(w, c, k, false, false, o1.st, fuel);
    DefinitionPrecedence(w, c, k, false, st, fuel);
    DefinitionPrecedence(w, c, k, false, o1.st, fuel);
  }

  /** The explicit container never builds what it was not told to build:
      the error names the key, and suppression yields `None`. */
  lemma ExplicitUndefinedKey(w: World, c: Container, k: TypeKey, skip: bool, st: State, fuel: nat)
    requires c.kind.Explicit? && fuel > 0 && k !in c.registered
    ensures Resolve(w, c, k, true, skip, st, fuel) == Out(Ok(Null), st)
    ensures Resolve(w, c, k, false, skip, st, fuel)
         == Out(Err(DependencyNotDefined(KeyName(k) + " has not been defined. In an explict container all dependencies must be defined")), st)
  {
    assert Resolve(w, c, k, true, skip, st, fuel) == ResolveExplicit(w, c, k, true, st, fuel - 1);
    assert Resolve(w, c, k, false, skip, st, fuel) == ResolveExplicit(w, c, k, false, st, fuel - 1);
  }

  /** The explicit container ignores `skip_definitions` and does not strip
      `Optional`: `Optional[T]` must itself be defined. */
  lemma ExplicitIgnoresSkipAndOptional(w: World, c: Container, k: TypeKey, t: TypeKey, suppress: bool, st: State, fuel: nat)
    requires c.kind.Explicit? && OptionalOf(t) !in c.registered
    ensures Resolve(w, c, k, suppress, true, st, fuel) == Resolve(w, c, k, suppress, false, st, fuel)
    ensures fuel > 0 ==> Resolve(w, c, OptionalOf(t), false, false, st, fuel).r.Err?
  {
  }

  /** An alias to its own key in an explicit container never resolves:
      the explicit `resolve` ignores `skip_definitions`, so the alias asks
      for itself again, whatever the recursion budget. */
  lemma {:induction false} ExplicitSelfAliasNeverResolves(w: World, c: Container, k: TypeKey, suppress: bool, skip: bool, st: State, fuel: nat)
    requires c.kind.Explicit? && k in c.registered && c.registered[k] == Alias(k)
    ensures Resolve(w, c, k, suppress, skip, st, fuel) == Out(Err(RecursionLimit), st)
    decreases fuel
  {
    if fuel > 0 {
      ExplicitSelfAliasNeverResolves(w, c, k, false, true, st, fuel - 1);
      assert GetInstance(w, c, Alias(k), st, fuel - 1) == Out(Err(RecursionLimit), st);
      assert ResolveExplicit(w, c, k, suppress, st, fuel - 1) == Out(Err(RecursionLimit), st);
    }
  }

  /** The older scoped container hands every key that is not a context
      type to the base `resolve`. */
  lemma LegacyDelegatesOtherKeys(w: World, c: Container, k: TypeKey, suppress: bool, skip: bool, st: State, fuel: nat)
    requires c.kind.LegacyContext? && k !in c.kind.contextTypes && fuel > 0
    ensures Resolve(w, c, k, suppress, skip, st, fuel) == ResolveBase(w, c, k, suppress, skip, st, fuel - 1)
  {
  }

  /** A context type of the older scoped container resolves only inside
      `with`: before `__enter__` the stack attribute does not exist, after
      `__exit__` it is `None`. */
  lemma LegacyContextTypeNeedsWith(w: World, c: Container, k: TypeKey, suppress: bool, skip: bool, st: State, fuel: nat)
    requires c.kind.LegacyContext? && k in c.kind.contextTypes && fuel > 0
    ensures c.kind.scope !in st.stacks ==> Resolve(w, c, k, suppress, skip, st, fuel) == Out(Err(AttributeError), st)
    ensures c.kind.scope in st.stacks && st.stacks[c.kind.scope].Cleared? ==>
      Resolve(w, c, k, suppress, skip, st, fuel) == Out(Err(AssertionError), st)
  {
  }

  /** Each resolution of a context type enters a new manager and pushes its
      exit on the scope's stack; the entered value is a new object, nothing
      is cached. */
  lemma LegacyContextTypeEntersManager(w: World, c: Container, k: TypeKey, suppress: bool, skip: bool, st: State, fuel: nat)
    requires c.kind.LegacyContext? && k in c.kind.contextTypes && fuel > 0
    ensures var o := Resolve(w, c, k, suppress, skip, st, fuel);
            var s := c.kind.scope;
            o.r.Ok? ==>
              && FirstDefined(c.registered, [IteratorOf(k), GeneratorOf(k)]).Some?
              && s in o.st.stacks && o.st.stacks[s].Open? && |o.st.stacks[s].entries| > 0
              && o.st.stacks[s].entries[|o.st.stacks[s].entries| - 1].ExitManager?
              && !o.st.stacks[s].entries[|o.st.stacks[s].entries| - 1].isAsync
              && o.r.value.Obj? && st.next <= o.r.value.id < o.st.next
  {
  }

  /** A scope's context resolver pushes the exit of the manager it entered
      on the scope's stack, sync or async as the resolver is. */
  lemma ContextResolverPushesExit(w: World, c: Container, s: nat, manager: Definition, isAsync: bool, st: State, fuel: nat)
    ensures var o := GetInstance(w, c, ContextResolver(s, manager, isAsync), st, fuel);
            o.r.Ok? ==>
              && s in o.st.stacks && o.st.stacks[s].Open? && |o.st.stacks[s].entries| > 0
              && o.st.stacks[s].entries[|o.st.stacks[s].entries| - 1] == ExitManager(o.st.stacks[s].entries[|o.st.stacks[s].entries| - 1].manager, isAsync)
    ensures s in st.stacks && st.stacks[s].Cleared? ==>
      GetInstance(w, c, ContextResolver(s, manager, isAsync), st, fuel) == Out(Err(AssertionError), st)
  {
  }

  /** A class whose constructor takes no parameters is built on the spot,
      with a new identity and no fields. */
  lemma BuildsWithoutDependencies(w: World, c: Container, k: TypeKey, suppress: bool, skip: bool, st: State, fuel: nat)
    requires c.kind.Plain? && fuel > 0 && Ordinary(k) && (skip || k !in c.registered)
    requires k in w.inits && w.inits[k].params == [] && w.inits[k].hints == [] && w.inits[k].raises.None?
    ensures Resolve(w, c, k, suppress, skip, st, fuel) == Out(Ok(Obj(st.next, k, map[])), st.(next := st.next + 1))
  {
    var init := w.inits[k];
    var spec := Reflect(init);
    assert spec.annotations == [];
    var deps := InferDependencies(w, c, spec, false, {}, 0, st, fuel - 1);
    assert ResolveAll(w, c, [], false, Skipped(spec, {}, 0), st, fuel - 1) == DepsOut(Ok(map[]), st);
    assert deps == DepsOut(Ok(map[]), st);
    assert Bind(init.params, [], map[]) == Ok(map[]);
    DefinitionPrecedence(w, c, k, suppress, st, fuel);
  }

  /** The dict comprehension of `_infer_dependencies` takes a wanted head
      annotation's value, then the rest's, resolved in the state after it. */
  lemma ResolveAllCons(w: World, c: Container, anns: seq<(string, TypeKey)>, suppress: bool, skip: set<string>, st: State, fuel: nat)
    requires |anns| > 0 && anns[0].1 != AnyType && anns[0].0 !in skip
    ensures var one := Resolve(w, c, anns[0].1, suppress, false, st, fuel);
            var more := ResolveAll(w, c, anns[1..], suppress, skip, one.st, fuel);
            one.r.Ok? && more.r.Ok? ==>
              ResolveAll(w, c, anns, suppress, skip, st, fuel) == DepsOut(Ok(map[anns[0].0 := one.r.value] + more.r.value), more.st)
  {
  }

  /** A single wanted annotation is resolved into a one-entry map. */
  lemma ResolveOneAnnotation(w: World, c: Container, n: string, t: TypeKey, suppress: bool, skip: set<string>, st: State, fuel: nat)
    requires t != AnyType && n !in skip
    ensures var one := Resolve(w, c, t, suppress, false, st, fuel);
            one.r.Ok? ==> ResolveAll(w, c, [(n, t)], suppress, skip, st, fuel) == DepsOut(Ok(map[n := one.r.value]), one.st)
  {
    var one := Resolve(w, c, t, suppress, false, st, fuel);
    if one.r.Ok? {
      assert [(n, t)][1..] == [];
      assert ResolveAll(w, c, [], suppress, skip, one.st, fuel) == DepsOut(Ok(map[]), one.st);
      ResolveAllCons(w, c, [(n, t)], suppress, skip, st, fuel);
      assert map[n := one.r.value] + map[] == map[n := one.r.value];
    }
  }

  /** The reflected spec of a one-parameter constructor. */
  lemma ReflectOneParameter(init: Func, n: string, t: TypeKey, dflt: Option<Value>)
    requires n != ReturnAnnotation
    requires init.params == [Param(n, true, dflt)] && init.hints == [(n, t)]
    ensures Reflect(init).annotations == [(n, t)]
    ensures Skipped(Reflect(init), {}, 0) == {}
  {
    assert KeptBefore(init.hints, 1) == 1;
  }

  /** The one annotation of a one-parameter constructor is resolved
      without suppression; `None` is dropped. */
  lemma InferOneDependency(w: World, c: Container, init: Func, n: string, t: TypeKey, dflt: Option<Value>, st: State, fuel: nat)
    requires n != ReturnAnnotation && t != AnyType
    requires init.params == [Param(n, true, dflt)] && init.hints == [(n, t)]
    ensures var one := Resolve(w, c, t, false, false, st, fuel);
            one.r.Ok? ==>
              InferDependencies(w, c, Reflect(init), false, {}, 0, st, fuel)
              == DepsOut(Ok(if one.r.value != Null then map[n := one.r.value] else map[]), one.st)
  {
    ReflectOneParameter(init, n, t, dflt);
    var one := Resolve(w, c, t, false, false, st, fuel);
    if one.r.Ok? {
      ResolveOneAnnotation(w, c, n, t, false, {}, st, fuel);
      DropsNullValue(InferDependencies(w, c, Reflect(init), false, {}, 0, st, fuel),
                     ResolveAll(w, c, [(n, t)], false, {}, st, fuel), n, one.r.value, one.st);
    }
  }

  /** Dropping the `None` values from a one-entry map. */
  lemma DropsNullValue(o: DepsOut, raw: DepsOut, n: string, v: Value, s: State)
    requires raw == DepsOut(Ok(map[n := v]), s)
    requires o.st == raw.st && (o.r.Err? <==> raw.r.Err?)
    requires o.r.Ok? ==> forall m :: m in o.r.value <==> m in raw.r.value && raw.r.value[m] != Null
    requires o.r.Ok? ==> forall m :: m in o.r.value ==> o.r.value[m] == raw.r.value[m]
    ensures o == DepsOut(Ok(if v != Null then map[n := v] else map[]), s)
  {
    var expected: map<string, Value> := if v != Null then map[n := v] else map[];
    assert o.r.Ok?;
    assert o.r.value.Keys == expected.Keys;
    assert forall m :: m in o.r.value ==> o.r.value[m] == expected[m];
    assert o.r.value == expected;
  }

  /** Binding a one-parameter constructor by keyword: a given value is
      taken, otherwise the default. */
  lemma BindOneParameter(n: string, dflt: Option<Value>, v: Value)
    ensures Bind([Param(n, true, dflt)], [], map[n := v]) == Ok(map[n := v])
    ensures dflt.Some? ==> Bind([Param(n, true, dflt)], [], map[]) == Ok(map[n := dflt.value])
  {
    var params := [Param(n, true, dflt)];
    assert NameSet(params) == {n};
    assert Bindable(params, [], map[n := v]);
    assert BoundValue(params, [], map[n := v], 0) == Some(v);
    if dflt.Some? {
      assert Bindable(params, [], map[]);
      assert BoundValue(params, [], map[], 0) == dflt;
    }
  }

  /** A class whose constructor takes one parameter `n` annotated `t` is
      built from what `t` resolves to, which is passed as `n`. */
  lemma BuildsFromOneDependency(w: World, c: Container, k: TypeKey, n: string, t: TypeKey, dflt: Option<Value>,
                                suppress: bool, st: State, fuel: nat)
    requires c.kind.Plain? && fuel > 0 && Ordinary(k) && k !in c.registered
    requires n != ReturnAnnotation && t != AnyType
    requires k in w.inits && w.inits[k] == Func([Param(n, true, dflt)], [(n, t)], ClassObj, None)
    ensures var one := Resolve(w, c, t, false, false, st, fuel - 1);
            one.r.Ok? && one.r.value != Null ==>
              Resolve(w, c, k, suppress, false, st, fuel)
              == Out(Ok(Obj(one.st.next, k, map[n := one.r.value])), one.st.(next := one.st.next + 1))
  {
    var one := Resolve(w, c, t, false, false, st, fuel - 1);
    if one.r.Ok? && one.r.value != Null {
      var built := Out(Ok(Obj(one.st.next, k, map[n := one.r.value])), one.st.(next := one.st.next + 1));
      ReflectionBuildOneDependency(w, c, k, n, t, dflt, st, fuel - 1, one, built);
      DefinitionPrecedence(w, c, k, suppress, st, fuel);
      assert Recover(built, k, suppress) == built;
    }
  }

  /** `_reflection_build` of a one-parameter constructor: a value the
      dependency resolves to is passed as `n`. */
  lemma ReflectionBuildOneDependency(w: World, c: Container, k: TypeKey, n: string, t: TypeKey, dflt: Option<Value>,
                                     st: State, fuel: nat, one: Out, built: Out)
    requires n != ReturnAnnotation && t != AnyType
    requires k in w.inits && w.inits[k] == Func([Param(n, true, dflt)], [(n, t)], ClassObj, None)
    requires one == Resolve(w, c, t, false, false, st, fuel) && one.r.Ok? && one.r.value != Null
    requires built == Out(Ok(Obj(one.st.next, k, map[n := one.r.value])), one.st.(next := one.st.next + 1))
    ensures ReflectionBuild(w, c, k, st, fuel) == built
  {
    var init := w.inits[k];
    var deps := InferDependencies(w, c, Reflect(init), false, {}, 0, st, fuel);
    InferOneDependency(w, c, init, n, t, dflt, st, fuel);
    BuildsWithOneParameter(k, init, deps, n, t, dflt, one.r.value, one.st);
    assert ReflectionBuild(w, c, k, st, fuel) == BuildWith(k, init, deps);
  }

  /** When the dependency resolves to `None` it is dropped, and the
      parameter keeps its default. */
  lemma ReflectionBuildKeepsDefault(w: World, c: Container, k: TypeKey, n: string, t: TypeKey, dflt: Option<Value>,
                                    st: State, fuel: nat, one: Out)
    requires n != ReturnAnnotation && t != AnyType
    requires k in w.inits && w.inits[k] == Func([Param(n, true, dflt)], [(n, t)], ClassObj, None)
    requires one == Resolve(w, c, t, false, false, st, fuel) && one.r == Ok(Null) && dflt.Some?
    ensures ReflectionBuild(w, c, k, st, fuel) == Out(Ok(Obj(one.st.next, k, map[n := dflt.value])), one.st.(next := one.st.next + 1))
  {
    var init := w.inits[k];
    var deps := InferDependencies(w, c, Reflect(init), false, {}, 0, st, fuel);
    InferOneDependency(w, c, init, n, t, dflt, st, fuel);
    BuildsWithOneParameter(k, init, deps, n, t, dflt, Null, one.st);
    assert ReflectionBuild(w, c, k, st, fuel) == BuildWith(k, init, deps);
  }

  /** Building a one-parameter constructor from its inferred dependencies. */
  lemma BuildsWithOneParameter(k: TypeKey, init: Func, deps: DepsOut, n: string, t: TypeKey, dflt: Option<Value>, v: Value, s: State)
    requires init == Func([Param(n, true, dflt)], [(n, t)], ClassObj, None)
    requires deps == DepsOut(Ok(if v != Null then map[n := v] else map[]), s)
    ensures v != Null ==> BuildWith(k, init, deps) == Out(Ok(Obj(s.next, k, map[n := v])), s.(next := s.next + 1))
    ensures v == Null && dflt.Some? ==> BuildWith(k, init, deps) == Out(Ok(Obj(s.next, k, map[n := dflt.value])), s.(next := s.next + 1))
  {
    BindOneParameter(n, dflt, v);
  }

  /** Two cars built by reflection under a singleton engine: each car is a
      new object, and both were given the one engine the singleton built. */
  lemma CarsShareSingletonEngine(w: World, c: Container, car: TypeKey, engine: TypeKey, cell: nat, st: State, fuel: nat)
    requires c.kind.Plain? && fuel > 2 && Ordinary(car) && Ordinary(engine) && engine != AnyType
    requires car !in c.registered && engine in c.registered && c.registered[engine] == Singleton(cell, Alias(engine))
    requires cell in st.cells && st.cells[cell] == Null
    requires car in w.inits && w.inits[car] == Func([Param("engine", true, None)], [("engine", engine)], ClassObj, None)
    requires engine in w.inits && w.inits[engine] == Func([], [], ClassObj, None)
    ensures var o1 := Resolve(w, c, car, false, false, st, fuel);
            var o2 := Resolve(w, c, car, false, false, o1.st, fuel);
            && o1.r.Ok? && o2.r.Ok? && o1.r.value.Obj? && o2.r.value.Obj?
            && o1.r.value.id != o2.r.value.id
            && "engine" in o1.r.value.fields && "engine" in o2.r.value.fields
            && o1.r.value.fields["engine"] == o2.r.value.fields["engine"]
            && o1.r.value.fields["engine"] == Obj(st.next, engine, map[])
  {
    var e := Obj(st.next, engine, map[]);
    var built := Resolve(w, c, engine, false, true, st, fuel - 2);
    BuildsWithoutDependencies(w, c, engine, false, true, st, fuel - 2);
    assert GetInstance(w, c, Alias(engine), st, fuel - 2) == built;
    var st1 := st.(next := st.next + 1).(cells := st.cells[cell := e]);
    assert GetInstance(w, c, Singleton(cell, Alias(engine)), st, fuel - 2) == Out(Ok(e), st1);
    DefinitionPrecedence(w, c, engine, false, st, fuel - 1);
    assert Resolve(w, c, engine, false, false, st, fuel - 1) == Out(Ok(e), st1);
    BuildsFromOneDependency(w, c, car, "engine", engine, None, false, st, fuel);
    var st2 := st1.(next := st1.next + 1);
    assert Resolve(w, c, car, false, false, st, fuel) == Out(Ok(Obj(st1.next, car, map["engine" := e])), st2);
    SingletonReturnsCachedInstance(w, c, cell, Alias(engine), st2, fuel - 2);
    DefinitionPrecedence(w, c, engine, false, st2, fuel - 1);
    assert Resolve(w, c, engine, false, false, st2, fuel - 1) == Out(Ok(e), st2);
    BuildsFromOneDependency(w, c, car, "engine", engine, None, false, st2, fuel);
  }
}

=== FILE: scopes.dfy ===
/** The single-use context scope of lagom/context_based.py
    (`_ContextContainer`): entering it gives a clone of the wrapped
    container in which each context type resolves by entering a context
    manager whose exit goes on the scope's exit stack, and each context
    singleton does so at most once; leaving it closes the stack. */
module Scopes {
  import opened Types
  import opened Reflection
  import opened Defs
  import opened Engine
  import opened Registry
  import opened Binding
  import opened ExitStacks
  import opened ResolutionLaws

  /** The wrapped container, the context types and singletons (as given),
      the scope's exit stack and whether it has been entered. */
  datatype Scope = Scope(container: Container, contextTypes: seq<TypeKey>, singletons: seq<TypeKey>, stack: nat, used: bool)

  datatype Opened = Opened(s: Scope, st: State)

  /** `_ContextContainer(container, context_types, context_singletons)`. */
  function NewScope(c: Container, types: seq<TypeKey>, singles: seq<TypeKey>, st: State): (o: Opened)
    ensures o.s.container == c && o.s.contextTypes == types && o.s.singletons == singles && !o.s.used
    ensures o.s.stack == st.next && o.st.next == st.next + 1 && o.st.stacks == st.stacks[o.s.stack := Open([])]
    ensures o.st.cells == st.cells && o.st.released == st.released
  {
    var (id, st1) := AllocStack(st, Open([]));
    Opened(Scope(c, types, singles, id, false), st1)
  }

  datatype Cloned = Cloned(r: Result<Scope>, st: State)

  /** `clone`: refused once the scope has been entered; otherwise a new,
      unused scope over the same container and lists with a stack of its own. */
  function ScopeClone(s: Scope, st: State): (o: Cloned)
    ensures s.used ==> o == Cloned(Err(ContextReuseError), st)
    ensures !s.used ==>
      && o.r.Ok? && !o.r.value.used
      && o.r.value.container == s.container
      && o.r.value.contextTypes == s.contextTypes && o.r.value.singletons == s.singletons
      && o.r.value.stack == st.next
      && o.st.stacks == st.stacks[o.r.value.stack := Open([])]
  {
    if s.used then Cloned(Err(ContextReuseError), st)
    else
      var o := NewScope(s.container, s.contextTypes, s.singletons, st);
      Cloned(Ok(o.s), o.st)
  }

  /** The keys `_context_type_def` tries for a context type, in order. */
  function ManagerKeys(t: TypeKey): seq<TypeKey> {
    [ContextManagerOf(t), IteratorOf(t), GeneratorOf(t)]
  }

  /** `_context_type_def`: the first of `ContextManager[T]`, `Iterator[T]`,
      `Generator[T, None, None]` the wrapped container defines, used as the
      manager of a resolver bound to this scope's stack. (Copying an alias
      with `skip_definitions` set changes nothing here: an alias always
      resolves skipping definitions.) */
  function ContextTypeDef(s: Scope, t: TypeKey): (r: Result<Definition>)
    ensures var reg := s.container.registered;
            && (r.Err? <==> ContextManagerOf(t) !in reg && IteratorOf(t) !in reg && GeneratorOf(t) !in reg)
            && (r.Err? ==> r.error == InvalidDependencyDefinition(NoContextManager(t)))
            && (ContextManagerOf(t) in reg ==> r == Ok(ContextResolver(s.stack, reg[ContextManagerOf(t)], false)))
            && (ContextManagerOf(t) !in reg && IteratorOf(t) in reg ==>
                  r == Ok(ContextResolver(s.stack, reg[IteratorOf(t)], false)))
            && (ContextManagerOf(t) !in reg && IteratorOf(t) !in reg && GeneratorOf(t) in reg ==>
                  r == Ok(ContextResolver(s.stack, reg[GeneratorOf(t)], false)))
  {
    var keys := ManagerKeys(t);
    assert keys[0] == ContextManagerOf(t) && keys[1] == IteratorOf(t) && keys[2] == GeneratorOf(t) && |keys| == 3;
    var d := FirstDefined(s.container.registered, keys);
    if d.None? then Err(InvalidDependencyDefinition(NoContextManager(t)))
    else Ok(ContextResolver(s.stack, d.value, false))
  }

  /** `_singleton_type_def`: the context type's definition behind a
      singleton with a fresh, empty slot. */
  function SingletonTypeDef(s: Scope, t: TypeKey, st: State): (n: Normalised)
    ensures n.r.Err? <==> ContextTypeDef(s, t).Err?
    ensures n.r.Err? ==> n.r == ContextTypeDef(s, t) && n.st == st
    ensures n.r.Ok? ==>
      && n.r.value == Singleton(st.next, ContextTypeDef(s, t).value)
      && n.st == AllocCell(st).1
  {
    var d := ContextTypeDef(s, t);
    if d.Err? then Normalised(d, st) else MakeSingleton(Special(d.value), st)
  }

  datatype Installed = Installed(r: Result<Container>, st: State)

  /** A key the scope can install into `c`: not primitive, not yet defined
      in this layer, and with a context manager definition. */
  predicate CanInstall(s: Scope, c: Container, t: TypeKey) {
    t !in UnresolvableTypes && t !in c.explicit && ContextTypeDef(s, t).Ok?
  }

  predicate Distinct(ts: seq<TypeKey>) {
    forall i, j :: 0 <= i < j < |ts| ==> ts[i] != ts[j]
  }

  /** `in_context[dep_type] = self._context_type_def(dep_type)` for each
      context type in turn. */
  function InstallContextTypes(s: Scope, c: Container, ts: seq<TypeKey>, st: State): (o: Installed)
    requires Distinct(ts)
    ensures o.st == st
    ensures o.r.Err? <==> exists i :: 0 <= i < |ts| && !CanInstall(s, c, ts[i])
    ensures o.r.Err? ==> o.r.error.InvalidDependencyDefinition? || o.r.error == DuplicateDefinition
    ensures o.r.Ok? ==>
      && o.r.value.kind == c.kind
      && o.r.value.explicit == c.explicit + (set t | t in ts)
      && o.r.value.registered.Keys == c.registered.Keys + (set t | t in ts)
      && (forall t :: t in ts ==> o.r.value.registered[t] == ContextTypeDef(s, t).value)
      && (forall k :: k in c.registered && k !in ts ==> o.r.value.registered[k] == c.registered[k])
    decreases |ts|
  {
    if |ts| == 0 then Installed(Ok(c), st)
    else
      var t := ts[0];
      var d := ContextTypeDef(s, t);
      if d.Err? then Installed(Err(d.error), st)
      else
        var df := Define(c, t, Special(d.value), st);
        if df.r.Err? then Installed(Err(df.r.error), st)
        else
          TailInstallable(s, c, df.c, ts);
          InstallContextTypes(s, df.c, ts[1..], df.st)
  }

  /** `k` holds a singleton over `d` in a slot allocated at or after
      `from`, still empty. */
  predicate FreshSingletonAt(c: Container, k: TypeKey, d: Definition, from: nat, st: State) {
    && k in c.registered
    && c.registered[k].Singleton?
    && c.registered[k].inner == d
    && from <= c.registered[k].cell < st.next
    && c.registered[k].cell in st.cells
    && st.cells[c.registered[k].cell] == Null
  }

  /** Installing the head of a list into `c` leaves the tail installable
      into the result exactly when it was installable into `c`. */
  lemma TailInstallable(s: Scope, c: Container, c2: Container, ts: seq<TypeKey>)
    requires Distinct(ts) && |ts| > 0 && c2.explicit == c.explicit + {ts[0]}
    ensures Distinct(ts[1..])
    ensures (exists i :: 0 <= i < |ts| && !CanInstall(s, c, ts[i])) <==>
            !CanInstall(s, c, ts[0]) || exists i :: 0 <= i < |ts| - 1 && !CanInstall(s, c2, ts[1..][i])
    ensures (set t | t in ts) == {ts[0]} + (set t | t in ts[1..])
    ensures ts[0] !in ts[1..]
  {
    assert forall i :: 0 <= i < |ts| - 1 ==> ts[1..][i] == ts[i + 1];
    assert forall x :: x in ts <==> x == ts[0] || x in ts[1..];
  }

  /** `in_context[dep_type] = self._singleton_type_def(dep_type)` for one key. */
  function InstallSingleton(s: Scope, c: Container, t: TypeKey, st: State): (o: Installed)
    ensures o.r.Err? <==> !CanInstall(s, c, t)
    ensures o.r.Err? ==> o.st == st && (o.r.error.InvalidDependencyDefinition? || o.r.error == DuplicateDefinition)
    ensures o.r.Ok? ==>
      && o.st == AllocCell(st).1
      && o.r.value == c.(registered := c.registered[t := Singleton(st.next, ContextTypeDef(s, t).value)],
                         explicit := c.explicit + {t})
  {
    var n := SingletonTypeDef(s, t, st);
    if n.r.Err? then Installed(Err(n.r.error), st)
    else
      var df := Define(c, t, Special(n.r.value), n.st);
      if df.r.Err? then Installed(Err(df.r.error), st) else Installed(Ok(df.c), df.st)
  }

  /** `in_context[dep_type] = self._singleton_type_def(dep_type)` for each
      context singleton in turn. */
  function InstallSingletons(s: Scope, c: Container, ts: seq<TypeKey>, st: State): (o: Installed)
    requires Distinct(ts)
    ensures Extends(st, o.st) && o.st.stacks == st.stacks
    ensures forall j :: j in st.cells && j < st.next ==> j in o.st.cells && o.st.cells[j] == st.cells[j]
    ensures o.r.Err? <==> exists i :: 0 <= i < |ts| && !CanInstall(s, c, ts[i])
    ensures o.r.Err? ==> o.r.error.InvalidDependencyDefinition? || o.r.error == DuplicateDefinition
    ensures o.r.Ok? ==>
      && o.r.value.kind == c.kind
      && o.r.value.explicit == c.explicit + (set t | t in ts)
      && o.r.value.registered.Keys == c.registered.Keys + (set t | t in ts)
      && o.st.next == st.next + |ts|
      && (forall k :: k in c.registered && k !in ts ==> o.r.value.registered[k] == c.registered[k])
    decreases |ts|
  {
    if |ts| == 0 then Installed(Ok(c), st)
    else
      var one := InstallSingleton(s, c, ts[0], st);
      if one.r.Err? then one
      else
        TailInstallable(s, c, one.r.value, ts);
        var rest := InstallSingletons(s, one.r.value, ts[1..], one.st);
        ExtendsTransitive(st, one.st, rest.st);
        rest
  }

  /** Each context singleton gets a slot of its own, allocated by this step
      and still empty. */
  lemma {:induction false} InstallSingletonsFresh(s: Scope, c: Container, ts: seq<TypeKey>, st: State)
    requires Distinct(ts)
    ensures var o := InstallSingletons(s, c, ts, st);
            o.r.Ok? ==> forall t :: t in ts ==> FreshSingletonAt(o.r.value, t, ContextTypeDef(s, t).value, st.next, o.st)
    decreases |ts|
  {
    var o := InstallSingletons(s, c, ts, st);
    if |ts| > 0 && o.r.Ok? {
      var t := ts[0];
      var one := InstallSingleton(s, c, t, st);
      TailInstallable(s, c, one.r.value, ts);
      assert o == InstallSingletons(s, one.r.value, ts[1..], one.st);
      InstallSingletonsFresh(s, one.r.value, ts[1..], one.st);
      assert o.r.value.registered[t] == one.r.value.registered[t];
      forall x | x in ts ensures FreshSingletonAt(o.r.value, x, ContextTypeDef(s, x).value, st.next, o.st) {
        if x != t {
          assert x in ts[1..];
        }
      }
    }
  }

  /** The result of `__enter__`: the scope afterwards (marked used) and the
      in-context container or the error raised. */
  datatype Entered = Entered(s: Scope, r: Result<Container>, st: State)

  /** Every listed key can be installed and no key is listed both ways. */
  predicate EnterSucceeds(s: Scope) {
    && (forall t :: t in s.contextTypes ==> CanInstall(s, Clone(s.container), t))
    && (forall t :: t in s.singletons ==> CanInstall(s, Clone(s.container), t) && t !in s.contextTypes)
  }

  /** What the in-context container `c` holds: a context resolver for each
      context type, a fresh empty singleton over one for each context
      singleton, the wrapped container's definitions for every other key,
      and only the listed keys defined in its own layer. */
  predicate InContext(s: Scope, c: Container, st: State, st2: State) {
    && LayerOf(s, c)
    && ResolversIn(s, c)
    && SingletonsIn(s, c, st, st2)
  }

  predicate LayerOf(s: Scope, c: Container) {
    && c.kind.Plain?
    && c.explicit == (set t | t in s.contextTypes) + (set t | t in s.singletons)
    && (forall k :: k in s.container.registered && k !in s.contextTypes && k !in s.singletons ==>
          k in c.registered && c.registered[k] == s.container.registered[k])
  }

  predicate ResolversIn(s: Scope, c: Container) {
    forall t :: t in s.contextTypes ==>
      ContextTypeDef(s, t).Ok? && t in c.registered && c.registered[t] == ContextTypeDef(s, t).value
  }

  predicate SingletonsIn(s: Scope, c: Container, st: State, st2: State) {
    forall t :: t in s.singletons ==>
      ContextTypeDef(s, t).Ok? && FreshSingletonAt(c, t, ContextTypeDef(s, t).value, st.next, st2)
  }

  /** The two loops of `__enter__` over a clone of the wrapped container. */
  function Populate(s: Scope, st: State): (o: Installed)
    ensures Extends(st, o.st) && o.st.stacks == st.stacks
  {
    var a := InstallContextTypes(s, Clone(s.container), Dedupe(s.contextTypes), st);
    if a.r.Err? then a else InstallSingletons(s, a.r.value, Dedupe(s.singletons), a.st)
  }

  /** A list installs without error exactly when each of its members can be installed. */
  lemma AllInstallable(s: Scope, c: Container, ts: seq<TypeKey>, xs: seq<TypeKey>)
    requires forall x :: x in xs <==> x in ts
    ensures (exists i :: 0 <= i < |ts| && !CanInstall(s, c, ts[i])) <==> !(forall t :: t in xs ==> CanInstall(s, c, t))
  {
    if exists i :: 0 <= i < |ts| && !CanInstall(s, c, ts[i]) {
      var i :| 0 <= i < |ts| && !CanInstall(s, c, ts[i]);
      assert ts[i] in xs;
    }
    if !(forall t :: t in xs ==> CanInstall(s, c, t)) {
      var t :| t in xs && !CanInstall(s, c, t);
      var i :| 0 <= i < |ts| && ts[i] == t;
    }
  }

  lemma PopulateSucceeds(s: Scope, st: State)
    ensures Populate(s, st).r.Ok? <==> EnterSucceeds(s)
  {
    var types, singles := Dedupe(s.contextTypes), Dedupe(s.singletons);
    var base := Clone(s.container);
    var a := InstallContextTypes(s, base, types, st);
    AllInstallable(s, base, types, s.contextTypes);
    if a.r.Ok? {
      AllInstallable(s, a.r.value, singles, s.singletons);
      assert forall t :: CanInstall(s, a.r.value, t) <==> CanInstall(s, base, t) && t !in s.contextTypes;
    }
  }

  /** The intermediate results of `Populate` when it succeeds. */
  lemma PopulateSteps(s: Scope, st: State) returns (a: Installed, b: Installed)
    requires Populate(s, st).r.Ok?
    ensures a == InstallContextTypes(s, Clone(s.container), Dedupe(s.contextTypes), st) && a.r.Ok?
    ensures b == InstallSingletons(s, a.r.value, Dedupe(s.singletons), a.st) && b == Populate(s, st)
    ensures forall t :: t in s.contextTypes ==> t in Dedupe(s.contextTypes) && t !in Dedupe(s.singletons)
    ensures forall t :: t in s.singletons <==> t in Dedupe(s.singletons)
    ensures EnterSucceeds(s)
  {
    a := InstallContextTypes(s, Clone(s.container), Dedupe(s.contextTypes), st);
    b := InstallSingletons(s, a.r.value, Dedupe(s.singletons), a.st);
    PopulateSucceeds(s, st);
  }

  lemma PopulateResolvers(s: Scope, st: State)
    requires Populate(s, st).r.Ok?
    ensures ResolversIn(s, Populate(s, st).r.value)
  {
    var a, b := PopulateSteps(s, st);
    forall t | t in s.contextTypes
      ensures ContextTypeDef(s, t).Ok? && t in b.r.value.registered && b.r.value.registered[t] == ContextTypeDef(s, t).value
    {
      assert t in a.r.value.registered;
    }
  }

  lemma PopulateSingletons(s: Scope, st: State)
    requires Populate(s, st).r.Ok?
    ensures SingletonsIn(s, Populate(s, st).r.value, st, Populate(s, st).st)
  {
    var a, b := PopulateSteps(s, st);
    InstallSingletonsFresh(s, a.r.value, Dedupe(s.singletons), a.st);
  }

  lemma PopulateLayer(s: Scope, st: State)
    requires Populate(s, st).r.Ok?
    ensures LayerOf(s, Populate(s, st).r.value)
  {
    var a, b := PopulateSteps(s, st);
    LayerFromSteps(s, Clone(s.container), a.r.value, b.r.value, Dedupe(s.contextTypes), Dedupe(s.singletons));
  }

  /** Two installation passes over a clone, one for a list with the
      context types' members and one for a list with the singletons'
      members, leave exactly the listed keys in the layer. */
  lemma LayerFromSteps(s: Scope, base: Container, a: Container, b: Container, cs: seq<TypeKey>, ss: seq<TypeKey>)
    requires base == Clone(s.container)
    requires forall t :: t in cs <==> t in s.contextTypes
    requires forall t :: t in ss <==> t in s.singletons
    requires a.kind == base.kind && a.explicit == base.explicit + (set t | t in cs)
    requires a.registered.Keys == base.registered.Keys + (set t | t in cs)
    requires forall k :: k in base.registered && k !in cs ==> a.registered[k] == base.registered[k]
    requires b.kind == a.kind && b.explicit == a.explicit + (set t | t in ss)
    requires b.registered.Keys == a.registered.Keys + (set t | t in ss)
    requires forall k :: k in a.registered && k !in ss ==> b.registered[k] == a.registered[k]
    ensures LayerOf(s, b)
  {
    assert (set t | t in cs) == (set t | t in s.contextTypes);
    assert (set t | t in ss) == (set t | t in s.singletons);
  }

  lemma PopulateContents(s: Scope, st: State)
    requires Populate(s, st).r.Ok?
    ensures InContext(s, Populate(s, st).r.value, st, Populate(s, st).st)
  {
    PopulateLayer(s, st);
    PopulateResolvers(s, st);
    PopulateSingletons(s, st);
  }

  lemma PopulateSpec(s: Scope, st: State)
    ensures var o := Populate(s, st);
            && (o.r.Ok? <==> EnterSucceeds(s))
            && (o.r.Ok? ==> InContext(s, o.r.value, st, o.st))
  {
    PopulateSucceeds(s, st);
    if Populate(s, st).r.Ok? {
      PopulateContents(s, st);
    }
  }

  /** `__enter__`: a used scope refuses; otherwise the scope is marked used
      and a clone of the wrapped container gets one definition per distinct
      context type, then one per distinct context singleton. The wrapped
      container itself is never changed. */
  function ScopeEnter(s: Scope, st: State): (e: Entered)
    ensures s.used ==> e == Entered(s, Err(ContextReuseError), st)
    ensures !s.used ==> e.s == s.(used := true)
    ensures Extends(st, e.st) && e.st.stacks == st.stacks
    ensures !s.used ==> (e.r.Ok? <==> EnterSucceeds(s))
    ensures e.r.Ok? ==> InContext(s, e.r.value, st, e.st)
  {
    if s.used then Entered(s, Err(ContextReuseError), st)
    else
      PopulateSpec(s, st);
      var o := Populate(s, st);
      Entered(s.(used := true), o.r, o.st)
  }

  /** The stack of a live scope exists and has not been reset. */
  predicate Live(s: Scope, st: State) {
    s.stack in st.stacks && st.stacks[s.stack].Open?
  }

  /** `__exit__`: the scope's stack is closed, newest release first, and
      stays usable (empty). */
  function ScopeExit(s: Scope, st: State): (r: State)
    requires Live(s, st)
    ensures AllManagers(st.stacks[s.stack].entries) ==>
      && r.released == st.released + Reverse(st.stacks[s.stack].entries)
      && r.stacks == st.stacks[s.stack := Open([])]
    ensures r.stacks.Keys == st.stacks.Keys && r.stacks[s.stack] == Open([]) && r.cells == st.cells && r.next == st.next
  {
    CloseStack(st, s.stack, Open([]))
  }

  /** A scope can be entered once: the second `__enter__` raises. */
  lemma EnterTwiceFails(s: Scope, st: State)
    requires !s.used
    ensures var e := ScopeEnter(s, st);
            ScopeEnter(e.s, e.st).r == Err(ContextReuseError)
  {
  }

  /** A key listed both as a context type and as a context singleton
      collides with itself on entry. */
  lemma BothListsCollide(c: Container, t: TypeKey, stack: nat, st: State)
    requires t !in UnresolvableTypes && ContextManagerOf(t) in c.registered
    ensures ScopeEnter(Scope(c, [t], [t], stack, false), st).r == Err(DuplicateDefinition)
  {
    var s := Scope(c, [t], [t], stack, false);
    assert Dedupe([t]) == [t];
    var a := InstallContextTypes(s, Clone(c), [t], st);
    assert a.r.Ok? && t in a.r.value.explicit;
    var n := SingletonTypeDef(s, t, a.st);
    assert Define(a.r.value, t, Special(n.r.value), n.st).r == Err(DuplicateDefinition);
  }

  /** Resolving a context type in the entered container runs the context
      resolver installed for it: the wrapped container's manager definition,
      entered onto this scope's stack. */
  lemma ContextTypeResolvesThroughScope(w: World, s: Scope, t: TypeKey, st: State, st2: State, fuel: nat)
    requires ScopeEnter(s, st).r.Ok? && t in s.contextTypes
    requires fuel > 0 && RemoveOptionalType(t).None? && t !in UnresolvableTypes
    ensures var c := ScopeEnter(s, st).r.value;
            var reg := s.container.registered;
            var m := FirstDefined(reg, ManagerKeys(t));
            && m.Some?
            && Resolve(w, c, t, false, false, st2, fuel)
               == Recover(GetInstance(w, c, ContextResolver(s.stack, m.value, false), st2, fuel - 1), t, false)
  {
    var c := ScopeEnter(s, st).r.value;
    assert InContext(s, c, st, ScopeEnter(s, st).st);
    assert c.registered[t] == ContextTypeDef(s, t).value;
  }

  /** A context singleton is entered at most once per scope: once resolved,
      resolving it again in the same in-context container gives the same
      instance and touches nothing. */
  lemma ContextSingletonOncePerScope(w: World, s: Scope, t: TypeKey, st: State, st2: State, fuel: nat)
    requires ScopeEnter(s, st).r.Ok? && t in s.singletons
    requires fuel > 0 && RemoveOptionalType(t).None? && t !in UnresolvableTypes
    ensures var c := ScopeEnter(s, st).r.value;
            var o1 := Resolve(w, c, t, false, false, st2, fuel);
            o1.r.Ok? && o1.r.value != Null ==> Resolve(w, c, t, false, false, o1.st, fuel) == o1
  {
    var c := ScopeEnter(s, st).r.value;
    assert SingletonsIn(s, c, st, ScopeEnter(s, st).st);
    ResolvedSingletonIsStable(w, c, t, st2, fuel);
  }

  /** Calling a function bound by the scope's `partial`: a fresh clone of
      the scope is entered, the function is bound to the in-context
      container and called, and the clone is exited however the call ends. */
  function ScopedCall(w: World, s: Scope, f: PyFunction, shared: seq<TypeKey>,
                      args: seq<Value>, kwargs: map<string, Value>, st: State, fuel: nat): (o: Out)
    ensures s.used ==> o == Out(Err(ContextReuseError), st)
    ensures !s.used ==>
      var cl := ScopeClone(s, st);
      var e := ScopeEnter(cl.r.value, cl.st);
      && (e.r.Err? ==> o == Out(Err(e.r.error), e.st))
      && cl.r.value.stack in o.st.stacks && o.st.stacks[cl.r.value.stack] == Open([])
      && (e.r.Ok? ==>
            var call := CallPartial(w, Partial(e.r.value, f, shared, {}, 0), args, kwargs, e.st, fuel);
            && InContext(cl.r.value, e.r.value, cl.st, e.st)
            && o.r == call.r
            && Live(cl.r.value, call.st)
            && o.st == ScopeExit(cl.r.value, call.st))
  {
    var cl := ScopeClone(s, st);
    if cl.r.Err? then Out(Err(cl.r.error), cl.st)
    else
      var e := ScopeEnter(cl.r.value, cl.st);
      if e.r.Err? then Out(Err(e.r.error), e.st)
      else
        var call := CallPartial(w, Partial(e.r.value, f, shared, {}, 0), args, kwargs, e.st, fuel);
        Out(call.r, ScopeExit(cl.r.value, call.st))
  }

  /** Inside a call bound by the scope's `partial`, a context type resolves
      by entering its first defined manager onto the clone's own, freshly
      drawn stack: the one the call closes when it ends. */
  lemma ScopedCallEntersOnCloneStack(w: World, s: Scope, t: TypeKey, st: State, st2: State, fuel: nat)
    requires !s.used && t in s.contextTypes
    requires fuel > 0 && RemoveOptionalType(t).None? && t !in UnresolvableTypes
    requires ScopeEnter(ScopeClone(s, st).r.value, ScopeClone(s, st).st).r.Ok?
    ensures var cl := ScopeClone(s, st);
            var c := ScopeEnter(cl.r.value, cl.st).r.value;
            var m := FirstDefined(s.container.registered, ManagerKeys(t));
            && cl.r.value.stack == st.next
            && m.Some?
            && Resolve(w, c, t, false, false, st2, fuel)
               == Recover(GetInstance(w, c, ContextResolver(st.next, m.value, false), st2, fuel - 1), t, false)
  {
    var cl := ScopeClone(s, st);
    ContextTypeResolvesThroughScope(w, cl.r.value, t, cl.st, st2, fuel);
  }
}

=== FILE: types.dfy ===
/** Shared vocabulary of the lagom model: type keys, runtime values, errors and
    the two failure-compatible wrappers every operation returns. */
module Types {

  datatype Option<+T> = None | Some(value: T)

  /** The origin of a parameterised typing construct (`Optional[T]` is a
      `Union[T, None]`, `Awaitable[T]`, `Iterator[T]`, ...). The two manager
      origins stand for the classes `contextlib.contextmanager` and
      `contextlib.asynccontextmanager` instantiate. */
  datatype Origin =
    | Union
    | Awaitable
    | ContextManager
    | AsyncContextManager
    | Iterator
    | Generator
    | AsyncGenerator
    | AwaitableSingletonOrigin
    | GeneratorManager
    | AsyncGeneratorManager
    | OtherOrigin(name: string)

  /** What a caller asks the container for: a class, `NoneType`, `typing.Any`,
      or a parameterised generic such as `Optional[T]`. */
  datatype TypeKey =
    | Class(name: string)
    | NoneType
    | AnyType
    | Generic(origin: Origin, args: seq<TypeKey>)

  function OptionalOf(t: TypeKey): TypeKey { Generic(Union, [t, NoneType]) }
  function AwaitableOf(t: TypeKey): TypeKey { Generic(Awaitable, [t]) }
  function ContextManagerOf(t: TypeKey): TypeKey { Generic(ContextManager, [t]) }
  function AsyncContextManagerOf(t: TypeKey): TypeKey { Generic(AsyncContextManager, [t]) }
  function IteratorOf(t: TypeKey): TypeKey { Generic(Iterator, [t]) }
  function GeneratorOf(t: TypeKey): TypeKey { Generic(Generator, [t, NoneType, NoneType]) }
  function AsyncGeneratorOf(t: TypeKey): TypeKey { Generic(AsyncGenerator, [t, NoneType]) }
  function AwaitableSingletonOf(t: TypeKey): TypeKey { Generic(AwaitableSingletonOrigin, [t]) }

  /** `UNRESOLVABLE_TYPES`: keys that may never be defined or built. */
  const UnresolvableTypes: set<TypeKey> :=
    {Class("str"), Class("int"), Class("float"), Class("bool")}

  function OriginName(o: Origin): string {
    match o
    case Union => "Union"
    case Awaitable => "Awaitable"
    case ContextManager => "ContextManager"
    case AsyncContextManager => "AsyncContextManager"
    case Iterator => "Iterator"
    case Generator => "Generator"
    case AsyncGenerator => "AsyncGenerator"
    case AwaitableSingletonOrigin => "AwaitableSingleton"
    case GeneratorManager => "_GeneratorContextManager"
    case AsyncGeneratorManager => "_AsyncGeneratorContextManager"
    case OtherOrigin(n) => n
  }

  /** The `__name__` of a key. */
  function KeyName(k: TypeKey): string {
    match k
    case Class(n) => n
    case NoneType => "NoneType"
    case AnyType => "Any"
    case Generic(o, _) => OriginName(o)
  }

  /** Runtime values. `Obj` is an object with an identity drawn from a counter,
      its class and the keyword arguments its constructor received (defaults
      included); `Record` is what a modelled function returns: the arguments it
      was bound to; `Handle` refers to an `AwaitableSingleton` object. */
  datatype Value =
    | Null
    | Lit(text: string)
    | Obj(id: nat, cls: TypeKey, fields: map<string, Value>)
    | Record(args: map<string, Value>)
    | Handle(id: nat)

  /** Python truthiness of a value: `None` and the empty string are false;
      objects, records and handles are true. */
  predicate Truthy(v: Value) {
    !v.Null? && !(v.Lit? && v.text == "")
  }

  /** Why a definition was refused (`InvalidDependencyDefinition`). */
  datatype Invalid =
    | PrimitiveKey
    | BadArity(arity: nat)
    | NoContextManager(key: TypeKey)
    | NotAGenerator
    | AliasInExplicit
    | AliasInSingletonInExplicit

  /** The exceptions of the core (and the Python built-ins it lets through). */
  datatype Error =
    | UnresolvableType(key: TypeKey)
    | DuplicateDefinition
    | InvalidDependencyDefinition(why: Invalid)
    | DependencyNotDefined(message: string)
    | ContextReuseError
    | MissingReturnType
    | ClassesCannotBeDecorated
    | MissingFeature
    | UnableToInvokeBoundFunction(unresolvable: seq<TypeKey>)
    | CompositionOverlap(first: nat, second: nat)
    | TypeError
    | AssertionError
    | AttributeError
    | NotAContextManager
    | RecursionLimit
    | Raised(name: string)

  /** The keys of a dict (or the members of a set) built from a list: first
      occurrences, in order. */
  function Dedupe<T(==,!new)>(xs: seq<T>): (r: seq<T>)
    ensures forall x :: x in r <==> x in xs
    ensures forall i, j :: 0 <= i < j < |r| ==> r[i] != r[j]
  {
    if |xs| == 0 then []
    else
      var rest := Dedupe(xs[..|xs| - 1]);
      assert forall x :: x in xs <==> x in xs[..|xs| - 1] || x == xs[|xs| - 1];
      if xs[|xs| - 1] in rest then rest else rest + [xs[|xs| - 1]]
  }

  /** The order in which an exit stack runs what was pushed on it. */
  function Reverse<T>(xs: seq<T>): (r: seq<T>)
    ensures |r| == |xs|
    ensures forall i :: 0 <= i < |xs| ==> r[i] == xs[|xs| - 1 - i]
  {
    if |xs| == 0 then [] else [xs[|xs| - 1]] + Reverse(xs[..|xs| - 1])
  }

  datatype Result<+T> = Ok(value: T) | Err(error: Error)

  predicate IsUnresolvable<T>(r: Result<T>) {
    r.Err? && r.error.UnresolvableType?
  }
}

=== FILE: updaters.dfy ===
/** `update_container_singletons` (lagom/updaters.py): a clone of a
    container in which each listed key becomes a singleton whose loader
    resolves that key from the original container. */
module Updaters {
  import opened Types
  import opened Defs
  import opened Registry
  import opened Binding

  /** The listed key at `i` cannot be defined in `temp` after the keys
      before it: it is primitive, already in the layer, or listed earlier. */
  predicate Faulty(temp: Container, deps: seq<TypeKey>, i: int)
    requires 0 <= i < |deps|
  {
    deps[i] in UnresolvableTypes || deps[i] in temp.explicit || exists j :: 0 <= j < i && deps[j] == deps[i]
  }

  /** The loop: `new_container[dep] = SingletonWrapper(loader)` for each
      listed key, the loader of the key at `i` resolving `targets[i]`. */
  function UpdateLoop(temp: Container, origin: Container, deps: seq<TypeKey>, targets: seq<TypeKey>, st: State): (s: Scoped)
    requires |targets| == |deps|
    ensures s.r.Err? <==> exists i :: 0 <= i < |deps| && Faulty(temp, deps, i)
    ensures s.r.Err? ==> s.r.error == InvalidDependencyDefinition(PrimitiveKey) || s.r.error == DuplicateDefinition
    decreases |deps|
  {
    if |deps| == 0 then Scoped(Ok(temp), st)
    else
      var n := MakeSingleton(Special(Loader(origin, targets[0])), st);
      var d := Define(temp, deps[0], Special(n.r.value), n.st);
      if d.r.Err? then
        assert Faulty(temp, deps, 0);
        Scoped(Err(d.r.error), st)
      else
        var rest := UpdateLoop(d.c, origin, deps[1..], targets[1..], d.st);
        TailFaulty(temp, d.c, deps);
        rest
  }

  /** After defining the head, a tail key is faulty in the new layer
      exactly when it was faulty in the old one. */
  lemma TailFaulty(temp: Container, temp2: Container, deps: seq<TypeKey>)
    requires |deps| > 0 && !Faulty(temp, deps, 0) && temp2.explicit == temp.explicit + {deps[0]}
    ensures (exists i :: 0 <= i < |deps| && Faulty(temp, deps, i)) <==>
            (exists i :: 0 <= i < |deps| - 1 && Faulty(temp2, deps[1..], i))
  {
    forall i | 1 <= i < |deps|
      ensures Faulty(temp, deps, i) <==> Faulty(temp2, deps[1..], i - 1)
    {
      if exists j :: 0 <= j < i && deps[j] == deps[i] {
        var j :| 0 <= j < i && deps[j] == deps[i];
        if j > 0 { assert deps[1..][j - 1] == deps[i]; }
      }
      if exists j :: 0 <= j < i - 1 && deps[1..][j] == deps[1..][i - 1] {
        var j :| 0 <= j < i - 1 && deps[1..][j] == deps[1..][i - 1];
        assert deps[j + 1] == deps[i];
      }
    }
    if exists i :: 0 <= i < |deps| - 1 && Faulty(temp2, deps[1..], i) {
      var i :| 0 <= i < |deps| - 1 && Faulty(temp2, deps[1..], i);
      assert Faulty(temp, deps, i + 1);
    }
  }

  /** Without faults the loop is the per-call singleton installer of
      `partial`. */
  lemma {:induction false} LoopIsInstallShared(temp: Container, origin: Container, deps: seq<TypeKey>, targets: seq<TypeKey>, st: State)
    requires Installable(temp, deps, targets)
    requires forall i :: 0 <= i < |deps| ==> deps[i] !in UnresolvableTypes
    ensures UpdateLoop(temp, origin, deps, targets, st) == InstallShared(temp, origin, deps, targets, st)
    decreases |deps|
  {
    if |deps| > 0 {
      var one := InstallOne(temp, origin, deps[0], targets[0], st);
      assert one.r.Ok?;
      assert forall i :: 0 <= i < |deps| - 1 ==> deps[1..][i] == deps[i + 1];
      LoopIsInstallShared(one.r.value, origin, deps[1..], targets[1..], one.st);
    }
  }

  /** `update_container_singletons` as written: every loader is a lambda
      over the loop variable, so once the loop is done they all resolve the
      LAST listed key. */
  function UpdateContainerSingletonsAsWritten(c: Container, deps: seq<TypeKey>, st: State): (s: Scoped)
    ensures s.r.Err? <==> exists i :: 0 <= i < |deps| && Faulty(Clone(c), deps, i)
  {
    if |deps| == 0 then Scoped(Ok(Clone(c)), st)
    else UpdateLoop(Clone(c), c, deps, seq(|deps|, _ => deps[|deps| - 1]), st)
  }

  /** `update_container_singletons` as intended: the loader of each key
      resolves that key. */
  function UpdateContainerSingletons(c: Container, deps: seq<TypeKey>, st: State): (s: Scoped)
    ensures s.r.Err? <==> exists i :: 0 <= i < |deps| && Faulty(Clone(c), deps, i)
    ensures s.r.Err? ==> s.r.error == InvalidDependencyDefinition(PrimitiveKey) || s.r.error == DuplicateDefinition
  {
    UpdateLoop(Clone(c), c, deps, deps, st)
  }

  /** With distinct, non-primitive keys the intended update succeeds: each
      key is a fresh, unbuilt singleton loading that key from the original
      container, and every other key keeps the original's definition. */
  lemma UpdateInstallsSingletons(c: Container, deps: seq<TypeKey>, st: State)
    requires |deps| > 0
    requires forall i, j :: 0 <= i < j < |deps| ==> deps[i] != deps[j]
    requires forall i :: 0 <= i < |deps| ==> deps[i] !in UnresolvableTypes
    ensures var s := UpdateContainerSingletons(c, deps, st);
            && s.r.Ok? && s.r.value.kind.Plain?
            && (forall k :: k in c.registered && k !in deps ==> k in s.r.value.registered && s.r.value.registered[k] == c.registered[k])
            && (forall i :: 0 <= i < |deps| ==> HoldsFreshSingleton(s, deps[i], Loader(c, deps[i]), st))
  {
    LoopIsInstallShared(Clone(c), c, deps, deps, st);
    assert UpdateContainerSingletons(c, deps, st) == BuildShared(c, deps, deps, st);
  }

  /** Listing a key twice fails on its second definition. */
  lemma DuplicateListedKeyFails(c: Container, a: TypeKey, st: State)
    requires a !in UnresolvableTypes
    ensures UpdateContainerSingletons(c, [a, a], st).r == Err(DuplicateDefinition)
  {
    var n := MakeSingleton(Special(Loader(c, a)), st);
    var d := Define(Clone(c), a, Special(n.r.value), n.st);
    assert d.r.Ok? && a in d.c.explicit;
    assert [a, a][1..] == [a];
    var n2 := MakeSingleton(Special(Loader(c, a)), d.st);
    assert Define(d.c, a, Special(n2.r.value), n2.st).r == Err(DuplicateDefinition);
    assert UpdateLoop(d.c, c, [a], [a], d.st).r == Err(DuplicateDefinition);
  }

  /** The finding: updating with `[A, B]` as written makes `A`'s singleton
      load `B`; the intended update loads `A`. */
  lemma UpdateLateBinding(c: Container, a: TypeKey, b: TypeKey, st: State)
    requires a != b && a !in UnresolvableTypes && b !in UnresolvableTypes
    ensures UpdateContainerSingletonsAsWritten(c, [a, b], st).r.Ok?
    ensures HoldsFreshSingleton(UpdateContainerSingletonsAsWritten(c, [a, b], st), a, Loader(c, b), st)
    ensures HoldsFreshSingleton(UpdateContainerSingletons(c, [a, b], st), a, Loader(c, a), st)
  {
    var deps := [a, b];
    var late := seq(|deps|, _ => deps[|deps| - 1]);
    assert late == [b, b];
    LoopIsInstallShared(Clone(c), c, deps, late, st);
    assert UpdateContainerSingletonsAsWritten(c, deps, st) == BuildShared(c, deps, late, st);
    UpdateInstallsSingletons(c, deps, st);
  }
}

=== FILE: wrapping.dfy ===
/** Calling a bound function (lagom/wrapping.py): the argument updater and
    the mapping of a `TypeError` to `UnableToInvokeBoundFunction`. */
module Wrapping {
  import opened Types
  import opened Reflection

  /** Calling a modelled function with `*args, **kwargs`: a binding failure
      is a `TypeError`; the body may raise; otherwise the function returns
      what it was bound to. */
  function Call(f: Func, args: seq<Value>, kwargs: map<string, Value>): (r: Result<Value>)
    ensures Bind(f.params, args, kwargs).Err? ==> r == Err(TypeError)
    ensures Bind(f.params, args, kwargs).Ok? && f.raises.Some? ==> r == Err(f.raises.value)
    ensures Bind(f.params, args, kwargs).Ok? && f.raises.None? ==> r == Ok(Record(Bind(f.params, args, kwargs).value))
    ensures r.Ok? <==> Bindable(f.params, args, kwargs) && kwargs.Keys <= NameSet(f.params) && f.raises.None?
    ensures r.Ok? ==> r.value.Record? && r.value.args.Keys == NameSet(f.params) && kwargs.Keys <= r.value.args.Keys
    ensures r.Ok? && DistinctNames(f.params) ==> forall n :: n in kwargs ==> r.value.args[n] == kwargs[n]
  {
    var b := Bind(f.params, args, kwargs);
    if b.Err? then Err(TypeError)
    else if f.raises.Some? then Err(f.raises.value)
    else Ok(Record(b.value))
  }

  /** The annotated parameter types whose names are not among the keyword
      arguments, in annotation order. */
  function UnresolvableDeps(anns: seq<(string, TypeKey)>, kwargs: map<string, Value>): (r: seq<TypeKey>)
    ensures |r| <= |anns|
    ensures forall t :: t in r <==> exists i :: 0 <= i < |anns| && anns[i].1 == t && anns[i].0 !in kwargs
  {
    if |anns| == 0 then []
    else
      var rest := UnresolvableDeps(anns[1..], kwargs);
      assert forall i :: 0 <= i < |anns| - 1 ==> anns[1..][i] == anns[i + 1];
      if anns[0].0 in kwargs then rest else [anns[0].1] + rest
  }

  /** The list keeps annotation order: the unresolvable types of a
      concatenation are those of each part, one after the other. */
  lemma {:induction false} UnresolvableDepsConcat(a: seq<(string, TypeKey)>, b: seq<(string, TypeKey)>, kwargs: map<string, Value>)
    ensures UnresolvableDeps(a + b, kwargs) == UnresolvableDeps(a, kwargs) + UnresolvableDeps(b, kwargs)
    decreases |a|
  {
    if |a| == 0 {
      assert a + b == b;
    } else {
      assert (a + b)[1..] == a[1..] + b;
      UnresolvableDepsConcat(a[1..], b, kwargs);
    }
  }

  /** Whether calling `f` runs its body. Calling a coroutine or (async)
      generator function only creates the coroutine or generator; its body
      runs later, when it is awaited or iterated. */
  predicate BodyRunsOnCall(f: Func) {
    !(f.kind.CoroutineFn? || f.kind.GeneratorFn? || f.kind.AsyncGeneratorFn?)
  }

  /** `_wrap_func_in_error_handling`: a `TypeError` raised while calling
      `func(*args, **kwargs)` becomes `UnableToInvokeBoundFunction` listing
      the annotated parameters missing from the keyword arguments. That is a
      binding failure, or a raise from a body that runs during the call; a
      coroutine's or generator's body raises later, outside the `try`, and
      its `TypeError` passes through like any other outcome. */
  function CallWithErrorHandling(f: Func, spec: FunctionSpec, args: seq<Value>, kwargs: map<string, Value>): (r: Result<Value>)
    ensures Bind(f.params, args, kwargs).Err? ==>
      r == Err(UnableToInvokeBoundFunction(UnresolvableDeps(spec.annotations, kwargs)))
    ensures Bind(f.params, args, kwargs).Ok? && f.raises == Some(TypeError) && BodyRunsOnCall(f) ==>
      r == Err(UnableToInvokeBoundFunction(UnresolvableDeps(spec.annotations, kwargs)))
    ensures Bind(f.params, args, kwargs).Ok? && f.raises == Some(TypeError) && !BodyRunsOnCall(f) ==>
      r == Err(TypeError)
    ensures Call(f, args, kwargs) != Err(TypeError) ==> r == Call(f, args, kwargs)
    ensures r.Err? && r.error == TypeError ==> Bind(f.params, args, kwargs).Ok? && !BodyRunsOnCall(f)
    ensures r.Ok? ==> r == Call(f, args, kwargs)
  {
    var r := Call(f, args, kwargs);
    if r == Err(TypeError) && (Bind(f.params, args, kwargs).Err? || BodyRunsOnCall(f)) then
      Err(UnableToInvokeBoundFunction(UnresolvableDeps(spec.annotations, kwargs)))
    else r
  }

  /** A bound call's outcome and whether the wrapper was a coroutine. */
  datatype BoundCall = BoundCall(isAsync: bool, r: Result<Value>)

  /** `apply_argument_updater`: the wrapper is async exactly when the
      function is a coroutine function; it sends the caller's arguments
      through the updater and calls the (possibly error-mapped) function
      with the updated pair. Awaiting is an ordinary step here. */
  function ApplyArgumentUpdater(f: Func, updater: ((seq<Value>, map<string, Value>)) -> (seq<Value>, map<string, Value>),
                                spec: FunctionSpec, catchErrors: bool, args: seq<Value>, kwargs: map<string, Value>): (b: BoundCall)
    ensures b.isAsync <==> f.kind.CoroutineFn?
    ensures var (a2, k2) := updater((args, kwargs));
            && (Call(f, a2, k2).Ok? ==> b.r == Call(f, a2, k2))
            && (!catchErrors ==> b.r == Call(f, a2, k2))
            && (catchErrors && Call(f, a2, k2) == Err(TypeError) && (Bind(f.params, a2, k2).Err? || BodyRunsOnCall(f)) ==>
                  b.r == Err(UnableToInvokeBoundFunction(UnresolvableDeps(spec.annotations, k2))))
            && (catchErrors && Call(f, a2, k2) == Err(TypeError) && Bind(f.params, a2, k2).Ok? && !BodyRunsOnCall(f) ==>
                  b.r == Err(TypeError))
  {
    var (a2, k2) := updater((args, kwargs));
    BoundCall(f.kind.CoroutineFn?, if catchErrors then CallWithErrorHandling(f, spec, a2, k2) else Call(f, a2, k2))
  }

  /** With the identity updater the wrapper is the function itself. */
  lemma IdentityUpdaterIsTransparent(f: Func, spec: FunctionSpec, args: seq<Value>, kwargs: map<string, Value>)
    ensures ApplyArgumentUpdater(f, p => p, spec, false, args, kwargs).r == Call(f, args, kwargs)
  {
  }
}
